=== FILE: README.md ===
# PID admission control for scientific workflows, in Dafny

This project models the scheduler core of a workflow simulator. The simulator runs a DAG of
tasks on compute resources. Each resource has compute units, a memory budget and optional local
storage, and all resources share one storage. One PID controller watches the shared-storage use,
and each resource has another that watches its memory use. Their signals decide, at each time
step, whether queued tasks may start or whether the most recently started task must be preempted.
When a task cannot start for lack of disk space, the scheduler creates a cleanup task. That task
removes files no pending or running task still needs.

The modules follow the source files:

| module | models |
|---|---|
| `Options` | the optional value used in place of `None` results |
| `Pid` | `Controller` (controller.py): dead-band, PID law, error history |
| `Files` | `File` and `FileLink` (file.py), and name-keyed file tables |
| `Storages` | `Storage` (resource.py): capacity, available space, the files held |
| `Tasks` | `Task` (task.py): construction, parents, readiness, status transitions |
| `Workflows` | `Workflow` (workflow.py): the task, pending and file registries |
| `Resources` | `ComputeResource` (resource.py): admission, file cleaning, finishing, preemption, memory sampling |
| `SchedulerState` | the state of `PIDScheduler` between loop iterations, its constants, required files |
| `Retirement` | step 1 of one iteration: finished tasks are retired |
| `Scheduler` | controller feeding, the idle-iteration shortcut, one whole iteration (`Tick`) |
| `Promotion` | ready pending tasks move to the queue |
| `Admission` | the randomized admission loop over the queue |
| `Preemption` | the preemption loop that runs while the disk controller signals overflow |
| `CleanupTasks` | `_create_cleanup_task` and its id counter |
| `Lifecycle` | how the task table, the queue and the units stay in step, and the status changes of one iteration |

Sizes, memory amounts, durations and times are integers. Controller state and signals are exact
reals. The workflow registry's lookups that raise `KeyError` return an error value here
(`Workflows.AddUse`, `Workflows.AddDependency`). The `KeyError` that admission raises with the
controllers off is a finding below. The random
choice and the two estimation tables are fields of `SchedulerState.Config`, so every property
holds for any choice and any table.

The central result is `Scheduler.TickInvariant`. It shows that one whole iteration of the main
loop preserves four facts:

- every storage's available space plus the size of its files equals its capacity;
- every resource's available memory plus the peak memory of the tasks it runs equals its memory capacity;
- cleanup tasks ask for no memory;
- no task is queued twice.

`Lifecycle.TickLifecycle` shows that one iteration also keeps the table, the queue and the
units in step. A queued id names a QUEUED task. A task a unit holds is the RUNNING record filed
under its id, and no two units hold the same task. Ids the cleanup counter will hand out are
still free. Under these links every task keeps its status or moves along
IDLE → QUEUED → RUNNING → COMPLETED, or from RUNNING back to IDLE when it is preempted.

## Model

| member | source | states |
|---|---|---|
| Pid.New | controller.py:28-35 | a new controller keeps the setpoint, gains and tolerance it is given and starts with zero integral and zero previous error |
| Pid.Process | controller.py:37-53 | inside the dead-band (error below setpoint times tolerance) the signal is 0 and the integral resets; otherwise the signal is kp·e + ki·(integral before the call) + kd·(previous error), and e is then added to the integral; in both cases e becomes the previous error and the tuning never changes |
| Pid.FeedOutOfBandClosedForm | controller.py:37-53 | from a fresh controller, if no measurement falls in the dead-band, the k-th signal equals kp·e_k + ki·(e_0+…+e_{k-1}) + kd·e_{k-1}, the final integral is the sum of all errors, and the final previous error is the last error |
| Pid.RepeatedErrorGrows | controller.py:41-53 | from a fresh controller, with nonnegative ki and kd not both zero, feeding the same positive out-of-band error twice gives a strictly larger second signal |
| Pid.ZeroToleranceNeverInDeadBand | controller.py:41-51 | with tolerance 0 no measurement is in the dead-band, so the integral always accumulates |
| Pid.FreshFirstSignal | controller.py:34-47 | the first out-of-band signal of a fresh controller is purely proportional |
| Pid.IntegralExample | controller.py:37-53 | setpoint 100 with unit gains and measurement 90 twice gives signals 10 and then 30 |
| Pid.DeadBandExample | controller.py:41-44 | measurement 98 against setpoint 100 at 5% tolerance gives signal 0, clears the integral and records error 2, whatever the history |
| Files.ParseLink | file.py:25-28 | a role is read back from exactly its spelling, and a string that spells no role gives no role |
| Files.LinkRoundTrip | file.py:25-28 | parsing a role's spelling returns that role, and distinct roles have distinct spellings |
| Files.FileEquality | file.py:36-37 | two files are equal exactly when name and size are equal |
| Files.PutUnique | workflow.py:70-75 | storing a file under its name keeps names unique and leaves exactly that file plus the old files with other names |
| Files.Delete | resource.py:249-257 | deleting a name leaves exactly the files with other names |
| Files.SizeDelete | resource.py:249-257 | in a table with unique names, deleting a held file lowers the total size by that file's size |
| Storages.New | resource.py:318-322 | a new storage is empty with all of its capacity available |
| Storages.Used | resource.py:324-329 | used space (capacity minus available) is the total size of the files held |
| Storages.Add | resource.py:208-219 | a file already held by name changes nothing; otherwise the file is added and its size is taken from the available space |
| Storages.AddValid | resource.py:208-219 | adding a file keeps available + total size == capacity and unique names |
| Storages.Remove | resource.py:249-257 | removing a held file returns its size to the available space and drops its name; removing an absent file changes nothing |
| Storages.RemoveValid | resource.py:249-257 | removing keeps the accounting invariant and leaves exactly the other files |
| Storages.AddRemoveRoundTrip | resource.py:208-257 | adding a file that was not held and then removing it restores the storage exactly |
| Storages.AddAll | resource.py:208-219 | adding a list of files keeps the capacity and the files already held, and afterwards the names held are the old names plus the names of the list |
| Storages.AddAllValid | resource.py:99-102 | adding all of a task's files keeps the accounting invariant |
| Storages.AddAllCharge | resource.py:99-102 | adding a list of files costs no more than the sizes of the files whose names were missing |
| Tasks.TransformationOfPrefixed | task.py:52 | a task id `name_rest` with no `_` in name belongs to transformation `name` |
| Tasks.NewTask | task.py:50-62 | a new task is idle with no start or end time, no files and no parents, and its transformation is its id's prefix |
| Tasks.AddParent | task.py:64-65 | the parent is among the parents afterwards, the other parents are unchanged, and nothing else about the task changes |
| Tasks.AddParentIdempotent | task.py:64-65 | adding the same parent twice is the same as adding it once |
| Tasks.CheckReady | task.py:67-71 | the scan of the parents answers true exactly when every parent is registered and completed |
| Tasks.Run | task.py:73-76 | running marks the task running from now and it ends duration steps later; the task's work is unchanged |
| Tasks.Preempt | task.py:78-81 | preempting returns the task to idle with no start or end time |
| Tasks.RunThenPreempt | task.py:73-81 | preempting a task that was just run from the unscheduled state restores it exactly |
| Tasks.Complete | resource.py:301-304 | completing changes only the status |
| Workflows.Empty | workflow.py:36-39 | a new workflow has no tasks, no pending tasks and no files, and counts as completed |
| Workflows.MarkPending | workflow.py:48 | a pending id keeps its place; a new id is appended |
| Workflows.AddTask | workflow.py:41-48 | the task is registered under its id and pending; other tasks and the files are unchanged; pending ids stay distinct; the workflow is no longer completed |
| Workflows.AddFile | workflow.py:50-57 | a file name already registered changes nothing; otherwise the file is registered |
| Workflows.AddFileIdempotent | workflow.py:50-57 | registering a second file of the same name keeps the first |
| Workflows.AddUse | workflow.py:59-75 | an unknown task id, then an unknown file name, is a KeyError; an unknown role changes nothing; otherwise only that task changes, receiving the file in the named role |
| Workflows.AddUseOneRole | workflow.py:59-75 | a use adds the file to exactly the named role of the task and leaves its other roles, status and times alone |
| Workflows.AddDependency | workflow.py:77-85 | an unknown child, then an unknown parent, is a KeyError; otherwise only the child changes, gaining the parent |
| Workflows.AddDependencyIdempotent | workflow.py:77-85 | repeating a dependency changes nothing |
| Resources.NewResource | resource.py:40-70 | a new resource holds unitCount idle units numbered from 0, has its full memory available and has local storage exactly when its local capacity is positive; its memory controller is a fresh controller aimed at threshold times capacity |
| Resources.FirstIdle | resource.py:82-83 | the chosen unit is the first idle one, and there is none when every unit is busy |
| Resources.RequiredStorage | resource.py:192-206 | the space a task needs is at most the total size of its files; it is that total when every file is missing, and zero when none is |
| Resources.MissingAtMostRequired | resource.py:192-206 | the space the admission test reserves covers at least the files missing from the storage the task writes to |
| Resources.RunTask | resource.py:72-111 | the resource refuses a transformation it does not run, then reports no idle unit; for a regular task, missing space (checked before memory) raises InsufficientSpace and a lack of memory raises InsufficientMemory; otherwise the first idle unit takes the task, a regular task's peak memory is reserved and its files are stored, and a cleanup task takes neither memory nor space |
| Resources.RunTaskValid | resource.py:72-111 | admitting a task keeps the memory and storage accounting invariants |
| Resources.RunTaskWithinCapacity | resource.py:87-102 | after a regular task is admitted, the storage it wrote to has not gone below zero available space |
| Resources.RunningOfHeld | resource.py:158-166 | a task counts as running exactly when it is not a cleanup task and some unit holds it |
| Resources.RunningOfFree | resource.py:158-166 | freeing a unit that runs a regular task leaves one running task fewer |
| Resources.UsedFiles | resource.py:141-156 | the files in use are exactly the input, intermediate and output files of the regular tasks the units hold |
| Resources.OtherBusyFiles | resource.py:239-247 | the files of the regular tasks that other units hold are exactly those files |
| Resources.RemoveResident | resource.py:249-257 | the removal loop keeps local storage present or absent, keeps both capacities, and only ever removes files |
| Resources.RemoveResidentSpec | resource.py:249-257 | removing files keeps the accounting invariants, never touches a file that was not listed, and without local storage removes exactly the listed shared files |
| Resources.CleanFiles | resource.py:221-257 | the corrected cleaning keeps local storage present or absent and the shared capacity, and only ever removes files |
| Resources.CleanFilesSpec | resource.py:221-257 | cleaning after a task keeps the accounting invariants, only frees space, never frees a required file or a file that another running task on the same resource uses, never frees a file outside the task's input and intermediates, and without local storage frees every other such file |
| Resources.CleanFilesKeepsOutputs | resource.py:227-231 | outputs of the task that are not also inputs (or intermediates of a regular task) are never freed |
| Resources.CleanFilesAsWritten | resource.py:221-257 | the source's cleaning keeps local storage present or absent and the shared capacity, and only ever removes files |
| Resources.CleanFilesAsWrittenSpec | resource.py:221-257 | the source's cleaning keeps the accounting invariants and never touches a file outside the task's input and intermediates |
| Resources.RemoveEachDistinct | resource.py:234-247 | removing the first occurrence of each listed file from a duplicate-free list leaves exactly the unlisted files |
| Resources.CleanFilesAsWrittenAgrees | resource.py:221-257 | when the task's input and intermediate lists share no file, the first-occurrence removal of the source frees the same files as the corrected cleaning |
| Resources.CleanFilesAsWrittenFreesRequiredFile | resource.py:227-237 | a file that is both input and intermediate of the task being cleaned, and also required, is freed by the source's cleaning but kept by the corrected one |
| Resources.ProcessFinishedTask | resource.py:113-121 | finishing frees the unit, returns the task's peak memory, cleans its files with nothing required, and marks the task completed |
| Resources.ProcessFinishedTaskValid | resource.py:113-121 | finishing keeps both accounting invariants, idles the unit, and keeps every file another running task on the same resource uses |
| Resources.ProcessFinishedTaskSameResourceOnly | resource.py:239-247 | without local storage, finishing frees a shared input or intermediate of the task that no other running regular task on the same resource uses, even if a task on another resource uses it |
| Resources.FirstHolding | resource.py:130-133 | the unit found is the first one holding the task, and none is found when no unit holds it |
| Resources.PreemptTask | resource.py:123-139 | a task no unit holds leaves everything unchanged and yields nothing; otherwise the first unit holding it is freed, its peak memory returned, its files cleaned with the required list protected, and the preempted (idle) task is returned |
| Resources.PreemptRunningTask | resource.py:123-139 | preempting a task among the running tasks always yields it |
| Resources.PreemptTaskValid | resource.py:123-139 | preemption keeps both accounting invariants and every required file, and removes one running task |
| Resources.ProcessFinishedTaskAsWritten | resource.py:113-121 | the source's finishing frees the unit, returns the task's peak memory and marks the task completed |
| Resources.ProcessFinishedTaskAsWrittenAgrees | resource.py:113-121 | when the finished task lists no file twice, the source's finishing is exactly the corrected one |
| Resources.ProcessFinishedTaskAsWrittenValid | resource.py:113-121 | the source's finishing keeps both accounting invariants |
| Resources.ProcessFinishedTaskAsWrittenFreesBusyFile | resource.py:239-247 | a file listed as input and intermediate by the finished task, and used once by another running task on the same resource, is freed by the source's finishing but kept by the corrected one |
| Resources.PreemptTaskAsWritten | resource.py:123-139 | the source's preemption of a task no unit holds changes nothing and yields nothing; otherwise it yields the idle task and returns its peak memory |
| Resources.PreemptTaskAsWrittenAgrees | resource.py:123-139 | when the preempted task lists no file twice, the source's preemption is exactly the corrected one with the required list read as a set |
| Resources.PreemptTaskAsWrittenValid | resource.py:123-139 | the source's preemption keeps both accounting invariants |
| Resources.PreemptTaskAsWrittenFreesRequiredFile | resource.py:233-237 | a required file listed as input and intermediate by the preempted task is freed by the source's preemption but kept by the corrected one |
| Resources.MemControllerInput | resource.py:181-190 | the memory controller is fed the memory in use, and the returned signal is capped at the memory capacity |
| SchedulerState.NewSim | pid_scheduler.py:67-92 | the scheduler starts at time 0 with an empty queue, cleanup counter 1, the schedule marked changed, a fresh disk controller aimed at the storage limit, and each resource's memory controller reset to threshold times capacity |
| SchedulerState.DropId | pid_scheduler.py:184 | removing a task from the queue leaves exactly the other ids |
| SchedulerState.DropIdDistinct | pid_scheduler.py:184 | removal keeps the queue free of duplicates |
| SchedulerState.RequiredFiles | pid_scheduler.py:279-290 | the required files are exactly the input files of the pending tasks |
| Retirement.FreeIfDue | pid_scheduler.py:103-105 | a unit whose task ends by now is idle afterwards; any other unit is unchanged |
| Retirement.Record | pid_scheduler.py:104-106 | the finished task is recorded and no longer pending; other tasks and the files are untouched |
| Retirement.RetireSpec | pid_scheduler.py:99-108 | after retiring, every unit whose task has ended is idle, every other unit is unchanged, and no unit is due; with nothing due the state is unchanged |
| Retirement.RetireRetires | pid_scheduler.py:99-108 | every task whose end time has come is recorded as completed and removed from pending |
| Retirement.RetireValid | pid_scheduler.py:99-108 | retiring keeps the scheduler invariant |
| Promotion.EligibleAfterQueue | pid_scheduler.py:146-149 | queueing one eligible task leaves exactly the other eligible tasks eligible |
| Promotion.Promote | pid_scheduler.py:145-149 | the old queue is kept as a prefix; the appended ids are exactly the pending tasks that were idle, unqueued and ready, each once; exactly those tasks become queued |
| Admission.FirstDecisive | pid_scheduler.py:175-182 | every resource before the one found passes the task on (gated by memory, or refusing it without error) and the one found does not |
| Admission.TryFrom | pid_scheduler.py:174-201 | trying the resources in order settles on the first decisive resource, or leaves the round unchanged and unplaced when there is none |
| Admission.TryFromSettles | pid_scheduler.py:174-201 | an unplaced or failed attempt leaves the round unchanged; a placement happens on the first decisive resource, which the memory gate let through and whose unit admitted the task |
| Admission.Placement | pid_scheduler.py:181-190 | a placed task runs from now and leaves the queue, the schedule is marked changed, and for a regular task both the disk budget and the resource's memory budget drop by its estimates |
| Admission.AdmitStep | pid_scheduler.py:165-203 | a draw removes the drawn id from the remaining candidates and keeps one memory budget per resource |
| Admission.AdmitStepSpec | pid_scheduler.py:165-203 | an unknown or storage-gated task changes nothing; any other task is placed exactly when trying the resources in order places it, with that attempt's round; the loop stops exactly when that attempt placed the task or found no taker and, with the controllers on, the shared storage is then over the limit; a placed task is run and leaves the queue; an unplaced task changes nothing but the space-error flag, which once set stays set |
| Admission.AdmitStepBudgets | pid_scheduler.py:169-194 | with the controllers on, a budget only changes when it stays nonnegative; the loop stops only when the shared storage exceeds the limit |
| Admission.AdmitLoopQueue | pid_scheduler.py:163-203 | the admission loop only removes tasks from the queue and registers no new task |
| Admission.AdmitLoopTasks | pid_scheduler.py:163-203 | every task leaving the queue was a candidate and is now running from now; every other task is unchanged |
| Admission.AdmitLoopChanged | pid_scheduler.py:163-203 | the schedule is marked changed exactly when it already was or some task left the queue |
| Admission.AdmitLoopBudgets | pid_scheduler.py:163-203 | the space-error flag is never cleared, and with the controllers on, no budget is driven below zero |
| Admission.AdmitLoopValid | pid_scheduler.py:163-203 | the admission loop keeps both accounting invariants everywhere |
| Admission.AdmitLoopDistinct | pid_scheduler.py:163-203 | the admission loop keeps the queue free of duplicates |
| Admission.MemDict | pid_scheduler.py:113-118 | the memory-signal dict has an entry for every resource when the controllers are on and no entry when they are off |
| Admission.AdmitStepAsWritten | pid_scheduler.py:187-189 | with the controllers on, the source's draw is the modelled draw; with them off it raises exactly when the draw places a regular task |
| Admission.AdmitLoopAsWrittenAgrees | pid_scheduler.py:163-203 | with the controllers on, the source's admission loop never raises and is the modelled loop |
| Admission.NoPidAdmissionRaises | pid_scheduler.py:187-189 | with the controllers off, one queued regular task that fits an idle unit is started by the modelled loop, and the source's loop raises |
| Admission.NoPidIgnoresBudgets | pid_scheduler.py:163-203 | with the controllers off, admission with any other budgets makes the same placements and the same queue, table, resources and storage; only the budgets differ |
| Preemption.RunningFromReplace | pid_scheduler.py:220-222 | replacing one resource by one with a running task fewer lowers the overall running count by one |
| Preemption.Latest | pid_scheduler.py:224-228 | the chosen running task has the latest start time, and it is the first one with that start time in resource order |
| Preemption.PreemptStep | pid_scheduler.py:215-240 | with the disk budget nonnegative or at most one task running nothing is preempted; otherwise the preempted task is the latest started one (`Latest`, first on ties), it is filed idle, the disk budget rises by its storage estimate, the schedule changes, a running task fewer remains, queue and memory budgets are unchanged, and every task touched is idle and not a cleanup task |
| Preemption.PreemptStepProceeds | pid_scheduler.py:230-240 | while the budget is negative and more than one task runs, a preemption always happens |
| Preemption.PreemptLoopSpec | pid_scheduler.py:214-240 | the preemption loop only idles regular tasks, keeps queue and memory budgets, and either changes nothing or lowers the running count and marks the schedule changed |
| Preemption.PreemptLoopStops | pid_scheduler.py:214-240 | when the loop ends, the disk budget is nonnegative or at most one task still runs |
| Preemption.PreemptLoopValid | pid_scheduler.py:214-240 | the preemption loop keeps both accounting invariants everywhere |
| CleanupTasks.NatToStringRoundTrip | pid_scheduler.py:262 | the decimal spelling of the counter reads back as the counter |
| CleanupTasks.CleanupIdsDistinct | pid_scheduler.py:262-275 | distinct counter values give distinct cleanup ids |
| CleanupTasks.CleanupTransformation | pid_scheduler.py:262-263 | a cleanup id belongs to the transformation `cleanup` |
| CleanupTasks.AllUsedFiles | pid_scheduler.py:253-255 | the used files are exactly those some resource's running regular tasks use |
| CleanupTasks.SizeZero | pid_scheduler.py:265-272 | a list of files has total size zero exactly when every file in it is empty |
| CleanupTasks.CreateCleanupTask | pid_scheduler.py:248-277 | no task is created exactly when every shared file that is neither required nor in use is empty; otherwise the task is the next cleanup id, takes exactly those files as input, lasts 10 steps per byte and needs no memory, and the counter advances |
| CleanupTasks.NothingToClean | pid_scheduler.py:271-272 | when every shared file is required or in use, no task is created and the counter stays |
| Scheduler.SampleMemory | pid_scheduler.py:117-118 | every memory controller is fed once, each signal is capped at the resource's memory capacity, and only the controllers change |
| Scheduler.Feed | pid_scheduler.py:110-118 | with sampling, the disk controller is fed the used shared storage and every memory controller is sampled; without it, the signals are zero and nothing changes |
| Scheduler.TickIdle | pid_scheduler.py:140-141 | an iteration with nothing finished and no schedule change only advances the clock |
| Scheduler.AfterAdmission | pid_scheduler.py:207-211 | recording an admission round keeps the time and the disk controller |
| Scheduler.AfterAdmissionValid | pid_scheduler.py:207-211 | recording the admission round, with a cleanup task when one is created, keeps the scheduler invariant |
| Scheduler.Schedule | pid_scheduler.py:143-240 | the scheduling half of an iteration keeps the time and the disk controller |
| Scheduler.ScheduleValid | pid_scheduler.py:143-240 | promotion followed by admission or preemption keeps the scheduler invariant |
| Scheduler.TickInvariant | pid_scheduler.py:94-240 | one whole iteration of the main loop keeps the scheduler invariant and the set of resources |
| Lifecycle.NewSimCoherent | pid_scheduler.py:67-92 | a scheduler started on idle units and a table filed by id, with no cleanup id taken, is coherent |
| Lifecycle.RetireLinks | pid_scheduler.py:99-108 | retiring keeps the links and the table's ids, and moves tasks only from RUNNING to COMPLETED |
| Lifecycle.PromoteLinks | pid_scheduler.py:145-149 | promotion keeps the links and the table's ids, and moves tasks only from IDLE to QUEUED |
| Lifecycle.AdmitStepLinks | pid_scheduler.py:165-203 | a draw keeps the links and the table's ids, moves tasks only from QUEUED to RUNNING, and the remaining candidates stay queued |
| Lifecycle.AdmitLoopLinks | pid_scheduler.py:163-203 | the admission loop keeps the links and the table's ids, and moves tasks only from QUEUED to RUNNING |
| Lifecycle.PreemptTaskLinks | resource.py:123-139 | a preempted task was running, and freeing its unit and filing it idle keeps the links |
| Lifecycle.PreemptLoopLinks | pid_scheduler.py:214-240 | the preemption loop keeps the links and the table's ids, and moves tasks only from RUNNING to IDLE |
| Lifecycle.AfterAdmissionLinks | pid_scheduler.py:207-211 | recording the round keeps the links and the fresh cleanup ids; an added cleanup task is idle under a new id and every other task is unchanged |
| Lifecycle.ScheduleLinks | pid_scheduler.py:143-240 | promotion followed by admission or preemption keeps the links, and every task advances along its life cycle |
| Lifecycle.TickLifecycle | pid_scheduler.py:94-240 | one iteration keeps the links; every task keeps its status or moves IDLE → QUEUED → RUNNING → COMPLETED or RUNNING → IDLE; no task disappears and new tasks are idle |

## Left out

- simulator.py and generate_workflow.py: they read and write files and parse command-line options. They are not part of this model.
- Output: the `print` statements and `print_dictionary_ids` are left out. So are the print-only clamps at pid_scheduler.py:128-136 and `STORAGE_CAPACITY`, which feed nothing back into the schedule.
- `__str__`, `__repr__` and logging: presentation only.
- Floating point: sizes, memory and durations are integers, and controller values are exact reals. Float rounding in the PID law is not modelled.
- Randomness: `random.choice` becomes the `choose` field of `SchedulerState.Config`, read modulo the candidate count.
- The estimation tables (pid_scheduler.py:47-64) become the total functions `storageEstimate` and `memoryEstimate`. The `KeyError` the source raises at pid_scheduler.py:170 and :177 for a transformation missing from them is not modelled.
- The main `while not is_completed()` loop: one iteration is modelled (`Scheduler.Tick`). Termination of the whole simulation, and the makespan, are not modelled.
- Iteration order: the source is Python 2, whose dicts iterate in hash order. The model keeps `pending_tasks` and the file dicts in insertion order. Only the order of the candidates handed to `choose`, and the order promotion appends to the queue, depend on it; no property does, because `choose` is arbitrary.
- Object identity: tasks are values in a table keyed by id, and units and resources are positions in sequences. `task not in self.queue` and `queue.remove(task)` become id tests and `SchedulerState.DropId`.
- Cleanup tasks: the source puts them only into `pending_tasks`. The model also registers them in the task table, because that is where it keeps every task's state. Nothing in the core reads the task table to find pending work.
- `del pending_tasks[id]` on retirement removes the id if present. In the source a missing id would raise `KeyError`, but a running task is always pending.
- Memory signals when no sampling happens are zero, where the source leaves `mem_controllers` empty. With the controllers on nothing reads them then, because the iteration ends early at pid_scheduler.py:140-141. With the controllers off the source's admission does read the empty dict and raises; see Findings.
- Scheduler.Tick: with the controllers off it uses the corrected admission, in which the budgets play no part (`Admission.NoPidIgnoresBudgets`). The source raises `KeyError` on the first regular placement instead; that version is `Admission.AdmitLoopAsWritten`.
- Resources.ProcessFinishedTask: the iteration uses this corrected finishing, which cleans with `CleanFiles`. The source's list arithmetic is `ProcessFinishedTaskAsWritten`. The two agree when the task lists no file twice (`ProcessFinishedTaskAsWrittenAgrees`).
- Resources.PreemptTask: the iteration uses this corrected preemption, which cleans with `CleanFiles`. The source's list arithmetic is `PreemptTaskAsWritten`. The two agree when the task lists no file twice (`PreemptTaskAsWrittenAgrees`).
- ProcessFinishedTaskValid: the protection of files other running tasks on the same resource use is a property of the corrected cleaning. As written, a file the finished task lists twice is freed under another running task on the same resource; see Findings. `ProcessFinishedTaskAsWrittenValid` gives only the accounting.
- PreemptTaskValid: the protection of required files is a property of the corrected cleaning. As written, a required file the preempted task lists twice is freed; see Findings. `PreemptTaskAsWrittenValid` gives only the accounting.
- Files of tasks on other resources: `_clean_files` protects only the files of the busy units of the resource doing the cleaning (resource.py:239-247). When resources share one storage, finishing or preempting a task frees a shared file that a task running on another resource still uses. The source does this, and so does the model (`Resources.ProcessFinishedTaskSameResourceOnly`). No property protects such files.
- Resources.CleanFiles, Resources.CleanFilesAsWritten, Resources.RemoveResident: their own contracts state only that cleaning removes files. What they remove is stated by `CleanFilesSpec`, `CleanFilesAsWrittenSpec` and `RemoveResidentSpec`.
- Admission.AdmitStep, Scheduler.AfterAdmission, Scheduler.Schedule: their own contracts state only framing. Their behaviour is stated by `AdmitStepSpec`, `AfterAdmissionValid`, `AfterAdmissionLinks`, `ScheduleValid` and `ScheduleLinks`.
- Preemption.PreemptLoop: if `preempt_task` ever returned `None`, the source would loop forever. The model stops instead. `Preemption.PreemptStepProceeds` shows that this case never occurs.
- Preemption.PreemptLoop, Admission.AdmitLoop, Retirement.Retire, Scheduler.Tick: their own contracts state only sizes and framing. Their behaviour is stated by the companion lemmas listed above (`PreemptLoopSpec`, `AdmitLoopTasks`, `RetireSpec`, `TickInvariant`, `TickLifecycle` and the rest).
- Pid.Feed: its own contract states only lengths and tuning. `Pid.FeedOutOfBandClosedForm` gives the closed form when no measurement hits the dead-band.
- Commented-out code in the source is not modelled.

## Findings

| source | as written | input that shows it | evidently intended | confidence | as-written member | corrected member |
|---|---|---|---|---|---|---|
| resource.py:233-237 | `_clean_files` builds the candidate list from input plus intermediate files, then removes each required file once with `list.remove`, which drops only the first occurrence | preempting a task whose file `a` is both input and intermediate, with `a` required by a pending task: one copy of `a` stays a candidate, and `a` is freed from storage | a required file is never freed | not executed | Resources.PreemptTaskAsWrittenFreesRequiredFile | Resources.PreemptTaskValid |
| resource.py:239-247 | the same list arithmetic for the files of the other running tasks on the same resource: each of their files is removed from the candidates once | finishing a task whose file `a` is both input and intermediate while another running regular task on the same resource uses `a`: one copy of `a` stays a candidate, and `a` is freed under the other task | a file that another running regular task on the same resource uses is never freed | not executed | Resources.ProcessFinishedTaskAsWrittenFreesBusyFile | Resources.ProcessFinishedTaskValid |
| pid_scheduler.py:187-189 | with the controllers off, `mem_controllers` stays empty (lines 113-118), and placing a regular task runs `mem_controllers[compute_resource] -= ...`; the `KeyError` is not caught | `--no-pid`, one resource with an idle unit, one queued regular task that fits: the task is placed and the iteration raises | with the controllers off the budgets play no part, and admission simply places tasks | not executed | Admission.NoPidAdmissionRaises | Admission.NoPidIgnoresBudgets |

=== FILE: admission.dfy ===
/**
 The admission step of `PIDScheduler.start` (pid_scheduler.py), run when the controllers are
 off or the disk signal is positive: queued tasks are drawn at random; a regular task whose
 storage estimate exceeds the remaining storage budget is skipped; otherwise the resources
 are tried in order, skipping those whose memory budget is below the task's memory estimate,
 until one admits it.  A storage shortage or a memory shortage abandons the task for this
 iteration; with the controllers on, crossing the storage limit ends the step.
 */
module Admission {
  import opened Tasks
  import opened SchedulerState
  import Storages
  import Resources
  import Pid
  import opened Options

  datatype Outcome = Placed | Unplaced | SpaceFailure | MemoryFailure

  /** With the controllers on, a regular task is not even tried when its storage estimate exceeds the budget. */
  predicate StorageGated(cfg: Config, rd: Round, t: Task) {
    cfg.enablePid && t.kind != Cleanup && cfg.storageEstimate(t.transformation) > rd.diff
  }

  /** With the controllers on, resource k is skipped for a regular task whose memory estimate exceeds its budget. */
  predicate MemoryGated(cfg: Config, rd: Round, t: Task, k: nat)
    requires k < |rd.mem|
  {
    cfg.enablePid && t.kind != Cleanup && cfg.memoryEstimate(t.transformation) > rd.mem[k]
  }

  /** Resource k leaves the task to the next resource: skipped, not accepting, or without an idle unit. */
  predicate PassesOn(cfg: Config, now: int, rd: Round, t: Task, k: nat)
    requires k < |rd.mem| == |rd.resources|
  {
    || MemoryGated(cfg, rd, t, k)
    || Resources.RunTask(rd.resources[k], rd.shared, Run(t, now)).NotAccepted?
    || Resources.RunTask(rd.resources[k], rd.shared, Run(t, now)).NoIdleUnit?
  }

  /**
   The round after task `id` (record t) was admitted on resource k: the task runs from `now`,
   leaves the queue, and a regular task's estimates are charged to both budgets.
   */
  function Placement(cfg: Config, now: int, rd: Round, id: string, t: Task, k: nat): (r: Round)
    requires k < |rd.mem| == |rd.resources|
    requires Resources.RunTask(rd.resources[k], rd.shared, Run(t, now)).Admitted?
    ensures |r.resources| == |r.mem| == |rd.resources|
    ensures r.tasks == rd.tasks[id := Run(t, now)] && r.changed && r.spaceError == rd.spaceError
    ensures forall x :: x in r.queue <==> x in rd.queue && x != id
    ensures forall kk | 0 <= kk < |rd.resources| && kk != k :: r.resources[kk] == rd.resources[kk] && r.mem[kk] == rd.mem[kk]
    ensures t.kind == Cleanup ==> r.diff == rd.diff && r.mem == rd.mem
    ensures t.kind != Cleanup ==>
              && r.diff == rd.diff - cfg.storageEstimate(t.transformation)
              && r.mem[k] == rd.mem[k] - cfg.memoryEstimate(t.transformation)
  {
    var a := Resources.RunTask(rd.resources[k], rd.shared, Run(t, now));
    rd.(resources := rd.resources[k := a.resource], shared := a.shared,
        tasks := rd.tasks[id := Run(t, now)], queue := DropId(rd.queue, id), changed := true,
        diff := if t.kind != Cleanup then rd.diff - cfg.storageEstimate(t.transformation) else rd.diff,
        mem := if t.kind != Cleanup then rd.mem[k := rd.mem[k] - cfg.memoryEstimate(t.transformation)] else rd.mem)
  }

  /** What one resource's `run_task` answer means for the attempt. */
  function Verdict(a: Resources.Admission): Outcome {
    match a
    case NotAccepted => Unplaced
    case NoIdleUnit => Unplaced
    case InsufficientSpace(_) => SpaceFailure
    case InsufficientMemory(_) => MemoryFailure
    case Admitted(_, _, _) => Placed
  }

  /** The first resource from i on that does not pass the task on, or the resource count when all do. */
  function FirstDecisive(cfg: Config, now: int, rd: Round, t: Task, i: nat): (k: nat)
    requires |rd.mem| == |rd.resources| && i <= |rd.resources|
    ensures i <= k <= |rd.resources|
    ensures forall m | i <= m < k :: PassesOn(cfg, now, rd, t, m)
    ensures k < |rd.resources| ==> !PassesOn(cfg, now, rd, t, k)
    decreases |rd.resources| - i
  {
    if i == |rd.resources| || !PassesOn(cfg, now, rd, t, i) then i
    else FirstDecisive(cfg, now, rd, t, i + 1)
  }

  /** The effect of the decisive resource k: only an admission changes the round. */
  function Decide(cfg: Config, now: int, rd: Round, id: string, t: Task, k: nat): (r: (Round, Outcome))
    requires k < |rd.mem| == |rd.resources|
  {
    var a := Resources.RunTask(rd.resources[k], rd.shared, Run(t, now));
    if a.Admitted? then (Placement(cfg, now, rd, id, t, k), Placed) else (rd, Verdict(a))
  }

  /**
   The `for compute_resource` loop from resource i on: the attempt is settled by the first
   resource that does not pass the task on, and nobody admits it when every resource does.
   */
  function TryFrom(cfg: Config, now: int, rd: Round, id: string, t: Task, i: nat): (r: (Round, Outcome))
    requires |rd.mem| == |rd.resources| && i <= |rd.resources|
    ensures var k := FirstDecisive(cfg, now, rd, t, i);
            && (k == |rd.resources| ==> r == (rd, Unplaced))
            && (k < |rd.resources| ==> r == Decide(cfg, now, rd, id, t, k) && r.1 != Unplaced)
    decreases |rd.resources| - i
  {
    if i == |rd.resources| then (rd, Unplaced)
    else if MemoryGated(cfg, rd, t, i) then TryFrom(cfg, now, rd, id, t, i + 1)
    else
      var a := Resources.RunTask(rd.resources[i], rd.shared, Run(t, now));
      if a.NotAccepted? || a.NoIdleUnit? then TryFrom(cfg, now, rd, id, t, i + 1)
      else if a.InsufficientSpace? then (rd, SpaceFailure)
      else if a.InsufficientMemory? then (rd, MemoryFailure)
      else (Placement(cfg, now, rd, id, t, i), Placed)
  }

  /** `random.choice` among the remaining candidates. */
  function Chosen(cfg: Config, cands: seq<string>): string
    requires |cands| > 0
  {
    cands[cfg.choose(cands) % |cands|]
  }

  /** One iteration of the `while len(tasks_to_schedule) > 0` loop. */
  datatype Draw = Draw(round: Round, rest: seq<string>, placed: bool, stop: bool)

  function AdmitStep(cfg: Config, now: int, rd: Round, cands: seq<string>): (d: Draw)
    requires |cands| > 0 && |rd.mem| == |rd.resources|
    ensures d.rest == DropId(cands, Chosen(cfg, cands))
    ensures |d.round.resources| == |d.round.mem| == |rd.resources|
  {
    var id := Chosen(cfg, cands);
    var rest := DropId(cands, id);
    if id !in rd.tasks then Draw(rd, rest, false, false)
    else
      var t := rd.tasks[id];
      if StorageGated(cfg, rd, t) then Draw(rd, rest, false, false)
      else
        var tried := TryFrom(cfg, now, rd, id, t, 0);
        match tried.1
        case SpaceFailure => Draw(rd.(spaceError := true), rest, false, false)
        case MemoryFailure => Draw(rd, rest, false, false)
        case Placed => Draw(tried.0, rest, true, cfg.enablePid && Storages.Used(tried.0.shared) as real > StorageLimit)
        case Unplaced => Draw(tried.0, rest, false, cfg.enablePid && Storages.Used(tried.0.shared) as real > StorageLimit)
  }

  /** An attempt changes the round only by placing the task, on the first resource that does not pass it on. */
  lemma TryFromSettles(cfg: Config, now: int, rd: Round, id: string, t: Task)
    requires |rd.mem| == |rd.resources|
    ensures var r := TryFrom(cfg, now, rd, id, t, 0);
            var k := FirstDecisive(cfg, now, rd, t, 0);
            && (r.1 != Placed ==> r.0 == rd)
            && (r.1 == Placed ==>
                  && k < |rd.resources| && !MemoryGated(cfg, rd, t, k)
                  && Resources.RunTask(rd.resources[k], rd.shared, Run(t, now)).Admitted?
                  && r.0 == Placement(cfg, now, rd, id, t, k))
  {
  }

  /**
   One draw: a gated task is not attempted; a placed task runs from `now`, leaves the queue and
   nothing else in the table changes; anything else leaves the round as it was, except that a
   failure for want of disk space is recorded.
   */
  lemma AdmitStepSpec(cfg: Config, now: int, rd: Round, cands: seq<string>)
    requires |cands| > 0 && |rd.mem| == |rd.resources|
    ensures var id := Chosen(cfg, cands);
            var d := AdmitStep(cfg, now, rd, cands);
            && (d.round.queue == rd.queue || d.round.queue == DropId(rd.queue, id))
            && (id in rd.tasks && StorageGated(cfg, rd, rd.tasks[id]) ==> d.round == rd && !d.placed && !d.stop)
            && (d.placed ==>
                  && id in rd.tasks && !StorageGated(cfg, rd, rd.tasks[id])
                  && d.round.tasks == rd.tasks[id := Run(rd.tasks[id], now)]
                  && (forall x :: x in d.round.queue <==> x in rd.queue && x != id)
                  && d.round.changed)
            && (!d.placed ==> d.round == rd.(spaceError := d.round.spaceError))
            && (rd.spaceError ==> d.round.spaceError)
  ensures var id := Chosen(cfg, cands);
          var d := AdmitStep(cfg, now, rd, cands);
          id in rd.tasks && !StorageGated(cfg, rd, rd.tasks[id]) ==>
            var tr := TryFrom(cfg, now, rd, id, rd.tasks[id], 0);
            && (d.placed <==> tr.1 == Placed)
            && (d.placed ==> d.round == tr.0)
            && (d.stop <==> (tr.1 == Placed || tr.1 == Unplaced) && cfg.enablePid && Storages.Used(tr.0.shared) as real > StorageLimit)
  ensures var d := AdmitStep(cfg, now, rd, cands);
          Chosen(cfg, cands) !in rd.tasks ==> d.round == rd && !d.placed && !d.stop
  {
    var id := Chosen(cfg, cands);
    if id in rd.tasks && !StorageGated(cfg, rd, rd.tasks[id]) {
      var t := rd.tasks[id];
      var rest := DropId(cands, id);
      var tr := TryFrom(cfg, now, rd, id, t, 0);
      var over := cfg.enablePid && Storages.Used(tr.0.shared) as real > StorageLimit;
      TryFromSettles(cfg, now, rd, id, t);
      match tr.1
      case SpaceFailure =>
        assert AdmitStep(cfg, now, rd, cands) == Draw(rd.(spaceError := true), rest, false, false);
      case MemoryFailure =>
        assert AdmitStep(cfg, now, rd, cands) == Draw(rd, rest, false, false);
      case Placed =>
        assert AdmitStep(cfg, now, rd, cands) == Draw(tr.0, rest, true, over);
      case Unplaced =>
        assert AdmitStep(cfg, now, rd, cands) == Draw(tr.0, rest, false, over);
    }
  }

  /**
   With the controllers on, a draw never drives a budget below zero, and the loop stops only when
   the shared storage is over the limit.
   */
  lemma AdmitStepBudgets(cfg: Config, now: int, rd: Round, cands: seq<string>)
    requires |cands| > 0 && |rd.mem| == |rd.resources|
    ensures var d := AdmitStep(cfg, now, rd, cands);
            && (cfg.enablePid ==>
                  && (d.round.diff == rd.diff || d.round.diff >= 0.0)
                  && forall k | 0 <= k < |rd.mem| :: d.round.mem[k] == rd.mem[k] || d.round.mem[k] >= 0.0)
            && (d.stop ==> cfg.enablePid && Storages.Used(d.round.shared) as real > StorageLimit)
  {
    var id := Chosen(cfg, cands);
    if id in rd.tasks && !StorageGated(cfg, rd, rd.tasks[id]) {
      TryFromSettles(cfg, now, rd, id, rd.tasks[id]);
    }
  }

  /** The admission loop over the candidates (a snapshot of the queue). */
  function AdmitLoop(cfg: Config, now: int, rd: Round, cands: seq<string>): (r: Round)
    requires |rd.mem| == |rd.resources|
    ensures |r.resources| == |r.mem| == |rd.resources|
    decreases |cands|
  {
    if |cands| == 0 then rd
    else
      var d := AdmitStep(cfg, now, rd, cands);
      if d.stop then d.round
      else AdmitLoop(cfg, now, d.round, d.rest)
  }

  /** Unfolds one iteration of the loop. */
  lemma AdmitLoopUnfold(cfg: Config, now: int, rd: Round, cands: seq<string>)
    requires |rd.mem| == |rd.resources| && |cands| > 0
    ensures var d := AdmitStep(cfg, now, rd, cands);
            AdmitLoop(cfg, now, rd, cands) == if d.stop then d.round else AdmitLoop(cfg, now, d.round, d.rest)
  {
  }

  /** The loop keeps the table's keys and only ever removes entries from the queue. */
  lemma {:induction false} AdmitLoopQueue(cfg: Config, now: int, rd: Round, cands: seq<string>)
    requires |rd.mem| == |rd.resources|
    ensures var r := AdmitLoop(cfg, now, rd, cands);
            && r.tasks.Keys == rd.tasks.Keys
            && (forall x | x in r.queue :: x in rd.queue)
    decreases |cands|
  {
    if |cands| == 0 {
      assert AdmitLoop(cfg, now, rd, cands) == rd;
    } else {
      var d := AdmitStep(cfg, now, rd, cands);
      AdmitStepSpec(cfg, now, rd, cands);
      AdmitLoopUnfold(cfg, now, rd, cands);
      if !d.stop {
        AdmitLoopQueue(cfg, now, d.round, d.rest);
      }
    }
  }

  /**
   Over the whole loop, tasks change only by being started and a task leaves the queue only by
   being started.
   */
  lemma {:induction false} AdmitLoopTasks(cfg: Config, now: int, rd: Round, cands: seq<string>)
    requires |rd.mem| == |rd.resources|
    requires forall x | x in cands :: x in rd.queue
    ensures var r := AdmitLoop(cfg, now, rd, cands);
            && r.tasks.Keys == rd.tasks.Keys
            && (forall x | x in rd.tasks :: r.tasks[x] == rd.tasks[x] || (x in cands && x !in r.queue && r.tasks[x] == Run(rd.tasks[x], now)))
            && (forall x | x in rd.queue && x !in r.queue :: x in cands && x in rd.tasks && r.tasks[x] == Run(rd.tasks[x], now))
    decreases |cands|
  {
    AdmitLoopQueue(cfg, now, rd, cands);
    if |cands| == 0 {
      assert AdmitLoop(cfg, now, rd, cands) == rd;
    } else {
      var d := AdmitStep(cfg, now, rd, cands);
      AdmitStepSpec(cfg, now, rd, cands);
      AdmitLoopUnfold(cfg, now, rd, cands);
      if !d.stop {
        AdmitLoopQueue(cfg, now, d.round, d.rest);
        AdmitLoopTasks(cfg, now, d.round, d.rest);
      }
    }
  }

  /** The schedule counts as changed exactly when some task left the queue, that is, was started. */
  lemma {:induction false} AdmitLoopChanged(cfg: Config, now: int, rd: Round, cands: seq<string>)
    requires |rd.mem| == |rd.resources|
    requires forall x | x in cands :: x in rd.queue
    ensures var r := AdmitLoop(cfg, now, rd, cands);
            r.changed <==> rd.changed || exists x | x in rd.queue :: x !in r.queue
    decreases |cands|
  {
    if |cands| == 0 {
      assert AdmitLoop(cfg, now, rd, cands) == rd;
    } else {
      var d := AdmitStep(cfg, now, rd, cands);
      AdmitStepSpec(cfg, now, rd, cands);
      AdmitLoopUnfold(cfg, now, rd, cands);
      if !d.stop {
        AdmitLoopChanged(cfg, now, d.round, d.rest);
        AdmitLoopQueue(cfg, now, d.round, d.rest);
        if d.placed {
          assert Chosen(cfg, cands) in rd.queue;
        }
      } else if d.placed {
        assert Chosen(cfg, cands) in rd.queue;
      }
    }
  }

  /**
   With the controllers on no admission drives a budget below zero, and a failure for want of
   disk space is never forgotten.
   */
  lemma {:induction false} AdmitLoopBudgets(cfg: Config, now: int, rd: Round, cands: seq<string>)
    requires |rd.mem| == |rd.resources|
    ensures var r := AdmitLoop(cfg, now, rd, cands);
            && (rd.spaceError ==> r.spaceError)
            && (cfg.enablePid ==>
                  && (r.diff == rd.diff || r.diff >= 0.0)
                  && forall k | 0 <= k < |rd.mem| :: r.mem[k] == rd.mem[k] || r.mem[k] >= 0.0)
    decreases |cands|
  {
    if |cands| == 0 {
      assert AdmitLoop(cfg, now, rd, cands) == rd;
    } else {
      var d := AdmitStep(cfg, now, rd, cands);
      AdmitStepSpec(cfg, now, rd, cands);
      AdmitStepBudgets(cfg, now, rd, cands);
      AdmitLoopUnfold(cfg, now, rd, cands);
      if !d.stop {
        AdmitLoopBudgets(cfg, now, d.round, d.rest);
      }
    }
  }

  lemma PlacementValid(cfg: Config, now: int, rd: Round, id: string, t: Task, k: nat)
    requires RoundValid(rd) && CleanupFree(t) && k < |rd.resources|
    requires Resources.RunTask(rd.resources[k], rd.shared, Run(t, now)).Admitted?
    ensures RoundValid(Placement(cfg, now, rd, id, t, k))
  {
    Resources.RunTaskValid(rd.resources[k], rd.shared, Run(t, now));
  }

  lemma AdmitStepValid(cfg: Config, now: int, rd: Round, cands: seq<string>)
    requires RoundValid(rd) && |cands| > 0
    ensures RoundValid(AdmitStep(cfg, now, rd, cands).round)
  {
    AdmitStepSpec(cfg, now, rd, cands);
    var id := Chosen(cfg, cands);
    if id in rd.tasks && !StorageGated(cfg, rd, rd.tasks[id]) {
      var t := rd.tasks[id];
      var k := FirstDecisive(cfg, now, rd, t, 0);
      if k < |rd.resources| && Resources.RunTask(rd.resources[k], rd.shared, Run(t, now)).Admitted? {
        PlacementValid(cfg, now, rd, id, t, k);
      }
    }
  }

  /** Admission keeps the storage and memory accounting and the cleanup-task invariant. */
  lemma {:induction false} AdmitLoopValid(cfg: Config, now: int, rd: Round, cands: seq<string>)
    requires RoundValid(rd)
    ensures RoundValid(AdmitLoop(cfg, now, rd, cands))
    decreases |cands|
  {
    if |cands| > 0 {
      var d := AdmitStep(cfg, now, rd, cands);
      AdmitStepValid(cfg, now, rd, cands);
      if !d.stop {
        AdmitLoopValid(cfg, now, d.round, d.rest);
      }
    }
  }

  /** Admission never duplicates a queue entry. */
  lemma {:induction false} AdmitLoopDistinct(cfg: Config, now: int, rd: Round, cands: seq<string>)
    requires |rd.mem| == |rd.resources| && DistinctIds(rd.queue)
    ensures DistinctIds(AdmitLoop(cfg, now, rd, cands).queue)
    decreases |cands|
  {
    if |cands| > 0 {
      var d := AdmitStep(cfg, now, rd, cands);
      AdmitStepSpec(cfg, now, rd, cands);
      DropIdDistinct(rd.queue, Chosen(cfg, cands));
      if !d.stop {
        AdmitLoopDistinct(cfg, now, d.round, d.rest);
      }
    }
  }

  // ----- admission with the controllers off, as written -----

  /**
   The source's `mem_controllers` dict during admission: it is filled only when the controllers
   are on (and admission then always runs after sampling), so with them off it is empty.
   */
  function MemDict(cfg: Config, mem: seq<real>): (d: map<nat, real>)
    ensures forall k: nat :: k in d <==> cfg.enablePid && k < |mem|
    ensures forall k | k in d :: d[k] == mem[k]
  {
    map k: nat | cfg.enablePid && k < |mem| :: mem[k]
  }

  /**
   One draw as the source runs it: placing a regular task charges its memory estimate to
   `mem_controllers[compute_resource]`, and a missing key raises `KeyError`, which nothing
   catches (None).  Everything else is `AdmitStep`.
   */
  function AdmitStepAsWritten(cfg: Config, now: int, rd: Round, cands: seq<string>): (r: Option<Draw>)
    requires |cands| > 0 && |rd.mem| == |rd.resources|
    ensures r.Some? ==> r.value == AdmitStep(cfg, now, rd, cands)
    ensures cfg.enablePid ==> r.Some?
    ensures !cfg.enablePid ==>
              (r.None? <==> (var id := Chosen(cfg, cands);
                             AdmitStep(cfg, now, rd, cands).placed && id in rd.tasks && rd.tasks[id].kind != Cleanup))
  {
    var id := Chosen(cfg, cands);
    var d := AdmitStep(cfg, now, rd, cands);
    AdmitStepSpec(cfg, now, rd, cands);
    if !d.placed then Some(d)
    else
      TryFromSettles(cfg, now, rd, id, rd.tasks[id]);
      if rd.tasks[id].kind != Cleanup && FirstDecisive(cfg, now, rd, rd.tasks[id], 0) !in MemDict(cfg, rd.mem) then None
      else Some(d)
  }

  /** The admission loop as the source runs it: None when a draw raises `KeyError`. */
  function AdmitLoopAsWritten(cfg: Config, now: int, rd: Round, cands: seq<string>): (r: Option<Round>)
    requires |rd.mem| == |rd.resources|
    decreases |cands|
  {
    if |cands| == 0 then Some(rd)
    else
      match AdmitStepAsWritten(cfg, now, rd, cands)
      case None => None
      case Some(d) =>
        if d.stop then Some(d.round)
        else AdmitLoopAsWritten(cfg, now, d.round, d.rest)
  }

  /** With the controllers on every key is present, and the source's loop is `AdmitLoop`. */
  lemma {:induction false} AdmitLoopAsWrittenAgrees(cfg: Config, now: int, rd: Round, cands: seq<string>)
    requires |rd.mem| == |rd.resources| && cfg.enablePid
    ensures AdmitLoopAsWritten(cfg, now, rd, cands) == Some(AdmitLoop(cfg, now, rd, cands))
    decreases |cands|
  {
    if |cands| > 0 {
      var d := AdmitStep(cfg, now, rd, cands);
      assert AdmitStepAsWritten(cfg, now, rd, cands) == Some(d);
      AdmitLoopUnfold(cfg, now, rd, cands);
      if !d.stop {
        AdmitLoopAsWrittenAgrees(cfg, now, d.round, d.rest);
      }
    }
  }

  /**
   The discrepancy: with the controllers off, one queued regular task that fits on an idle unit
   is placed by `AdmitLoop` and makes the source's loop raise.
   */
  lemma NoPidAdmissionRaises()
    ensures var t := Task("x_1", "x", 1, 0, [], [], [], {}, Queued, -1, -1, Regular);
            var res := Resources.Resource("r", {"x"}, None, 10, 10, [Resources.Unit(0, None)], Pid.New(8.0, 1.0, 1.0, 1.0, 0.05));
            var cfg := Config(false, (x: string) => 0.0, (x: string) => 0.0, (c: seq<string>) => 0);
            var rd := Round([res], Storages.Storage(10, 10, []), map["x_1" := t], ["x_1"], 0.0, [0.0], false, false);
            && AdmitLoop(cfg, 0, rd, ["x_1"]).tasks["x_1"].status == Running
            && AdmitLoopAsWritten(cfg, 0, rd, ["x_1"]).None?
  {
    var t := Task("x_1", "x", 1, 0, [], [], [], {}, Queued, -1, -1, Regular);
    var res := Resources.Resource("r", {"x"}, None, 10, 10, [Resources.Unit(0, None)], Pid.New(8.0, 1.0, 1.0, 1.0, 0.05));
    var cfg := Config(false, (x: string) => 0.0, (x: string) => 0.0, (c: seq<string>) => 0);
    var rd := Round([res], Storages.Storage(10, 10, []), map["x_1" := t], ["x_1"], 0.0, [0.0], false, false);
    assert Chosen(cfg, ["x_1"]) == "x_1";
    assert Resources.RunTask(res, rd.shared, Run(t, 0)).Admitted?;
    assert FirstDecisive(cfg, 0, rd, t, 0) == 0;
    assert AdmitStep(cfg, 0, rd, ["x_1"]).placed;
    AdmitStepSpec(cfg, 0, rd, ["x_1"]);
    assert DropId(["x_1"], "x_1") == [];
  }

  /**
   The intended behaviour with the controllers off: the budgets play no part.  Admission with any
   other budgets places the same tasks on the same resources; only the budgets differ.
   */
  lemma {:induction false} TryFromIgnoresBudgets(cfg: Config, now: int, rd: Round, id: string, t: Task, i: nat, diff: real, mem: seq<real>)
    requires !cfg.enablePid && |rd.mem| == |rd.resources| == |mem| && i <= |rd.resources|
    ensures var a := TryFrom(cfg, now, rd, id, t, i);
            var b := TryFrom(cfg, now, rd.(diff := diff, mem := mem), id, t, i);
            b.1 == a.1 && b.0 == a.0.(diff := b.0.diff, mem := b.0.mem)
    decreases |rd.resources| - i
  {
    if i < |rd.resources| {
      var rd2 := rd.(diff := diff, mem := mem);
      assert !MemoryGated(cfg, rd, t, i) && !MemoryGated(cfg, rd2, t, i);
      var a := Resources.RunTask(rd.resources[i], rd.shared, Run(t, now));
      assert Resources.RunTask(rd2.resources[i], rd2.shared, Run(t, now)) == a;
      if a.NotAccepted? || a.NoIdleUnit? {
        TryFromIgnoresBudgets(cfg, now, rd, id, t, i + 1, diff, mem);
      } else if a.Admitted? {
        var p := Placement(cfg, now, rd, id, t, i);
        var p2 := Placement(cfg, now, rd2, id, t, i);
        assert p2 == p.(diff := p2.diff, mem := p2.mem);
      }
    }
  }

  lemma AdmitStepIgnoresBudgets(cfg: Config, now: int, rd: Round, cands: seq<string>, diff: real, mem: seq<real>)
    requires !cfg.enablePid && |rd.mem| == |rd.resources| == |mem| && |cands| > 0
    ensures var a := AdmitStep(cfg, now, rd, cands);
            var b := AdmitStep(cfg, now, rd.(diff := diff, mem := mem), cands);
            b.rest == a.rest && b.placed == a.placed && b.stop == a.stop
            && b.round == a.round.(diff := b.round.diff, mem := b.round.mem)
  {
    var id := Chosen(cfg, cands);
    if id in rd.tasks {
      TryFromIgnoresBudgets(cfg, now, rd, id, rd.tasks[id], 0, diff, mem);
    }
  }

  lemma {:induction false} NoPidIgnoresBudgets(cfg: Config, now: int, rd: Round, cands: seq<string>, diff: real, mem: seq<real>)
    requires !cfg.enablePid && |rd.mem| == |rd.resources| == |mem|
    ensures var a := AdmitLoop(cfg, now, rd, cands);
            var b := AdmitLoop(cfg, now, rd.(diff := diff, mem := mem), cands);
            b == a.(diff := b.diff, mem := b.mem)
    decreases |cands|
  {
    if |cands| > 0 {
      var a := AdmitStep(cfg, now, rd, cands);
      var b := AdmitStep(cfg, now, rd.(diff := diff, mem := mem), cands);
      AdmitStepIgnoresBudgets(cfg, now, rd, cands, diff, mem);
      AdmitLoopUnfold(cfg, now, rd, cands);
      AdmitLoopUnfold(cfg, now, rd.(diff := diff, mem := mem), cands);
      if !a.stop {
        NoPidIgnoresBudgets(cfg, now, a.round, a.rest, b.round.diff, b.round.mem);
        assert b.round == a.round.(diff := b.round.diff, mem := b.round.mem);
      }
    }
  }
}

=== FILE: cleanup.dfy ===
/**
 `PIDScheduler._create_cleanup_task` (pid_scheduler.py): when nothing could be scheduled for lack
 of disk space, a cleanup task is created whose inputs are the shared-storage files that no
 pending task needs and no running regular task uses.
 */
module CleanupTasks {
  import opened Options
  import opened Files
  import opened Tasks
  import opened SchedulerState
  import Resources
  import Storages

  function Digit(d: nat): (c: char)
    requires d < 10
    ensures '0' <= c <= '9' && (c as int) - ('0' as int) == d
  {
    (('0' as int) + d) as char
  }

  predicate AllDigits(s: string) {
    forall i | 0 <= i < |s| :: '0' <= s[i] <= '9'
  }

  /** The decimal rendering `"%s" % n`. */
  function NatToString(n: nat): (s: string)
    ensures |s| > 0 && AllDigits(s)
    decreases n
  {
    if n < 10 then [Digit(n)] else NatToString(n / 10) + [Digit(n % 10)]
  }

  /** The value of a string of decimal digits. */
  function DigitsValue(s: string): nat
    requires AllDigits(s)
    decreases |s|
  {
    if |s| == 0 then 0 else DigitsValue(s[..|s| - 1]) * 10 + ((s[|s| - 1] as int) - ('0' as int))
  }

  /** Reading the rendering back gives the number, so distinct counters render differently. */
  lemma {:induction false} NatToStringRoundTrip(n: nat)
    ensures DigitsValue(NatToString(n)) == n
    decreases n
  {
    var s := NatToString(n);
    if n >= 10 {
      NatToStringRoundTrip(n / 10);
      assert s[..|s| - 1] == NatToString(n / 10);
    }
  }

  function CleanupId(counter: nat): string {
    "cleanup_" + NatToString(counter)
  }

  /** Cleanup ids are never reused: distinct counters give distinct ids. */
  lemma CleanupIdsDistinct(a: nat, b: nat)
    requires a != b
    ensures CleanupId(a) != CleanupId(b)
  {
    NatToStringRoundTrip(a);
    NatToStringRoundTrip(b);
    assert NatToString(a) == CleanupId(a)[8..];
    assert NatToString(b) == CleanupId(b)[8..];
  }

  /** Cleanup tasks carry the transformation name `cleanup`. */
  lemma CleanupTransformation(counter: nat)
    ensures TransformationOf(CleanupId(counter)) == "cleanup"
  {
    assert CleanupId(counter) == "cleanup" + "_" + NatToString(counter);
    TransformationOfPrefixed("cleanup", NatToString(counter));
  }

  /** Files in use on any resource (`get_list_of_current_used_files`, over all resources). */
  function AllUsedFiles(rs: seq<Resources.Resource>): (used: set<File>)
    ensures forall f :: f in used <==> exists k | 0 <= k < |rs| :: f in Resources.UsedFiles(rs[k])
  {
    set k, f | 0 <= k < |rs| && f in Resources.UsedFiles(rs[k]) :: f
  }

  /** The files a cleanup task must not delete. */
  function Keep(tasks: map<string, Task>, pending: seq<string>, rs: seq<Resources.Resource>): set<File> {
    RequiredFiles(tasks, pending) + AllUsedFiles(rs)
  }

  /** A list of files has total size zero exactly when every file in it is empty. */
  lemma {:induction false} SizeZero(fs: seq<File>)
    ensures Size(fs) == 0 <==> forall f | f in fs :: f.size == 0
    decreases |fs|
  {
    if |fs| > 0 {
      SizeZero(fs[1..]);
      assert forall f | f in fs :: f == fs[0] || f in fs[1..];
    }
  }

  datatype Creation = Creation(task: Option<Task>, next: nat)

  /**
   A cleanup task over every shared file outside `Keep`, lasting ten time units per byte and
   asking for no memory; none, and the counter unchanged, when those files add up to nothing.
   */
  function CreateCleanupTask(tasks: map<string, Task>, pending: seq<string>, rs: seq<Resources.Resource>,
                             shared: Storages.Storage, counter: nat): (c: Creation)
    ensures var keep := Keep(tasks, pending, rs);
            && (c.task.None? <==> forall f | f in shared.files && f !in keep :: f.size == 0)
            && (c.task.None? ==> c.next == counter)
            && (c.task.Some? ==>
                  var t := c.task.value;
                  && c.next == counter + 1
                  && t.id == CleanupId(counter) && t.transformation == "cleanup"
                  && t.kind == Cleanup && t.peakMemory == 0 && Unscheduled(t) && t.parents == {}
                  && (forall f :: f in t.input <==> f in shared.files && f !in keep)
                  && t.intermediate == [] && t.output == []
                  && t.duration == CleanupTimePerByte * Size(t.input) > 0)
  {
    var inputs := Resources.Without(shared.files, Keep(tasks, pending, rs));
    var total := Size(inputs);
    SizeZero(inputs);
    CleanupTransformation(counter);
    if total == 0 then Creation(None, counter)
    else
      var t := NewTask(CleanupId(counter), 0, 0, Cleanup);
      Creation(Some(t.(input := inputs, duration := CleanupTimePerByte * total)), counter + 1)
  }

  /** Without shared files outside `Keep` no cleanup task is created. */
  lemma NothingToClean(tasks: map<string, Task>, pending: seq<string>, rs: seq<Resources.Resource>,
                       shared: Storages.Storage, counter: nat)
    requires forall f | f in shared.files :: f in Keep(tasks, pending, rs)
    ensures CreateCleanupTask(tasks, pending, rs, shared, counter) == Creation(None, counter)
  {
  }
}

=== FILE: files.dfy ===
/**
 Files of file.py and the name-keyed file dictionaries that tasks and storages keep.
 A Python dict `name -> File` is modelled as a sequence of files in insertion order whose
 names are pairwise distinct (`UniqueNames`).
 */
module Files {
  import opened Options

  /** A workflow file.  Dafny's structural equality on this datatype is exactly `File.__eq__`: same name and same size. */
  datatype File = File(name: string, size: nat)

  /** The three roles (`FileLink`) a file can play for a task. */
  datatype Link = Input | Output | Intermediate

  /** The spelling of each role in a workflow description. */
  function LinkName(l: Link): string {
    match l
    case Input => "input"
    case Output => "output"
    case Intermediate => "intermediate"
  }

  /** Reads a role from its spelling; any other string names no role. */
  function ParseLink(s: string): (r: Option<Link>)
    ensures r.Some? ==> LinkName(r.value) == s
    ensures r.None? ==> forall l: Link :: LinkName(l) != s
  {
    if s == "input" then Some(Input)
    else if s == "output" then Some(Output)
    else if s == "intermediate" then Some(Intermediate)
    else None
  }

  /** The three roles are spelled differently, and every spelling is read back as its role. */
  lemma LinkRoundTrip(l: Link, m: Link)
    ensures ParseLink(LinkName(l)) == Some(l)
    ensures l != m ==> LinkName(l) != LinkName(m)
  {
  }

  /** File equality is field-wise, hence reflexive and symmetric; a size difference alone separates two files. */
  lemma FileEquality(a: File, b: File)
    ensures a == b <==> a.name == b.name && a.size == b.size
    ensures a == a
    ensures a == b ==> b == a
    ensures a.name == b.name && a.size != b.size ==> a != b
  {
  }

  // ----- name-keyed file tables -----

  predicate UniqueNames(t: seq<File>) {
    forall i, j | 0 <= i < j < |t| :: t[i].name != t[j].name
  }

  function Names(t: seq<File>): set<string> {
    set f | f in t :: f.name
  }

  /** Total size of the files of a table (or of any list of files). */
  function Size(t: seq<File>): nat
    decreases |t|
  {
    if |t| == 0 then 0 else t[0].size + Size(t[1..])
  }

  /** In a table, a name identifies at most one file. */
  lemma SameNameSameFile(t: seq<File>, a: File, b: File)
    requires UniqueNames(t) && a in t && b in t
    ensures a.name == b.name ==> a == b
  {
    var i :| 0 <= i < |t| && t[i] == a;
    var j :| 0 <= j < |t| && t[j] == b;
    assert a.name == b.name ==> i == j;
  }

  lemma UniqueNamesTail(t: seq<File>)
    requires UniqueNames(t) && |t| > 0
    ensures UniqueNames(t[1..]) && t[0].name !in Names(t[1..])
  {
    forall g | g in t[1..] ensures g.name != t[0].name {
      var j :| 0 <= j < |t[1..]| && t[1..][j] == g;
      assert t[j + 1] == g;
    }
  }

  lemma UniqueNamesCons(f: File, t: seq<File>)
    requires UniqueNames(t) && f.name !in Names(t)
    ensures UniqueNames([f] + t)
  {
    var s := [f] + t;
    forall i, j | 0 <= i < j < |s| ensures s[i].name != s[j].name {
      if i == 0 {
        assert s[j] in t;
      } else {
        assert s[i] == t[i - 1] && s[j] == t[j - 1];
      }
    }
  }

  /** `table[f.name] = f`: replaces the entry with that name in place, or appends a new one. */
  function Put(t: seq<File>, f: File): (r: seq<File>)
    ensures f in r
    ensures Names(r) == Names(t) + {f.name}
    ensures forall g :: g in r ==> g == f || g in t
    ensures forall g :: g in t && g.name != f.name ==> g in r
    decreases |t|
  {
    if |t| == 0 then [f]
    else if t[0].name == f.name then [f] + t[1..]
    else [t[0]] + Put(t[1..], f)
  }

  /** On a table, `Put` keeps names unique and leaves exactly `f` under its name. */
  lemma {:induction false} PutUnique(t: seq<File>, f: File)
    requires UniqueNames(t)
    ensures UniqueNames(Put(t, f))
    ensures forall g :: g in Put(t, f) <==> g == f || (g in t && g.name != f.name)
    decreases |t|
  {
    if |t| > 0 {
      UniqueNamesTail(t);
      if t[0].name == f.name {
        UniqueNamesCons(f, t[1..]);
        forall g | g in t && g.name != f.name ensures g in t[1..] {
          assert g != t[0];
        }
      } else {
        PutUnique(t[1..], f);
        UniqueNamesCons(t[0], Put(t[1..], f));
        assert t == [t[0]] + t[1..];
      }
    }
  }

  /** `del table[name]` when present; every entry with another name stays. */
  function Delete(t: seq<File>, name: string): (r: seq<File>)
    ensures forall g :: g in r <==> g in t && g.name != name
    ensures Names(r) == Names(t) - {name}
    ensures name !in Names(t) ==> r == t
    decreases |t|
  {
    if |t| == 0 then []
    else if t[0].name == name then Delete(t[1..], name)
    else [t[0]] + Delete(t[1..], name)
  }

  lemma {:induction false} DeleteUnique(t: seq<File>, name: string)
    requires UniqueNames(t)
    ensures UniqueNames(Delete(t, name))
    decreases |t|
  {
    if |t| > 0 {
      UniqueNamesTail(t);
      DeleteUnique(t[1..], name);
      if t[0].name != name {
        UniqueNamesCons(t[0], Delete(t[1..], name));
      }
    }
  }

  lemma {:induction false} SizeAppend(a: seq<File>, b: seq<File>)
    ensures Size(a + b) == Size(a) + Size(b)
    decreases |a|
  {
    if |a| > 0 {
      assert (a + b)[1..] == a[1..] + b;
      SizeAppend(a[1..], b);
    } else {
      assert a + b == b;
    }
  }

  /** Deleting a file of a table by its name takes exactly its size off the total. */
  lemma {:induction false} SizeDelete(t: seq<File>, f: File)
    requires UniqueNames(t) && f in t
    ensures Size(Delete(t, f.name)) == Size(t) - f.size
    decreases |t|
  {
    UniqueNamesTail(t);
    if t[0] == f {
      assert Delete(t[1..], f.name) == t[1..];
    } else {
      assert f in t[1..];
      SameNameSameFile(t, t[0], f);
      SizeDelete(t[1..], f);
    }
  }
}

=== FILE: lifecycle.dfy ===
/**
 The life cycle of a task across iterations of the main loop of `PIDScheduler.start`
 (pid_scheduler.py).  The scheduler keeps the table, the queue and the units in step: a queued
 id names a queued task, a task a unit holds is the running record of the table, no two units
 hold the same task, and the ids the cleanup counter will hand out are still free.  Under these
 links one iteration moves a task only along IDLE -> QUEUED -> RUNNING -> COMPLETED, or from
 RUNNING back to IDLE when it is preempted.
 */
module Lifecycle {
  import opened Options
  import opened Files
  import opened Tasks
  import opened Workflows
  import opened SchedulerState
  import opened Retirement
  import opened Promotion
  import opened Admission
  import opened Preemption
  import opened CleanupTasks
  import opened Scheduler
  import Resources
  import Storages

  // ----- the links -----

  /** Unit j of resource k holds a task. */
  ghost predicate HoldsAt(rs: seq<Resources.Resource>, k: nat, j: nat) {
    k < |rs| && j < |rs[k].units| && rs[k].units[j].current.Some?
  }

  ghost function HeldAt(rs: seq<Resources.Resource>, k: nat, j: nat): Task
    requires HoldsAt(rs, k, j)
  {
    rs[k].units[j].current.value
  }

  /**
   - every task is filed under its own id;
   - every queued id names a task whose status is QUEUED;
   - every task a unit holds is, record for record, the table's entry for its id, and RUNNING;
   - no two units hold tasks with the same id.
   */
  ghost predicate Links(rs: seq<Resources.Resource>, tasks: map<string, Task>, queue: seq<string>) {
    && (forall id | id in tasks :: tasks[id].id == id)
    && (forall id | id in queue :: id in tasks && tasks[id].status == Queued)
    && (forall k: nat, j: nat | HoldsAt(rs, k, j) ::
          HeldAt(rs, k, j).id in tasks && tasks[HeldAt(rs, k, j).id] == HeldAt(rs, k, j) && HeldAt(rs, k, j).status == Running)
    && (forall k: nat, j: nat, k2: nat, j2: nat | HoldsAt(rs, k, j) && HoldsAt(rs, k2, j2) && HeldAt(rs, k, j).id == HeldAt(rs, k2, j2).id ::
          k == k2 && j == j2)
  }

  /** The links, and no id the cleanup counter will hand out is taken yet. */
  ghost predicate Coherent(s: Sim) {
    && Links(s.resources, s.wf.tasks, s.queue)
    && forall n: nat | n >= s.nextCleanup :: CleanupId(n) !in s.wf.tasks
  }

  /** The scheduler starts coherent from idle units and a table keyed by id in which no cleanup id is taken. */
  lemma NewSimCoherent(wf: Workflow, resources: seq<Resources.Resource>, shared: Storages.Storage)
    requires forall k, j | 0 <= k < |resources| && 0 <= j < |resources[k].units| :: resources[k].units[j].current.None?
    requires forall id | id in wf.tasks :: wf.tasks[id].id == id
    requires forall n: nat :: CleanupId(n) !in wf.tasks
    ensures Coherent(NewSim(wf, resources, shared))
  {
    var s := NewSim(wf, resources, shared);
    forall k: nat, j: nat | k < |s.resources| && j < |s.resources[k].units| ensures !HoldsAt(s.resources, k, j) {
      assert s.resources[k].units == resources[k].units;
    }
  }

  /** From `before` to `after` no task disappears and every task keeps its status or moves from a to b. */
  predicate Moves(before: map<string, Task>, after: map<string, Task>, a: Status, b: Status) {
    && before.Keys <= after.Keys
    && forall id | id in before :: after[id].status == before[id].status || (before[id].status == a && after[id].status == b)
  }

  /** The status changes one iteration can make. */
  predicate Advances(a: Status, b: Status) {
    || a == b
    || (a == Idle && (b == Queued || b == Running))
    || (a == Queued && b == Running)
    || (a == Running && (b == Completed || b == Idle))
  }

  /** No task disappears, every task advances, and every new task is idle. */
  predicate Advanced(before: map<string, Task>, after: map<string, Task>) {
    && before.Keys <= after.Keys
    && (forall id | id in before :: Advances(before[id].status, after[id].status))
    && (forall id | id in after && id !in before :: after[id].status == Idle)
  }

  lemma MovesTrans(x: map<string, Task>, y: map<string, Task>, z: map<string, Task>, a: Status, b: Status)
    requires Moves(x, y, a, b) && Moves(y, z, a, b) && a != b
    ensures Moves(x, z, a, b)
  {
  }

  // ----- what the phases do to the units -----

  /** Links look at the units only, so a change to anything else about the resources keeps them. */
  lemma SameUnitsLinks(rs: seq<Resources.Resource>, rs2: seq<Resources.Resource>, tasks: map<string, Task>, queue: seq<string>)
    requires Links(rs, tasks, queue)
    requires |rs2| == |rs| && forall k | 0 <= k < |rs| :: rs2[k].units == rs[k].units
    ensures Links(rs2, tasks, queue)
  {
    forall k: nat, j: nat | HoldsAt(rs2, k, j) ensures HoldsAt(rs, k, j) && HeldAt(rs2, k, j) == HeldAt(rs, k, j) {
    }
  }

  /**
   Freeing the unit that holds a task and filing a new record under that task's id (completed
   or preempted) keeps the links.
   */
  lemma FreeLinks(rs: seq<Resources.Resource>, tasks: map<string, Task>, queue: seq<string>, k: nat, j: nat,
                  rk: Resources.Resource, t2: Task)
    requires Links(rs, tasks, queue) && HoldsAt(rs, k, j)
    requires rk.units == rs[k].units[j := Resources.Unit(rs[k].units[j].id, None)]
    requires t2.id == HeldAt(rs, k, j).id
    ensures Links(rs[k := rk], tasks[t2.id := t2], queue)
  {
    var t := HeldAt(rs, k, j);
    var rs2 := rs[k := rk];
    var tasks2 := tasks[t2.id := t2];
    forall k2: nat, j2: nat | HoldsAt(rs2, k2, j2)
      ensures HoldsAt(rs, k2, j2) && HeldAt(rs2, k2, j2) == HeldAt(rs, k2, j2) && (k2 != k || j2 != j)
    {
      if k2 == k {
        assert j2 != j;
        assert rs2[k2].units[j2] == rs[k].units[j2];
      }
    }
    forall id | id in queue ensures id in tasks2 && tasks2[id].status == Queued {
      assert id != t.id;
    }
  }

  /** Putting a queued task, now running, on an idle unit, and taking it off the queue, keeps the links. */
  lemma OccupyLinks(rs: seq<Resources.Resource>, tasks: map<string, Task>, queue: seq<string>, k: nat, i: nat,
                    rk: Resources.Resource, id: string, now: int)
    requires Links(rs, tasks, queue) && id in queue && k < |rs| && i < |rs[k].units| && rs[k].units[i].current.None?
    requires rk.units == rs[k].units[i := Resources.Unit(rs[k].units[i].id, Some(Run(tasks[id], now)))]
    ensures Links(rs[k := rk], tasks[id := Run(tasks[id], now)], DropId(queue, id))
  {
    var rs2 := rs[k := rk];
    var t := Run(tasks[id], now);
    var tasks2 := tasks[id := t];
    forall k2: nat, j2: nat | HoldsAt(rs2, k2, j2)
      ensures if k2 == k && j2 == i then HeldAt(rs2, k2, j2) == t
              else HoldsAt(rs, k2, j2) && HeldAt(rs2, k2, j2) == HeldAt(rs, k2, j2) && HeldAt(rs, k2, j2).id != id
    {
      if k2 == k {
        assert rs2[k2].units[j2] == if j2 == i then Resources.Unit(rs[k].units[i].id, Some(t)) else rs[k].units[j2];
      }
    }
  }

  // ----- retirement -----

  lemma RetireOneLinks(b: Books, queue: seq<string>, k: nat, j: nat)
    requires Links(b.resources, b.wf.tasks, queue)
    requires k < |b.resources| && j < |b.resources[k].units| && Resources.Busy(b.resources[k].units[j])
    ensures var r := RetireOne(b, k, j);
            && Links(r.resources, r.wf.tasks, queue)
            && r.wf.tasks.Keys == b.wf.tasks.Keys && Moves(b.wf.tasks, r.wf.tasks, Running, Completed)
  {
    var t := b.resources[k].units[j].current.value;
    assert HoldsAt(b.resources, k, j) && HeldAt(b.resources, k, j) == t;
    var f := Resources.ProcessFinishedTask(b.resources[k], b.shared, j);
    FreeLinks(b.resources, b.wf.tasks, queue, k, j, f.resource, Complete(t));
  }

  lemma {:induction false} RetireUnitsLinks(b: Books, queue: seq<string>, now: int, k: nat, j: nat)
    requires Links(b.resources, b.wf.tasks, queue) && k < |b.resources| && j <= |b.resources[k].units|
    ensures var r := RetireUnits(b, now, k, j);
            && Links(r.resources, r.wf.tasks, queue)
            && r.wf.tasks.Keys == b.wf.tasks.Keys && Moves(b.wf.tasks, r.wf.tasks, Running, Completed)
    decreases |b.resources[k].units| - j
  {
    if j < |b.resources[k].units| {
      var next := RetireUnit(b, now, k, j);
      if Due(b.resources[k].units[j], now) {
        RetireOneLinks(b, queue, k, j);
      }
      RetireUnitsLinks(next, queue, now, k, j + 1);
      MovesTrans(b.wf.tasks, next.wf.tasks, RetireUnits(b, now, k, j).wf.tasks, Running, Completed);
    }
  }

  lemma {:induction false} RetireFromLinks(b: Books, queue: seq<string>, now: int, k: nat)
    requires Links(b.resources, b.wf.tasks, queue) && k <= |b.resources|
    ensures var r := RetireFrom(b, now, k);
            && Links(r.resources, r.wf.tasks, queue)
            && r.wf.tasks.Keys == b.wf.tasks.Keys && Moves(b.wf.tasks, r.wf.tasks, Running, Completed)
    decreases |b.resources| - k
  {
    if k < |b.resources| {
      var one := RetireUnits(b, now, k, 0);
      RetireUnitsLinks(b, queue, now, k, 0);
      RetireFromLinks(one, queue, now, k + 1);
      assert RetireFrom(b, now, k) == RetireFrom(one, now, k + 1);
      MovesTrans(b.wf.tasks, one.wf.tasks, RetireFrom(b, now, k).wf.tasks, Running, Completed);
    }
  }

  /** Retirement keeps the links and the table's ids, and only moves running tasks to completed. */
  lemma RetireLinks(s: Sim)
    requires Coherent(s)
    ensures var r := Retire(s);
            && Coherent(r)
            && r.wf.tasks.Keys == s.wf.tasks.Keys && Moves(s.wf.tasks, r.wf.tasks, Running, Completed)
  {
    RetireFromLinks(Books(s.resources, s.shared, s.wf), s.queue, s.time, 0);
  }

  // ----- promotion -----

  /** Promotion keeps the links and the table's ids, and only moves idle tasks to queued. */
  lemma PromoteLinks(rs: seq<Resources.Resource>, tasks: map<string, Task>, pending: seq<string>, queue: seq<string>)
    requires Links(rs, tasks, queue)
    ensures var pr := Promote(tasks, pending, queue);
            && Links(rs, pr.0, pr.1)
            && pr.0.Keys == tasks.Keys && Moves(tasks, pr.0, Idle, Queued)
  {
    var pr := Promote(tasks, pending, queue);
    assert pr.1 == queue + pr.1[|queue|..];
    forall id | id in pr.1 ensures id in pr.0 && pr.0[id].status == Queued {
      if id !in pr.1[|queue|..] {
        assert id in queue;
      }
    }
    forall id | id in tasks ensures pr.0[id].status == tasks[id].status || (tasks[id].status == Idle && pr.0[id].status == Queued) {
      if id in pr.1[|queue|..] {
        assert Eligible(tasks, queue, id);
      }
    }
    forall k: nat, j: nat | HoldsAt(rs, k, j) ensures pr.0[HeldAt(rs, k, j).id] == tasks[HeldAt(rs, k, j).id] {
      var id := HeldAt(rs, k, j).id;
      assert !Eligible(tasks, queue, id);
      assert id !in pr.1[|queue|..];
    }
  }

  // ----- admission -----

  /** One draw keeps the links and the table's ids, only moves queued tasks to running, and the remaining candidates stay queued. */
  lemma AdmitStepLinks(cfg: Config, now: int, rd: Round, cands: seq<string>)
    requires |cands| > 0 && |rd.mem| == |rd.resources| && Links(rd.resources, rd.tasks, rd.queue)
    requires forall x | x in cands :: x in rd.queue
    ensures var d := AdmitStep(cfg, now, rd, cands);
            && Links(d.round.resources, d.round.tasks, d.round.queue)
            && d.round.tasks.Keys == rd.tasks.Keys && Moves(rd.tasks, d.round.tasks, Queued, Running)
            && forall x | x in d.rest :: x in d.round.queue
  {
    var id := Chosen(cfg, cands);
    var d := AdmitStep(cfg, now, rd, cands);
    AdmitStepSpec(cfg, now, rd, cands);
    if d.placed {
      var t := rd.tasks[id];
      TryFromSettles(cfg, now, rd, id, t);
      var k := FirstDecisive(cfg, now, rd, t, 0);
      var a := Resources.RunTask(rd.resources[k], rd.shared, Run(t, now));
      OccupyLinks(rd.resources, rd.tasks, rd.queue, k, a.unit, a.resource, id, now);
    }
  }

  lemma {:induction false} AdmitLoopLinks(cfg: Config, now: int, rd: Round, cands: seq<string>)
    requires |rd.mem| == |rd.resources| && Links(rd.resources, rd.tasks, rd.queue)
    requires forall x | x in cands :: x in rd.queue
    ensures var r := AdmitLoop(cfg, now, rd, cands);
            && Links(r.resources, r.tasks, r.queue)
            && r.tasks.Keys == rd.tasks.Keys && Moves(rd.tasks, r.tasks, Queued, Running)
    decreases |cands|
  {
    if |cands| > 0 {
      var d := AdmitStep(cfg, now, rd, cands);
      AdmitStepLinks(cfg, now, rd, cands);
      AdmitLoopUnfold(cfg, now, rd, cands);
      if !d.stop {
        AdmitLoopLinks(cfg, now, d.round, d.rest);
        MovesTrans(rd.tasks, d.round.tasks, AdmitLoop(cfg, now, rd, cands).tasks, Queued, Running);
      }
    }
  }

  // ----- preemption -----

  /** Preempting a task frees the one unit holding it and files it idle: the links hold, and it was running. */
  lemma PreemptTaskLinks(rs: seq<Resources.Resource>, tasks: map<string, Task>, queue: seq<string>, k: nat,
                         shared: Storages.Storage, t: Task, required: set<File>)
    requires Links(rs, tasks, queue) && k < |rs|
    ensures var p := Resources.PreemptTask(rs[k], shared, t, required);
            p.task.Some? ==>
              && p.task.value == Preempt(t) && t.id in tasks && tasks[t.id].status == Running
              && Links(rs[k := p.resource], tasks[t.id := Preempt(t)], queue)
  {
    var p := Resources.PreemptTask(rs[k], shared, t, required);
    match Resources.FirstHolding(rs[k].units, t)
    case None =>
    case Some(i) =>
      assert HoldsAt(rs, k, i) && HeldAt(rs, k, i) == t;
      FreeLinks(rs, tasks, queue, k, i, p.resource, Preempt(t));
  }

  /** One preemption keeps the links and the table's ids, and only moves a running task back to idle. */
  lemma PreemptStepLinks(cfg: Config, rd: Round, pending: seq<string>)
    requires Links(rd.resources, rd.tasks, rd.queue)
    ensures var r := PreemptStep(cfg, rd, pending);
            r.Some? ==>
              && Links(r.value.resources, r.value.tasks, r.value.queue)
              && r.value.tasks.Keys == rd.tasks.Keys && Moves(rd.tasks, r.value.tasks, Running, Idle)
  {
    var hs := RunningAll(rd.resources);
    if rd.diff < 0.0 && |hs| > 1 {
      var h := hs[Latest(hs)];
      assert h in hs;
      PreemptTaskLinks(rd.resources, rd.tasks, rd.queue, h.res, rd.shared, h.task, RequiredFiles(rd.tasks, pending));
    }
  }

  lemma {:induction false} PreemptLoopLinks(cfg: Config, rd: Round, pending: seq<string>)
    requires Links(rd.resources, rd.tasks, rd.queue)
    ensures var r := PreemptLoop(cfg, rd, pending);
            && Links(r.resources, r.tasks, r.queue)
            && r.tasks.Keys == rd.tasks.Keys && Moves(rd.tasks, r.tasks, Running, Idle)
    decreases |RunningAll(rd.resources)|
  {
    PreemptStepLinks(cfg, rd, pending);
    match PreemptStep(cfg, rd, pending)
    case None =>
    case Some(next) =>
      PreemptLoopLinks(cfg, next, pending);
      MovesTrans(rd.tasks, next.tasks, PreemptLoop(cfg, rd, pending).tasks, Running, Idle);
  }

  // ----- one iteration -----

  /** Filing a task under an id the table does not have keeps the links. */
  lemma AddFreshLinks(rs: seq<Resources.Resource>, tasks: map<string, Task>, queue: seq<string>, t: Task)
    requires Links(rs, tasks, queue) && t.id !in tasks
    ensures Links(rs, tasks[t.id := t], queue)
  {
    forall k: nat, j: nat | HoldsAt(rs, k, j) ensures HeldAt(rs, k, j).id != t.id {
    }
  }

  /** Recording an admission round, with the cleanup task it may call for, keeps the links and files only an idle task under a new id. */
  lemma AfterAdmissionLinks(s: Sim, rd: Round)
    requires Coherent(s) && Links(rd.resources, rd.tasks, rd.queue) && rd.tasks.Keys == s.wf.tasks.Keys
    ensures var r := AfterAdmission(s, rd);
            && Coherent(r)
            && rd.tasks.Keys <= r.wf.tasks.Keys
            && (forall id | id in rd.tasks :: r.wf.tasks[id] == rd.tasks[id])
            && (forall id | id in r.wf.tasks && id !in rd.tasks :: r.wf.tasks[id].status == Idle)
  {
    if rd.spaceError && !rd.changed {
      var c := CreateCleanupTask(rd.tasks, s.wf.pending, rd.resources, rd.shared, s.nextCleanup);
      if c.task.Some? {
        var t := c.task.value;
        AddFreshLinks(rd.resources, rd.tasks, rd.queue, t);
        forall n: nat | n >= c.next ensures CleanupId(n) != t.id {
          CleanupIdsDistinct(n, s.nextCleanup);
        }
      }
    }
  }

  lemma AdmissionPhaseLinks(cfg: Config, now: int, s: Sim, rd: Round)
    requires Coherent(s) && |rd.mem| == |rd.resources| && Links(rd.resources, rd.tasks, rd.queue)
    requires rd.tasks.Keys == s.wf.tasks.Keys && Moves(s.wf.tasks, rd.tasks, Idle, Queued)
    ensures var r := AfterAdmission(s, AdmitLoop(cfg, now, rd, rd.queue));
            Coherent(r) && Advanced(s.wf.tasks, r.wf.tasks)
  {
    var a := AdmitLoop(cfg, now, rd, rd.queue);
    AdmitLoopLinks(cfg, now, rd, rd.queue);
    AfterAdmissionLinks(s, a);
  }

  lemma PreemptionPhaseLinks(cfg: Config, s: Sim, rd: Round)
    requires Coherent(s) && Links(rd.resources, rd.tasks, rd.queue)
    requires rd.tasks.Keys == s.wf.tasks.Keys && Moves(s.wf.tasks, rd.tasks, Idle, Queued)
    ensures var r := Commit(s, PreemptLoop(cfg, rd, s.wf.pending));
            Coherent(r) && Advanced(s.wf.tasks, r.wf.tasks)
  {
    PreemptLoopLinks(cfg, rd, s.wf.pending);
  }

  /** The scheduling half of an iteration keeps the links, and every task advances along its life cycle. */
  lemma ScheduleLinks(cfg: Config, now: int, f: Fed)
    requires |f.mem| == |f.sim.resources| && Coherent(f.sim)
    ensures var r := Schedule(cfg, now, f);
            Coherent(r) && Advanced(f.sim.wf.tasks, r.wf.tasks)
  {
    var s := f.sim;
    var pr := Promote(s.wf.tasks, s.wf.pending, s.queue);
    PromoteLinks(s.resources, s.wf.tasks, s.wf.pending, s.queue);
    var rd := Round(s.resources, s.shared, pr.0, pr.1, f.diskSignal, f.mem, false, false);
    if !cfg.enablePid || f.diskSignal > 0.0 {
      AdmissionPhaseLinks(cfg, now, s, rd);
    } else if f.diskSignal < 0.0 {
      PreemptionPhaseLinks(cfg, s, rd);
    }
  }

  lemma ContinueLinks(cfg: Config, now: int, active: bool, f: Fed)
    requires |f.mem| == |f.sim.resources| && Coherent(f.sim)
    ensures var r := Continue(cfg, now, active, f);
            Coherent(r) && Advanced(f.sim.wf.tasks, r.wf.tasks)
  {
    if active {
      ScheduleLinks(cfg, now, f);
    }
  }

  /** Retiring, then advancing, is advancing. */
  lemma RetireThenAdvance(x: map<string, Task>, y: map<string, Task>, z: map<string, Task>)
    requires Moves(x, y, Running, Completed) && x.Keys == y.Keys && Advanced(y, z)
    ensures Advanced(x, z)
  {
  }

  /** Retirement and feeding the controllers keep the links and only complete running tasks. */
  lemma Fed0Links(cfg: Config, s: Sim)
    requires Coherent(s)
    ensures var f := Fed0(cfg, s);
            && Coherent(f.sim) && f.sim.wf.tasks.Keys == s.wf.tasks.Keys && Moves(s.wf.tasks, f.sim.wf.tasks, Running, Completed)
  {
    var s1 := s.(time := s.time + 1);
    var s2 := Retire(s1);
    RetireLinks(s1);
    var f := Fed0(cfg, s);
    SameUnitsLinks(s2.resources, f.sim.resources, s2.wf.tasks, s2.queue);
  }

  /**
   One whole iteration keeps the links: queued ids name queued tasks, every held task is the
   table's running record and held once, and cleanup ids to come are free.  Every task keeps its
   status or moves along IDLE -> QUEUED -> RUNNING -> COMPLETED (two steps at most, idle to
   running) or from RUNNING back to IDLE; no task disappears and every new task is idle.
   */
  lemma TickLifecycle(cfg: Config, s: Sim)
    requires Coherent(s)
    ensures Coherent(Tick(cfg, s)) && Advanced(s.wf.tasks, Tick(cfg, s).wf.tasks)
  {
    var f := Fed0(cfg, s);
    var active := AnyDue(s.resources, s.time + 1) || s.changed;
    var r := Continue(cfg, s.time + 1, active, f);
    assert Tick(cfg, s) == r;
    Fed0Links(cfg, s);
    ContinueLinks(cfg, s.time + 1, active, f);
    RetireThenAdvance(s.wf.tasks, f.sim.wf.tasks, r.wf.tasks);
  }
}

=== FILE: options.dfy ===
/** Optional values: the model's stand-in for a Python attribute or return value that may be `None`. */
module Options {

  datatype Option<+T> = None | Some(value: T)
}

=== FILE: pid.dfy ===
/**
 The feedback controller of controller.py: a discrete PID rule with a dead-band around the
 setpoint.  The whole controller state is a value; `Process` returns the next state together
 with the correction signal.  Arithmetic is exact (`real`), not IEEE floating point.
 */
module Pid {

  datatype Controller = Controller(
    setpoint: real,
    kp: real,
    ki: real,
    kd: real,
    tolerance: real,   // the `error` fraction of the source: width of the dead-band relative to the setpoint
    cumulative: real,  // accumulated error since the last dead-band reset
    previous: real)    // error seen by the previous call

  /** The dead-band width a controller gets when none is given. */
  const DefaultTolerance: real := 0.05

  /** The result of one `process` call: the updated controller and the returned signal. */
  datatype Step = Step(next: Controller, signal: real)

  /** A controller with no history. */
  predicate Fresh(c: Controller) {
    c.cumulative == 0.0 && c.previous == 0.0
  }

  /** The configuration fields, which no call ever changes. */
  predicate SameTuning(a: Controller, b: Controller) {
    a.setpoint == b.setpoint && a.kp == b.kp && a.ki == b.ki && a.kd == b.kd && a.tolerance == b.tolerance
  }

  function Abs(x: real): (r: real)
    ensures r >= 0.0 && (r == x || r == -x)
  {
    if x < 0.0 then -x else x
  }

  /** The controller constructor: configuration as given, no history. */
  function New(setpoint: real, kp: real, ki: real, kd: real, tolerance: real): (c: Controller)
    ensures Fresh(c)
    ensures c.setpoint == setpoint && c.kp == kp && c.ki == ki && c.kd == kd && c.tolerance == tolerance
  {
    Controller(setpoint, kp, ki, kd, tolerance, 0.0, 0.0)
  }

  /** The error of a measurement: how far it lies below the setpoint. */
  function Error(c: Controller, measured: real): real {
    c.setpoint - measured
  }

  /** A measurement close enough to the setpoint that no correction is issued. */
  predicate InDeadBand(c: Controller, measured: real) {
    Abs(Error(c, measured)) < c.setpoint * c.tolerance
  }

  /**
   One call of `process`.  Inside the dead-band the signal is 0 and the integral history is
   reset; outside it the signal combines the current error with the history as it was BEFORE
   this call, and only then is the history updated.
   */
  function Process(c: Controller, measured: real): (s: Step)
    ensures SameTuning(c, s.next)
    ensures s.next.previous == Error(c, measured)
    ensures InDeadBand(c, measured) ==> s.signal == 0.0 && s.next.cumulative == 0.0
    ensures !InDeadBand(c, measured) ==>
              && s.signal == c.kp * Error(c, measured) + c.ki * c.cumulative + c.kd * c.previous
              && s.next.cumulative == c.cumulative + Error(c, measured)
  {
    var e := c.setpoint - measured;
    if Abs(e) < c.setpoint * c.tolerance then
      Step(c.(previous := e, cumulative := 0.0), 0.0)
    else
      var signal := c.kp * e + c.ki * c.cumulative + c.kd * c.previous;
      Step(c.(cumulative := c.cumulative + e, previous := e), signal)
  }

  /** Feeding a sequence of measurements, one call each; returns the final state and every signal. */
  function Feed(c: Controller, ms: seq<real>): (r: (Controller, seq<real>))
    ensures |r.1| == |ms|
    ensures SameTuning(c, r.0)
    decreases |ms|
  {
    if |ms| == 0 then (c, [])
    else
      var before := Feed(c, ms[..|ms| - 1]);
      var step := Process(before.0, ms[|ms| - 1]);
      (step.next, before.1 + [step.signal])
  }

  function Sum(xs: seq<real>): real
    decreases |xs|
  {
    if |xs| == 0 then 0.0 else Sum(xs[..|xs| - 1]) + xs[|xs| - 1]
  }

  /** The errors a controller tuned like `c` sees for the measurements `ms`. */
  function Errors(c: Controller, ms: seq<real>): (es: seq<real>)
    ensures |es| == |ms|
    ensures forall k | 0 <= k < |ms| :: es[k] == Error(c, ms[k])
  {
    seq(|ms|, k requires 0 <= k < |ms| => Error(c, ms[k]))
  }

  /**
   Reference definition of the signal sequence of an uninterrupted run (no dead-band hit) that
   starts from a fresh controller: the k-th signal is kp times the k-th error, plus ki times the
   sum of all earlier errors, plus kd times the error just before it.
   */
  function ClosedFormSignal(c: Controller, es: seq<real>, k: nat): real
    requires k < |es|
  {
    c.kp * es[k] + c.ki * Sum(es[..k]) + c.kd * (if k == 0 then 0.0 else es[k - 1])
  }

  predicate OutOfBand(c: Controller, ms: seq<real>) {
    forall k | 0 <= k < |ms| :: !InDeadBand(c, ms[k])
  }

  /** The state and signals an uninterrupted run from a fresh controller must produce. */
  predicate ClosedForm(c: Controller, ms: seq<real>, final: Controller, signals: seq<real>)
    requires |signals| == |ms|
  {
    var es := Errors(c, ms);
    && final.cumulative == Sum(es)
    && final.previous == (if |ms| == 0 then 0.0 else es[|ms| - 1])
    && forall k | 0 <= k < |ms| :: signals[k] == ClosedFormSignal(c, es, k)
  }

  /**
   An uninterrupted run from a fresh controller follows the closed form: the integral term is the
   sum of the earlier errors and the derivative term the previous error.
   */
  lemma {:induction false} FeedOutOfBandClosedForm(c: Controller, ms: seq<real>)
    requires Fresh(c)
    requires OutOfBand(c, ms)
    ensures ClosedForm(c, ms, Feed(c, ms).0, Feed(c, ms).1)
    decreases |ms|
  {
    if |ms| > 0 {
      var n := |ms| - 1;
      var init := ms[..n];
      assert OutOfBand(c, init) by {
        forall k | 0 <= k < |init| ensures !InDeadBand(c, init[k]) {
          assert init[k] == ms[k];
        }
      }
      FeedOutOfBandClosedForm(c, init);
      ClosedFormExtend(c, ms);
    }
  }

  /** The inductive step of `FeedOutOfBandClosedForm`: one more out-of-band measurement. */
  lemma ClosedFormExtend(c: Controller, ms: seq<real>)
    requires |ms| > 0
    requires !InDeadBand(c, ms[|ms| - 1])
    requires ClosedForm(c, ms[..|ms| - 1], Feed(c, ms[..|ms| - 1]).0, Feed(c, ms[..|ms| - 1]).1)
    ensures ClosedForm(c, ms, Feed(c, ms).0, Feed(c, ms).1)
  {
    var n := |ms| - 1;
    var before := Feed(c, ms[..n]);
    var step := Process(before.0, ms[n]);
    assert Feed(c, ms) == (step.next, before.1 + [step.signal]);
    ClosedFormStep(c, ms, before.0, before.1);
  }

  lemma ClosedFormStep(c: Controller, ms: seq<real>, d: Controller, signals: seq<real>)
    requires |ms| > 0 && |signals| == |ms| - 1
    requires SameTuning(c, d)
    requires !InDeadBand(c, ms[|ms| - 1])
    requires ClosedForm(c, ms[..|ms| - 1], d, signals)
    ensures ClosedForm(c, ms, Process(d, ms[|ms| - 1]).next, signals + [Process(d, ms[|ms| - 1]).signal])
  {
    var n := |ms| - 1;
    var es := Errors(c, ms);
    assert Errors(c, ms[..n]) == es[..n];
    var step := Process(d, ms[n]);
    assert step.next.cumulative == Sum(es) by {
      OutOfBandStep(d, ms[n]);
      assert Sum(es) == Sum(es[..n]) + es[n];
    }
    assert step.next.previous == es[n] by {
      OutOfBandStep(d, ms[n]);
    }
    assert step.signal == ClosedFormSignal(c, es, n) by {
      StepSignal(c, d, es, n, ms[n]);
    }
    var all := signals + [step.signal];
    forall k | 0 <= k < n
      ensures all[k] == ClosedFormSignal(c, es, k)
    {
      assert all[k] == signals[k];
      SignalOfPrefix(c, es, n, k);
    }
  }

  /** The closed-form signal at position k only depends on the errors up to k. */
  lemma SignalOfPrefix(c: Controller, es: seq<real>, n: nat, k: nat)
    requires k < n <= |es|
    ensures ClosedFormSignal(c, es[..n], k) == ClosedFormSignal(c, es, k)
  {
    assert es[..n][..k] == es[..k];
  }

  lemma StepSignal(c: Controller, d: Controller, es: seq<real>, n: nat, m: real)
    requires n < |es| && es[n] == Error(c, m)
    requires SameTuning(c, d) && !InDeadBand(d, m)
    requires d.cumulative == Sum(es[..n])
    requires d.previous == (if n == 0 then 0.0 else es[n - 1])
    ensures Process(d, m).signal == ClosedFormSignal(c, es, n)
  {
    OutOfBandStep(d, m);
  }

  /** One out-of-band call, restated without the dead-band case. */
  lemma OutOfBandStep(c: Controller, measured: real)
    requires !InDeadBand(c, measured)
    ensures Process(c, measured).signal == c.kp * Error(c, measured) + c.ki * c.cumulative + c.kd * c.previous
    ensures Process(c, measured).next.cumulative == c.cumulative + Error(c, measured)
    ensures Process(c, measured).next.previous == Error(c, measured)
  {
  }

  /** With tolerance 0 the dead-band is empty: every call applies the PID rule. */
  lemma ZeroToleranceNeverInDeadBand(c: Controller, measured: real)
    requires c.tolerance == 0.0
    ensures !InDeadBand(c, measured)
    ensures Process(c, measured).next.cumulative == c.cumulative + Error(c, measured)
  {
  }

  /** The first out-of-band call on a fresh controller is purely proportional. */
  lemma FreshFirstSignal(c: Controller, measured: real)
    requires Fresh(c)
    requires !InDeadBand(c, measured)
    ensures Process(c, measured).signal == c.kp * Error(c, measured)
  {
  }

  /**
   Two identical out-of-band measurements on a fresh controller: the second signal exceeds the
   first by (ki + kd) times the error, so it is strictly larger when the error is positive and
   the integral and derivative gains are non-negative with a positive sum.
   */
  lemma {:induction false} RepeatedErrorGrows(c: Controller, measured: real)
    requires Fresh(c)
    requires !InDeadBand(c, measured)
    requires Error(c, measured) > 0.0
    requires c.ki >= 0.0 && c.kd >= 0.0 && c.ki + c.kd > 0.0
    ensures var first := Process(c, measured);
            var second := Process(first.next, measured);
            second.signal > first.signal
  {
    var e := Error(c, measured);
    var first := Process(c, measured);
    var second := Process(first.next, measured);
    assert !InDeadBand(first.next, measured);
    assert second.signal - first.signal == (c.ki + c.kd) * e;
    assert (c.ki + c.kd) * e > 0.0;
  }

  /** Setpoint 100, all gains 1, tolerance 0: measuring 90 twice yields 10 and then 30. */
  lemma IntegralExample()
    ensures var c := New(100.0, 1.0, 1.0, 1.0, 0.0);
            var first := Process(c, 90.0);
            var second := Process(first.next, 90.0);
            first.signal == 10.0 && second.signal == 30.0
  {
  }

  /** Setpoint 100, tolerance 0.05: measuring 98 is within the dead-band, returns 0 and resets the integral. */
  lemma DeadBandExample(cumulative: real, previous: real)
    ensures var c := New(100.0, 1.0, 1.0, 1.0, 0.05).(cumulative := cumulative, previous := previous);
            var s := Process(c, 98.0);
            s.signal == 0.0 && s.next.cumulative == 0.0 && s.next.previous == 2.0
  {
  }
}

=== FILE: preemption.dfy ===
/**
 The preemption step of `PIDScheduler.start` (pid_scheduler.py), run when the controllers are on
 and the disk signal is negative: while the storage budget is negative and more than one regular
 task runs, the task that started last (the first such in resource and unit order) is preempted,
 its files cleaned against the files pending tasks need, and its storage estimate given back to
 the budget.
 */
module Preemption {
  import opened Options
  import opened Files
  import opened Tasks
  import opened Resources
  import opened SchedulerState
  import Storages

  /** A running task and the index of the resource it runs on. */
  datatype Held = Held(res: nat, task: Task)

  function Tag(k: nat, ts: seq<Task>): (hs: seq<Held>)
    ensures |hs| == |ts| && forall i | 0 <= i < |ts| :: hs[i] == Held(k, ts[i])
  {
    seq(|ts|, i requires 0 <= i < |ts| => Held(k, ts[i]))
  }

  /** The running tasks of resources k, k+1, ..., in resource and unit order. */
  function RunningFrom(rs: seq<Resource>, k: nat): (hs: seq<Held>)
    requires k <= |rs|
    ensures forall h | h in hs :: k <= h.res < |rs| && h.task in RunningTasks(rs[h.res])
    decreases |rs| - k
  {
    if k == |rs| then []
    else Tag(k, RunningTasks(rs[k])) + RunningFrom(rs, k + 1)
  }

  /** `total_running_tasks` and the tasks it counts. */
  function RunningAll(rs: seq<Resource>): seq<Held> {
    RunningFrom(rs, 0)
  }

  /** Replacing one resource by one with a running task fewer leaves one running task fewer overall. */
  lemma {:induction false} RunningFromReplace(rs: seq<Resource>, k: nat, kk: nat, r: Resource)
    requires k <= |rs| && kk < |rs|
    requires |RunningTasks(r)| == |RunningTasks(rs[kk])| - 1
    ensures |RunningFrom(rs[kk := r], k)| == if k <= kk then |RunningFrom(rs, k)| - 1 else |RunningFrom(rs, k)|
    decreases |rs| - k
  {
    if k < |rs| {
      RunningFromReplace(rs, k + 1, kk, r);
      assert |RunningFrom(rs[kk := r], k + 1)| == if k + 1 <= kk then |RunningFrom(rs, k + 1)| - 1 else |RunningFrom(rs, k + 1)|;
      if k != kk {
        assert rs[kk := r][k] == rs[k];
      }
    } else {
      assert RunningFrom(rs[kk := r], k) == [] && RunningFrom(rs, k) == [];
    }
  }

  /** The scan for the latest started task from position j on, `best` being the latest so far. */
  function LatestFrom(hs: seq<Held>, j: nat, best: nat): (k: nat)
    requires best < j <= |hs|
    requires forall i | 0 <= i < j :: hs[i].task.startTime <= hs[best].task.startTime
    requires forall i | 0 <= i < best :: hs[i].task.startTime < hs[best].task.startTime
    ensures k < |hs|
    ensures forall i | 0 <= i < |hs| :: hs[i].task.startTime <= hs[k].task.startTime
    ensures forall i | 0 <= i < k :: hs[i].task.startTime < hs[k].task.startTime
    decreases |hs| - j
  {
    if j == |hs| then best
    else if hs[best].task.startTime < hs[j].task.startTime then LatestFrom(hs, j + 1, j)
    else LatestFrom(hs, j + 1, best)
  }

  /** The latest started task: no task started later, and every earlier one started strictly before. */
  function Latest(hs: seq<Held>): (k: nat)
    requires |hs| > 0
    ensures k < |hs|
    ensures forall i | 0 <= i < |hs| :: hs[i].task.startTime <= hs[k].task.startTime
    ensures forall i | 0 <= i < k :: hs[i].task.startTime < hs[k].task.startTime
  {
    LatestFrom(hs, 1, 0)
  }

  /** The state change of one preemption; `p.task` is the task reset to idle. */
  function Apply(cfg: Config, rd: Round, k: nat, p: Preemption): (r: Round)
    requires k < |rd.resources| && p.task.Some?
  {
    rd.(resources := rd.resources[k := p.resource], shared := p.shared,
        tasks := rd.tasks[p.task.value.id := p.task.value],
        diff := rd.diff + cfg.storageEstimate(p.task.value.transformation), changed := true)
  }

  /**
   One iteration of the `while diff_input < 0` loop: the latest started task is preempted, or
   None when the loop stops (the budget is not negative, at most one regular task runs, or the
   chosen task could not be found on its resource).
   */
  function PreemptStep(cfg: Config, rd: Round, pending: seq<string>): (r: Option<Round>)
    ensures rd.diff >= 0.0 || |RunningAll(rd.resources)| <= 1 ==> r.None?
    ensures r.Some? ==> r.value.changed && |RunningAll(r.value.resources)| < |RunningAll(rd.resources)|
    ensures r.Some? ==> |r.value.resources| == |rd.resources|
    ensures r.Some? ==> r.value.queue == rd.queue && r.value.mem == rd.mem && r.value.spaceError == rd.spaceError
    ensures r.Some? ==> rd.tasks.Keys <= r.value.tasks.Keys
    ensures r.Some? ==> forall x | x in r.value.tasks && (x in rd.tasks ==> r.value.tasks[x] != rd.tasks[x]) ::
              r.value.tasks[x].status == Idle && r.value.tasks[x].kind != Cleanup
    ensures r.Some? ==>
              var hs := RunningAll(rd.resources);
              var h := hs[Latest(hs)];
              && r.value.tasks == rd.tasks[h.task.id := Preempt(h.task)]
              && r.value.diff == rd.diff + cfg.storageEstimate(h.task.transformation)
  {
    var hs := RunningAll(rd.resources);
    if rd.diff >= 0.0 || |hs| <= 1 then None
    else
      var h := hs[Latest(hs)];
      assert h in hs;
      var p := PreemptTask(rd.resources[h.res], rd.shared, h.task, RequiredFiles(rd.tasks, pending));
      if p.task.None? then None
      else
        PreemptTaskFrees(rd.resources[h.res], rd.shared, h.task, RequiredFiles(rd.tasks, pending));
        RunningFromReplace(rd.resources, 0, h.res, p.resource);
        Some(Apply(cfg, rd, h.res, p))
  }

  /** The `while diff_input < 0` loop; each iteration preempts one running task, so it ends. */
  function PreemptLoop(cfg: Config, rd: Round, pending: seq<string>): (r: Round)
    ensures |r.resources| == |rd.resources|
    decreases |RunningAll(rd.resources)|
  {
    match PreemptStep(cfg, rd, pending)
    case None => rd
    case Some(next) => PreemptLoop(cfg, next, pending)
  }

  /**
   The loop leaves the queue and the memory budgets alone, only ever resets tasks to idle, and
   either changes nothing or preempts at least one task; it changes nothing when the budget is not
   negative or at most one regular task runs.
   */
  lemma {:induction false} PreemptLoopSpec(cfg: Config, rd: Round, pending: seq<string>)
    ensures var r := PreemptLoop(cfg, rd, pending);
            && r.queue == rd.queue && r.mem == rd.mem && r.spaceError == rd.spaceError
            && rd.tasks.Keys <= r.tasks.Keys
            && (forall x | x in r.tasks && (x in rd.tasks ==> r.tasks[x] != rd.tasks[x]) ::
                  r.tasks[x].status == Idle && r.tasks[x].kind != Cleanup)
            && (r == rd || (r.changed && |RunningAll(r.resources)| < |RunningAll(rd.resources)|))
            && (rd.diff >= 0.0 || |RunningAll(rd.resources)| <= 1 ==> r == rd)
    decreases |RunningAll(rd.resources)|
  {
    match PreemptStep(cfg, rd, pending)
    case None =>
    case Some(next) => PreemptLoopSpec(cfg, next, pending);
  }

  /** The step stops only when the budget is not negative or at most one regular task runs. */
  lemma PreemptStepProceeds(cfg: Config, rd: Round, pending: seq<string>)
    ensures PreemptStep(cfg, rd, pending).None? ==> rd.diff >= 0.0 || |RunningAll(rd.resources)| <= 1
  {
    var hs := RunningAll(rd.resources);
    if rd.diff < 0.0 && |hs| > 1 {
      var h := hs[Latest(hs)];
      assert h in hs;
      PreemptRunningTask(rd.resources[h.res], rd.shared, h.task, RequiredFiles(rd.tasks, pending));
    }
  }

  /** The loop runs until the budget is no longer negative or at most one regular task is left running. */
  lemma {:induction false} PreemptLoopStops(cfg: Config, rd: Round, pending: seq<string>)
    ensures var r := PreemptLoop(cfg, rd, pending);
            r.diff >= 0.0 || |RunningAll(r.resources)| <= 1
    decreases |RunningAll(rd.resources)|
  {
    match PreemptStep(cfg, rd, pending)
    case None => PreemptStepProceeds(cfg, rd, pending);
    case Some(next) => PreemptLoopStops(cfg, next, pending);
  }

  /** One preemption keeps the storage and memory accounting and the cleanup-task invariant. */
  lemma PreemptStepValid(cfg: Config, rd: Round, pending: seq<string>)
    requires RoundValid(rd)
    ensures PreemptStep(cfg, rd, pending).Some? ==> RoundValid(PreemptStep(cfg, rd, pending).value)
  {
    var hs := RunningAll(rd.resources);
    if rd.diff < 0.0 && |hs| > 1 {
      var h := hs[Latest(hs)];
      assert h in hs;
      var req := RequiredFiles(rd.tasks, pending);
      PreemptTaskValid(rd.resources[h.res], rd.shared, h.task, req);
    }
  }

  /** Preemption keeps the storage and memory accounting and the cleanup-task invariant. */
  lemma {:induction false} PreemptLoopValid(cfg: Config, rd: Round, pending: seq<string>)
    requires RoundValid(rd)
    ensures RoundValid(PreemptLoop(cfg, rd, pending))
    decreases |RunningAll(rd.resources)|
  {
    PreemptStepValid(cfg, rd, pending);
    match PreemptStep(cfg, rd, pending)
    case None =>
    case Some(next) => PreemptLoopValid(cfg, next, pending);
  }
}

=== FILE: promotion.dfy ===
/**
 The promotion step of `PIDScheduler.start` (pid_scheduler.py): every pending task, in the order
 of the pending list, that is idle, not yet queued and whose parents have all completed is appended to the queue
 and marked queued.
 */
module Promotion {
  import opened Tasks
  import opened SchedulerState

  /** A task the promotion step appends to the queue. */
  predicate Eligible(tasks: map<string, Task>, queue: seq<string>, id: string) {
    id in tasks && tasks[id].status == Idle && id !in queue && IsReady(tasks[id], tasks)
  }

  function MarkQueued(tasks: map<string, Task>, id: string): map<string, Task>
    requires id in tasks
  {
    tasks[id := tasks[id].(status := Queued)]
  }

  /** Queuing one eligible task changes the eligibility of no other task. */
  lemma EligibleAfterQueue(tasks: map<string, Task>, queue: seq<string>, id: string, x: string)
    requires Eligible(tasks, queue, id)
    ensures Eligible(MarkQueued(tasks, id), queue + [id], x) <==> Eligible(tasks, queue, x) && x != id
  {
    var t2 := MarkQueued(tasks, id);
    if x != id && x in tasks {
      assert t2[x] == tasks[x];
      forall p | p in tasks[x].parents
        ensures (p in t2 && t2[p].status == Completed) <==> (p in tasks && tasks[p].status == Completed)
      {
        if p == id {
          assert tasks[p].status == Idle && t2[p].status == Queued;
        }
      }
      assert IsReady(t2[x], t2) <==> IsReady(tasks[x], tasks);
    }
  }

  /** Promotion from position i of the pending ids on; the second component is the new queue. */
  function PromoteFrom(tasks: map<string, Task>, pending: seq<string>, queue: seq<string>, i: nat)
    : (r: (map<string, Task>, seq<string>))
    requires i <= |pending|
    ensures |queue| <= |r.1| && r.1[..|queue|] == queue
    ensures forall x :: x in r.1[|queue|..] <==> x in pending[i..] && Eligible(tasks, queue, x)
    ensures DistinctIds(r.1[|queue|..])
    ensures r.0.Keys == tasks.Keys
    ensures forall x | x in tasks :: r.0[x] == if x in r.1[|queue|..] then tasks[x].(status := Queued) else tasks[x]
    decreases |pending| - i
  {
    if i == |pending| then (tasks, queue)
    else
      var id := pending[i];
      assert pending[i..] == [id] + pending[i + 1..];
      if Eligible(tasks, queue, id) then
        var q2 := queue + [id];
        var r := PromoteFrom(MarkQueued(tasks, id), pending, q2, i + 1);
        forall x ensures Eligible(MarkQueued(tasks, id), q2, x) <==> Eligible(tasks, queue, x) && x != id {
          EligibleAfterQueue(tasks, queue, id, x);
        }
        assert r.1[|queue|..] == [id] + r.1[|q2|..];
        r
      else
        PromoteFrom(tasks, pending, queue, i + 1)
  }

  /** The promotion step: exactly the eligible pending tasks join the queue, each once, and are marked queued. */
  function Promote(tasks: map<string, Task>, pending: seq<string>, queue: seq<string>)
    : (r: (map<string, Task>, seq<string>))
    ensures |queue| <= |r.1| && r.1[..|queue|] == queue
    ensures forall x :: x in r.1[|queue|..] <==> x in pending && Eligible(tasks, queue, x)
    ensures DistinctIds(queue) ==> DistinctIds(r.1)
    ensures r.0.Keys == tasks.Keys
    ensures forall x | x in tasks :: r.0[x] == if x in r.1[|queue|..] then tasks[x].(status := Queued) else tasks[x]
  {
    var r := PromoteFrom(tasks, pending, queue, 0);
    assert pending[0..] == pending;
    var added := r.1[|queue|..];
    assert r.1 == queue + added;
    forall i, j | 0 <= i < j < |r.1| && DistinctIds(queue) ensures r.1[i] != r.1[j] {
      if j >= |queue| {
        assert r.1[j] == added[j - |queue|];
        if i < |queue| {
          assert !Eligible(tasks, queue, r.1[i]);
        }
      }
    }
    r
  }
}

=== FILE: resources.dfy ===
/**
 Compute resources and compute units of resource.py.  A resource owns a pool of units, a
 memory budget, an optional local storage and a memory controller; the shared storage is
 passed in and handed back by every operation that may change it.  A unit holds the record
 of the task it runs (the source's object reference); it is busy exactly while it holds one.

 The two accounting invariants:
 - every storage: available + sizes of resident files == capacity (`Storages.Valid`);
 - every resource: available memory + peak memory of the tasks on its units == capacity.
 */
module Resources {
  import opened Options
  import opened Files
  import opened Tasks
  import Storages
  import Pid

  type Storage = Storages.Storage

  datatype Unit = Unit(id: nat, current: Option<Task>)

  /** `ResourceStatus.BUSY`: the source sets status and current task together, so busy means holding a task. */
  predicate Busy(u: Unit) {
    u.current.Some?
  }

  datatype Resource = Resource(
    id: string,
    accepted: set<string>,           // transformations this resource runs (cleanup tasks always run)
    local: Option<Storage>,          // present iff created with a positive local capacity
    memCapacity: int,
    memAvailable: int,
    units: seq<Unit>,                // in creation order, the order the source scans them
    memController: Pid.Controller)

  // ----- memory accounting -----

  function Peak(u: Unit): int {
    if u.current.Some? then u.current.value.peakMemory else 0
  }

  /** Peak memory of the tasks held by the units. */
  function BusyPeak(units: seq<Unit>): int
    decreases |units|
  {
    if |units| == 0 then 0 else Peak(units[0]) + BusyPeak(units[1..])
  }

  lemma {:induction false} BusyPeakUpdate(units: seq<Unit>, i: nat, u: Unit)
    requires i < |units|
    ensures BusyPeak(units[i := u]) == BusyPeak(units) - Peak(units[i]) + Peak(u)
    decreases |units|
  {
    if i > 0 {
      assert units[i := u][1..] == units[1..][i - 1 := u];
      BusyPeakUpdate(units[1..], i - 1, u);
    } else {
      assert units[i := u][1..] == units[1..];
    }
  }

  predicate Valid(r: Resource) {
    && r.memAvailable + BusyPeak(r.units) == r.memCapacity
    && (r.local.Some? ==> Storages.Valid(r.local.value))
    && forall i | 0 <= i < |r.units| && r.units[i].current.Some? :: CleanupFree(r.units[i].current.value)
  }

  /** Units 0..n-1, all idle (`generate_compute_units`). */
  function IdleUnits(n: nat): (us: seq<Unit>)
    ensures |us| == n
    ensures forall i | 0 <= i < n :: us[i] == Unit(i, None)
  {
    seq(n, i requires 0 <= i < n => Unit(i, None))
  }

  lemma {:induction false} IdleUnitsPeak(us: seq<Unit>)
    requires forall i | 0 <= i < |us| :: !Busy(us[i])
    ensures BusyPeak(us) == 0
    decreases |us|
  {
    if |us| > 0 {
      IdleUnitsPeak(us[1..]);
    }
  }

  /**
   A resource as the scheduler sets it up: `__init__`, then `generate_compute_units`, then
   `set_mem_controller` (setpoint threshold * capacity, default tolerance 0.05).
   */
  function NewResource(id: string, accepted: set<string>, localCapacity: int, memCapacity: int,
                       unitCount: nat, memThreshold: real, kp: real, ki: real, kd: real): (r: Resource)
    ensures Valid(r)
    ensures r.local.Some? <==> localCapacity > 0
    ensures r.local.Some? ==> r.local.value == Storages.New(localCapacity)
    ensures r.memAvailable == r.memCapacity == memCapacity
    ensures |r.units| == unitCount && forall i | 0 <= i < unitCount :: r.units[i] == Unit(i, None)
    ensures r.memController == Pid.New(memThreshold * memCapacity as real, kp, ki, kd, Pid.DefaultTolerance)
  {
    var units := IdleUnits(unitCount);
    IdleUnitsPeak(units);
    Resource(id, accepted, if localCapacity > 0 then Some(Storages.New(localCapacity)) else None,
             memCapacity, memCapacity, units, Pid.New(memThreshold * memCapacity as real, kp, ki, kd, Pid.DefaultTolerance))
  }

  // ----- admission -----

  /** A file counts toward the space a task needs when it is missing from local storage (if any) or from shared storage. */
  predicate NeedsSpace(r: Resource, shared: Storage, f: File) {
    (r.local.Some? && !Storages.Holds(r.local.value, f.name)) || !Storages.Holds(shared, f.name)
  }

  /** `_get_required_storage` over a list of files, counting every entry that needs space. */
  function RequiredStorage(r: Resource, shared: Storage, fs: seq<File>): (n: nat)
    ensures n <= Files.Size(fs)
    ensures (forall f | f in fs :: NeedsSpace(r, shared, f)) ==> n == Files.Size(fs)
    ensures (forall f | f in fs :: !NeedsSpace(r, shared, f)) ==> n == 0
    decreases |fs|
  {
    if |fs| == 0 then 0
    else (if NeedsSpace(r, shared, fs[0]) then fs[0].size else 0) + RequiredStorage(r, shared, fs[1..])
  }

  /** Where `_add_to_storage` puts files: local storage when the resource has one, shared storage otherwise. */
  function Target(r: Resource, shared: Storage): Storage {
    if r.local.Some? then r.local.value else shared
  }

  /** The bytes actually charged to the target are bounded by the required storage. */
  lemma {:induction false} MissingAtMostRequired(r: Resource, shared: Storage, fs: seq<File>)
    ensures Storages.Missing(fs, Names(Target(r, shared).files)) <= RequiredStorage(r, shared, fs)
    decreases |fs|
  {
    if |fs| > 0 {
      MissingAtMostRequired(r, shared, fs[1..]);
    }
  }

  /** The space check: local storage (when present) and shared storage must both hold `required` more bytes. */
  predicate SpaceShort(r: Resource, shared: Storage, required: int) {
    (r.local.Some? && r.local.value.available < required) || shared.available < required
  }

  predicate Accepts(r: Resource, t: Task) {
    t.transformation in r.accepted || t.kind == Cleanup
  }

  /** The first idle unit in scan order. */
  function FirstIdle(units: seq<Unit>): (r: Option<nat>)
    ensures r.Some? ==> r.value < |units| && !Busy(units[r.value])
    ensures r.Some? ==> forall j | 0 <= j < r.value :: Busy(units[j])
    ensures r.None? ==> forall j | 0 <= j < |units| :: Busy(units[j])
    decreases |units|
  {
    if |units| == 0 then None
    else if !Busy(units[0]) then Some(0)
    else match FirstIdle(units[1..])
      case None => None
      case Some(k) => Some(k + 1)
  }

  /** The outcome of `run_task`.  The source returns `None` for the first two and raises for the next two. */
  datatype Admission =
    | NotAccepted
    | NoIdleUnit
    | InsufficientSpace(required: nat)
    | InsufficientMemory(peak: int)
    | Admitted(resource: Resource, shared: Storage, unit: nat)

  /** Unit `i` now holds task `t`. */
  function Occupy(units: seq<Unit>, i: nat, t: Task): seq<Unit>
    requires i < |units|
  {
    units[i := Unit(units[i].id, Some(t))]
  }

  /**
   `run_task`: the accepted-type check, then a free unit, then (regular tasks only) the space
   check, then the memory check; files and memory are charged only after both checks pass.
   Failures carry no state, so a failed admission changes nothing.
   */
  function RunTask(r: Resource, shared: Storage, t: Task): (a: Admission)
    ensures a.NotAccepted? <==> !Accepts(r, t)
    ensures a.NoIdleUnit? <==> Accepts(r, t) && FirstIdle(r.units).None?
    ensures a.InsufficientSpace? <==>
              && Accepts(r, t) && FirstIdle(r.units).Some? && t.kind != Cleanup
              && SpaceShort(r, shared, RequiredStorage(r, shared, AllFiles(t)))
    ensures a.InsufficientMemory? <==>
              && Accepts(r, t) && FirstIdle(r.units).Some? && t.kind != Cleanup
              && !SpaceShort(r, shared, RequiredStorage(r, shared, AllFiles(t)))
              && r.memAvailable < t.peakMemory
    ensures a.Admitted? ==>
              && a.unit == FirstIdle(r.units).value
              && a.resource == r.(units := Occupy(r.units, a.unit, t), local := a.resource.local,
                                  memAvailable := a.resource.memAvailable)
              && a.resource.local.Some? == r.local.Some?
    ensures a.Admitted? && t.kind == Cleanup ==>
              a.resource.local == r.local && a.shared == shared && a.resource.memAvailable == r.memAvailable
    ensures a.Admitted? && t.kind != Cleanup ==>
              && a.resource.memAvailable == r.memAvailable - t.peakMemory >= 0
              && Target(a.resource, a.shared) == Storages.AddAll(Target(r, shared), AllFiles(t))
              && Names(Target(a.resource, a.shared).files) == Names(Target(r, shared).files) + Names(AllFiles(t))
              && (r.local.Some? ==> a.shared == shared)
  {
    if !Accepts(r, t) then NotAccepted
    else match FirstIdle(r.units)
      case None => NoIdleUnit
      case Some(i) =>
        var units := Occupy(r.units, i, t);
        if t.kind == Cleanup then Admitted(r.(units := units), shared, i)
        else
          var required := RequiredStorage(r, shared, AllFiles(t));
          if SpaceShort(r, shared, required) then InsufficientSpace(required)
          else if r.memAvailable < t.peakMemory then InsufficientMemory(t.peakMemory)
          else if r.local.Some? then
            Admitted(r.(local := Some(Storages.AddAll(r.local.value, AllFiles(t))),
                        memAvailable := r.memAvailable - t.peakMemory, units := units), shared, i)
          else
            Admitted(r.(memAvailable := r.memAvailable - t.peakMemory, units := units),
                     Storages.AddAll(shared, AllFiles(t)), i)
  }

  /** Admission keeps both accounting invariants, given that a cleanup task asks for no memory. */
  lemma RunTaskValid(r: Resource, shared: Storage, t: Task)
    requires Valid(r) && Storages.Valid(shared) && CleanupFree(t)
    requires RunTask(r, shared, t).Admitted?
    ensures Valid(RunTask(r, shared, t).resource)
    ensures Storages.Valid(RunTask(r, shared, t).shared)
  {
    var a := RunTask(r, shared, t);
    var i := a.unit;
    BusyPeakUpdate(r.units, i, Unit(r.units[i].id, Some(t)));
    if t.kind != Cleanup {
      if r.local.Some? {
        Storages.AddAllValid(r.local.value, AllFiles(t));
      } else {
        Storages.AddAllValid(shared, AllFiles(t));
      }
    }
    forall j | 0 <= j < |a.resource.units| && a.resource.units[j].current.Some?
      ensures CleanupFree(a.resource.units[j].current.value)
    {
      if j != i {
        assert a.resource.units[j] == r.units[j];
      }
    }
  }

  /** A regular admission never overdraws the storage that receives the files: required storage bounds the bytes added. */
  lemma RunTaskWithinCapacity(r: Resource, shared: Storage, t: Task)
    requires RunTask(r, shared, t).Admitted? && t.kind != Cleanup
    ensures var a := RunTask(r, shared, t);
            Target(a.resource, a.shared).available >= 0
  {
    var fs := AllFiles(t);
    MissingAtMostRequired(r, shared, fs);
    Storages.AddAllCharge(Target(r, shared), fs);
  }

  // ----- running tasks and their files -----

  /** A unit running a regular (non-cleanup) task. */
  predicate RunsRegular(u: Unit) {
    u.current.Some? && u.current.value.kind != Cleanup
  }

  /** `get_running_tasks`: the regular tasks on busy units, in unit order. */
  function RunningOf(units: seq<Unit>): (ts: seq<Task>)
    ensures |ts| <= |units|
    ensures forall t | t in ts :: t.kind != Cleanup
    decreases |units|
  {
    if |units| == 0 then []
    else
      var rest := RunningOf(units[1..]);
      if RunsRegular(units[0]) then [units[0].current.value] + rest else rest
  }

  /** Every running task is held by some unit, and every regular task a unit holds is running. */
  lemma {:induction false} RunningOfHeld(units: seq<Unit>, t: Task)
    ensures t in RunningOf(units) <==> t.kind != Cleanup && exists i | 0 <= i < |units| :: units[i].current == Some(t)
    decreases |units|
  {
    if |units| > 0 {
      RunningOfHeld(units[1..], t);
      if exists i | 0 <= i < |units[1..]| :: units[1..][i].current == Some(t) {
        var k :| 0 <= k < |units[1..]| && units[1..][k].current == Some(t);
        assert units[k + 1].current == Some(t);
      }
      if exists i | 0 <= i < |units| :: units[i].current == Some(t) {
        var k :| 0 <= k < |units| && units[k].current == Some(t);
        if k > 0 {
          assert units[1..][k - 1].current == Some(t);
        }
      }
    }
  }

  function RunningTasks(r: Resource): seq<Task> {
    RunningOf(r.units)
  }

  /** Freeing a unit that runs a regular task removes exactly one running task. */
  lemma {:induction false} RunningOfFree(units: seq<Unit>, i: nat)
    requires i < |units| && RunsRegular(units[i])
    ensures |RunningOf(units[i := Unit(units[i].id, None)])| == |RunningOf(units)| - 1
    decreases |units|
  {
    var v := units[i := Unit(units[i].id, None)];
    if i > 0 {
      assert v[1..] == units[1..][i - 1 := Unit(units[i].id, None)];
      RunningOfFree(units[1..], i - 1);
    } else {
      assert v[1..] == units[1..];
    }
  }

  /** `get_list_of_current_used_files`: every file of every regular task on a busy unit. */
  function UsedFiles(r: Resource): (used: set<File>)
    ensures forall f :: f in used <==>
              exists i | 0 <= i < |r.units| :: RunsRegular(r.units[i]) && f in AllFiles(r.units[i].current.value)
  {
    set i, f | 0 <= i < |r.units| && RunsRegular(r.units[i]) && f in AllFiles(r.units[i].current.value) :: f
  }

  // ----- freeing files -----

  /** The resource's local storage (if any) together with the shared storage. */
  datatype Stores = Stores(local: Option<Storage>, shared: Storage)

  predicate StoresValid(st: Stores) {
    (st.local.Some? ==> Storages.Valid(st.local.value)) && Storages.Valid(st.shared)
  }

  /** Local files stay put or go; nothing is added, and the same for shared files. */
  predicate Shrinks(before: Stores, after: Stores) {
    && after.local.Some? == before.local.Some?
    && (after.local.Some? ==> forall g | g in after.local.value.files :: g in before.local.value.files)
    && forall g | g in after.shared.files :: g in before.shared.files
  }

  /** File `g` is still resident in every tier where it was. */
  predicate Keeps(before: Stores, after: Stores, g: File) {
    && (before.local.Some? && after.local.Some? && g in before.local.value.files ==> g in after.local.value.files)
    && (g in before.shared.files ==> g in after.shared.files)
  }

  /**
   The removal loop of `_clean_files`: each listed file is freed from local storage when it is
   resident there, otherwise from shared storage when it is resident there.
   */
  function RemoveResident(st: Stores, fs: seq<File>): (r: Stores)
    ensures r.local.Some? == st.local.Some?
    ensures r.shared.capacity == st.shared.capacity
    ensures r.local.Some? ==> r.local.value.capacity == st.local.value.capacity
    ensures Shrinks(st, r)
    decreases |fs|
  {
    if |fs| == 0 then st
    else
      var f := fs[0];
      var next :=
        if st.local.Some? && f in st.local.value.files then Stores(Some(Storages.Remove(st.local.value, f)), st.shared)
        else if f in st.shared.files then Stores(st.local, Storages.Remove(st.shared, f))
        else st;
      RemoveResident(next, fs[1..])
  }

  /** The removal loop keeps the accounting, frees only listed files, and with no local storage frees exactly the listed ones. */
  lemma {:induction false} RemoveResidentSpec(st: Stores, fs: seq<File>)
    requires StoresValid(st)
    ensures StoresValid(RemoveResident(st, fs))
    ensures forall g | g !in fs :: Keeps(st, RemoveResident(st, fs), g)
    ensures st.local.None? ==>
              forall g | g in st.shared.files :: g in RemoveResident(st, fs).shared.files <==> g !in fs
    decreases |fs|
  {
    if |fs| > 0 {
      var f := fs[0];
      var next :=
        if st.local.Some? && f in st.local.value.files then Stores(Some(Storages.Remove(st.local.value, f)), st.shared)
        else if f in st.shared.files then Stores(st.local, Storages.Remove(st.shared, f))
        else st;
      if st.local.Some? {
        Storages.RemoveValid(st.local.value, f);
      }
      Storages.RemoveValid(st.shared, f);
      assert StoresValid(next);
      RemoveResidentSpec(next, fs[1..]);
      var r := RemoveResident(st, fs);
      assert r == RemoveResident(next, fs[1..]);
      forall g | g !in fs ensures Keeps(st, r, g) {
        assert g != f && g !in fs[1..];
        assert Keeps(st, next, g);
      }
    }
  }

  /** The files `_clean_files` considers freeing: the inputs, plus the intermediates unless the task is a cleanup task. */
  function Candidates(t: Task): seq<File> {
    t.input + (if t.kind == Cleanup then [] else t.intermediate)
  }

  /** The files of the other regular tasks busy on these units (a different id than `t`), in scan order, repeats kept. */
  function OtherBusyFiles(units: seq<Unit>, t: Task): (fs: seq<File>)
    ensures forall f :: f in fs <==>
              exists i | 0 <= i < |units| :: RunsRegular(units[i]) && units[i].current.value.id != t.id
                                              && f in AllFiles(units[i].current.value)
    decreases |units|
  {
    if |units| == 0 then []
    else
      var rest := OtherBusyFiles(units[1..], t);
      var here := if RunsRegular(units[0]) && units[0].current.value.id != t.id then AllFiles(units[0].current.value) else [];
      assert forall f :: f in rest <==>
               exists i | 1 <= i < |units| :: RunsRegular(units[i]) && units[i].current.value.id != t.id
                                              && f in AllFiles(units[i].current.value) by {
        forall f ensures f in rest ==> exists i | 1 <= i < |units| :: RunsRegular(units[i]) && units[i].current.value.id != t.id
                                              && f in AllFiles(units[i].current.value) {
          if f in rest {
            var k :| 0 <= k < |units[1..]| && RunsRegular(units[1..][k]) && units[1..][k].current.value.id != t.id
                      && f in AllFiles(units[1..][k].current.value);
            assert units[k + 1] == units[1..][k];
          }
        }
        forall f, i | 1 <= i < |units| && RunsRegular(units[i]) && units[i].current.value.id != t.id
                      && f in AllFiles(units[i].current.value)
          ensures f in rest
        {
          assert units[1..][i - 1] == units[i];
        }
      }
      here + rest
  }

  /** The files `_clean_files` must keep: the caller's required files and the files of the other busy regular tasks. */
  function Protected(units: seq<Unit>, t: Task, required: set<File>): set<File> {
    required + (set f | f in OtherBusyFiles(units, t))
  }

  /** The entries of `fs` outside `drop`, in order. */
  function Without(fs: seq<File>, drop: set<File>): (r: seq<File>)
    ensures forall g :: g in r <==> g in fs && g !in drop
    ensures |r| <= |fs|
    decreases |fs|
  {
    if |fs| == 0 then []
    else if fs[0] in drop then Without(fs[1..], drop)
    else [fs[0]] + Without(fs[1..], drop)
  }

  /**
   `_clean_files`: frees every candidate file of `t` that is neither required nor used by
   another regular task busy on this resource.  (See `CleanFilesAsWritten` for the list
   arithmetic the source actually performs, which differs when a candidate appears twice.)
   */
  function CleanFiles(r: Resource, shared: Storage, t: Task, required: set<File>): (st: Stores)
    ensures st.local.Some? == r.local.Some? && st.shared.capacity == shared.capacity
    ensures Shrinks(Stores(r.local, shared), st)
  {
    RemoveResident(Stores(r.local, shared), Without(Candidates(t), Protected(r.units, t, required)))
  }

  /**
   What cleaning guarantees: the accounting holds afterwards, no file is added, and a file
   stays wherever it was resident when it is required, used by another busy regular task, an
   output of `t` only, or an intermediate of a cleanup task.  Without local storage the shared
   storage loses exactly the unprotected candidates.
   */
  lemma CleanFilesSpec(r: Resource, shared: Storage, t: Task, required: set<File>)
    requires StoresValid(Stores(r.local, shared))
    ensures var after := CleanFiles(r, shared, t, required);
            && StoresValid(after)
            && Shrinks(Stores(r.local, shared), after)
            && (forall g | g in Protected(r.units, t, required) :: Keeps(Stores(r.local, shared), after, g))
            && (forall g | g !in Candidates(t) :: Keeps(Stores(r.local, shared), after, g))
            && (r.local.None? ==> forall g | g in shared.files ::
                  g in after.shared.files <==> g !in Candidates(t) || g in Protected(r.units, t, required))
  {
    RemoveResidentSpec(Stores(r.local, shared), Without(Candidates(t), Protected(r.units, t, required)));
  }

  /** Outputs of the task (that are not also among its candidates) and intermediates of a cleanup task are never freed. */
  lemma CleanFilesKeepsOutputs(r: Resource, shared: Storage, t: Task, required: set<File>, g: File)
    requires StoresValid(Stores(r.local, shared))
    requires (g in t.output && g !in t.input && (t.kind == Cleanup || g !in t.intermediate))
             || (t.kind == Cleanup && g in t.intermediate && g !in t.input)
    ensures Keeps(Stores(r.local, shared), CleanFiles(r, shared, t, required), g)
  {
    CleanFilesSpec(r, shared, t, required);
  }

  // ----- `_clean_files` as written -----

  /** Python's `list.remove(x)` guarded by `x in list`: drops the FIRST occurrence only. */
  function RemoveFirst(s: seq<File>, x: File): (r: seq<File>)
    ensures forall g | g in r :: g in s
    decreases |s|
  {
    if |s| == 0 then []
    else if s[0] == x then s[1..]
    else [s[0]] + RemoveFirst(s[1..], x)
  }

  /** One guarded `remove` per entry of `xs`, in order. */
  function RemoveEach(s: seq<File>, xs: seq<File>): (r: seq<File>)
    ensures forall g | g in r :: g in s
    decreases |xs|
  {
    if |xs| == 0 then s else RemoveEach(RemoveFirst(s, xs[0]), xs[1..])
  }

  /**
   `_clean_files` exactly as the source computes its removal list: the candidate list, one
   `remove` per required file, then one `remove` per file of each other busy regular task.
   */
  function CleanFilesAsWritten(r: Resource, shared: Storage, t: Task, required: seq<File>): (st: Stores)
    ensures st.local.Some? == r.local.Some? && st.shared.capacity == shared.capacity
    ensures Shrinks(Stores(r.local, shared), st)
  {
    RemoveResident(Stores(r.local, shared), RemoveEach(RemoveEach(Candidates(t), required), OtherBusyFiles(r.units, t)))
  }

  predicate Distinct(s: seq<File>) {
    forall i, j | 0 <= i < j < |s| :: s[i] != s[j]
  }

  lemma DistinctTail(s: seq<File>)
    requires Distinct(s) && |s| > 0
    ensures Distinct(s[1..]) && s[0] !in s[1..]
  {
    forall g | g in s[1..] ensures g != s[0] {
      var j :| 0 <= j < |s[1..]| && s[1..][j] == g;
      assert s[j + 1] == g;
    }
  }

  lemma {:induction false} WithoutDistinct(s: seq<File>, drop: set<File>)
    requires Distinct(s)
    ensures Distinct(Without(s, drop))
    decreases |s|
  {
    if |s| > 0 {
      DistinctTail(s);
      WithoutDistinct(s[1..], drop);
      if s[0] !in drop {
        var w := [s[0]] + Without(s[1..], drop);
        forall i, j | 0 <= i < j < |w| ensures w[i] != w[j] {
          if i == 0 {
            assert w[j] in Without(s[1..], drop);
          } else {
            assert w[i] == Without(s[1..], drop)[i - 1] && w[j] == Without(s[1..], drop)[j - 1];
          }
        }
      }
    }
  }

  /** On a list without repeats, removing the first occurrence removes every occurrence. */
  lemma {:induction false} RemoveFirstDistinct(s: seq<File>, x: File)
    requires Distinct(s)
    ensures RemoveFirst(s, x) == Without(s, {x})
    decreases |s|
  {
    if |s| > 0 {
      DistinctTail(s);
      if s[0] == x {
        WithoutNone(s[1..], {x});
      } else {
        RemoveFirstDistinct(s[1..], x);
      }
    }
  }

  lemma {:induction false} WithoutNone(s: seq<File>, drop: set<File>)
    requires forall g | g in s :: g !in drop
    ensures Without(s, drop) == s
    decreases |s|
  {
    if |s| > 0 {
      WithoutNone(s[1..], drop);
      assert s == [s[0]] + s[1..];
    }
  }

  lemma {:induction false} WithoutTwice(s: seq<File>, a: set<File>, b: set<File>)
    ensures Without(Without(s, a), b) == Without(s, a + b)
    decreases |s|
  {
    if |s| > 0 {
      WithoutTwice(s[1..], a, b);
    }
  }

  /** On a list without repeats, the guarded removals compute the plain filter. */
  lemma {:induction false} RemoveEachDistinct(s: seq<File>, xs: seq<File>)
    requires Distinct(s)
    ensures RemoveEach(s, xs) == Without(s, set x | x in xs)
    decreases |xs|
  {
    if |xs| == 0 {
      WithoutNone(s, {});
      assert (set x | x in xs) == {};
    } else {
      RemoveFirstDistinct(s, xs[0]);
      WithoutDistinct(s, {xs[0]});
      RemoveEachDistinct(RemoveFirst(s, xs[0]), xs[1..]);
      WithoutTwice(s, {xs[0]}, set x | x in xs[1..]);
      assert {xs[0]} + (set x | x in xs[1..]) == set x | x in xs;
    }
  }

  /** When no candidate file is listed twice, the source's list arithmetic and `CleanFiles` free the same files. */
  lemma CleanFilesAsWrittenAgrees(r: Resource, shared: Storage, t: Task, required: seq<File>)
    requires Distinct(Candidates(t))
    ensures CleanFilesAsWritten(r, shared, t, required) == CleanFiles(r, shared, t, set f | f in required)
  {
    var c := Candidates(t);
    var req := set f | f in required;
    var other := set f | f in OtherBusyFiles(r.units, t);
    RemoveEachDistinct(c, required);
    WithoutDistinct(c, req);
    RemoveEachDistinct(Without(c, req), OtherBusyFiles(r.units, t));
    WithoutTwice(c, req, other);
  }

  /**
   The discrepancy: a file that is both an input and an intermediate of the task is listed
   twice, one `remove` for the required list takes out only one copy, and the file is freed
   although it is required.  `CleanFiles` keeps it.
   */
  lemma CleanFilesAsWrittenFreesRequiredFile()
    ensures var f := File("a", 1);
            var t := Task("x_1", "x", 1, 0, [f], [f], [], {}, Running, 0, 1, Regular);
            var r := Resource("r", {"x"}, None, 10, 10, [], Pid.New(8.0, 1.0, 1.0, 1.0, 0.05));
            var shared := Storages.Storage(10, 9, [f]);
            && f in shared.files
            && f !in CleanFilesAsWritten(r, shared, t, [f]).shared.files
            && f in CleanFiles(r, shared, t, {f}).shared.files
  {
    var f := File("a", 1);
    var t := Task("x_1", "x", 1, 0, [f], [f], [], {}, Running, 0, 1, Regular);
    var r := Resource("r", {"x"}, None, 10, 10, [], Pid.New(8.0, 1.0, 1.0, 1.0, 0.05));
    var shared := Storages.Storage(10, 9, [f]);
    assert Candidates(t) == [f, f];
    assert OtherBusyFiles(r.units, t) == [];
    assert RemoveFirst([f, f], f) == [f];
    assert RemoveEach([f, f], [f]) == [f];
    assert RemoveEach([f], []) == [f];
    assert Storages.Remove(shared, f).files == [];
    assert Without([f, f], Protected(r.units, t, {f})) == [];
  }

  // ----- finishing and preempting -----

  datatype Finish = Finish(resource: Resource, shared: Storage, task: Task)

  /**
   `process_finished_task` for the unit at index i: refunds the task's peak memory, cleans its
   files with no required list, frees the unit and marks the task completed.
   */
  function ProcessFinishedTask(r: Resource, shared: Storage, i: nat): (f: Finish)
    requires i < |r.units| && Busy(r.units[i])
    ensures var t := r.units[i].current.value;
            && f.task == Complete(t)
            && f.resource.units == r.units[i := Unit(r.units[i].id, None)]
            && f.resource.memAvailable == r.memAvailable + t.peakMemory
            && f.resource == r.(units := f.resource.units, local := f.resource.local, memAvailable := f.resource.memAvailable)
            && Stores(f.resource.local, f.shared) == CleanFiles(r, shared, t, {})
  {
    var t := r.units[i].current.value;
    var st := CleanFiles(r, shared, t, {});
    Finish(r.(memAvailable := r.memAvailable + t.peakMemory, local := st.local,
              units := r.units[i := Unit(r.units[i].id, None)]), st.shared, Complete(t))
  }

  /** Finishing keeps both accounting invariants and frees nothing another busy regular task of this resource uses. */
  lemma ProcessFinishedTaskValid(r: Resource, shared: Storage, i: nat)
    requires Valid(r) && Storages.Valid(shared)
    requires i < |r.units| && Busy(r.units[i])
    ensures var f := ProcessFinishedTask(r, shared, i);
            && Valid(f.resource) && Storages.Valid(f.shared)
            && !Busy(f.resource.units[i])
            && forall g | g in OtherBusyFiles(r.units, r.units[i].current.value) ::
                 Keeps(Stores(r.local, shared), Stores(f.resource.local, f.shared), g)
  {
    var t := r.units[i].current.value;
    var f := ProcessFinishedTask(r, shared, i);
    BusyPeakUpdate(r.units, i, Unit(r.units[i].id, None));
    CleanFilesSpec(r, shared, t, {});
    forall j | 0 <= j < |f.resource.units| && f.resource.units[j].current.Some?
      ensures CleanupFree(f.resource.units[j].current.value)
    {
      assert f.resource.units[j] == r.units[j];
    }
  }

  /**
   The protection covers only this resource's units: without local storage, a shared input or
   intermediate of the finished task that no other busy regular task of this resource uses is
   freed, whatever tasks on other resources sharing the storage still use it.
   */
  lemma ProcessFinishedTaskSameResourceOnly(r: Resource, shared: Storage, i: nat, g: File)
    requires Valid(r) && Storages.Valid(shared)
    requires i < |r.units| && Busy(r.units[i]) && r.local.None?
    requires g in shared.files && g in Candidates(r.units[i].current.value)
    requires g !in OtherBusyFiles(r.units, r.units[i].current.value)
    ensures g !in ProcessFinishedTask(r, shared, i).shared.files
  {
    CleanFilesSpec(r, shared, r.units[i].current.value, {});
  }

  /** The first unit holding exactly this task record. */
  function FirstHolding(units: seq<Unit>, t: Task): (r: Option<nat>)
    ensures r.Some? ==> r.value < |units| && units[r.value].current == Some(t)
    ensures r.Some? ==> forall j | 0 <= j < r.value :: units[j].current != Some(t)
    ensures r.None? ==> forall j | 0 <= j < |units| :: units[j].current != Some(t)
    decreases |units|
  {
    if |units| == 0 then None
    else if units[0].current == Some(t) then Some(0)
    else match FirstHolding(units[1..], t)
      case None => None
      case Some(k) => Some(k + 1)
  }

  datatype Preemption = Preemption(resource: Resource, shared: Storage, task: Option<Task>)

  /**
   `preempt_task`: finds the unit running `t`, frees it and resets the task, THEN cleans the
   task's files against `required` (so the freed unit no longer protects anything), and
   refunds the peak memory.  A task held by no unit yields no task and no change.
   */
  function PreemptTask(r: Resource, shared: Storage, t: Task, required: set<File>): (p: Preemption)
    ensures FirstHolding(r.units, t).None? ==> p == Preemption(r, shared, None)
    ensures FirstHolding(r.units, t).Some? ==>
              var i := FirstHolding(r.units, t).value;
              && p.task == Some(Preempt(t))
              && p.resource.units == r.units[i := Unit(r.units[i].id, None)]
              && p.resource.memAvailable == r.memAvailable + t.peakMemory
              && p.resource == r.(units := p.resource.units, local := p.resource.local, memAvailable := p.resource.memAvailable)
              && Stores(p.resource.local, p.shared) == CleanFiles(r.(units := p.resource.units), shared, t, required)
  {
    match FirstHolding(r.units, t)
    case None => Preemption(r, shared, None)
    case Some(i) =>
      var freed := r.(units := r.units[i := Unit(r.units[i].id, None)]);
      var st := CleanFiles(freed, shared, t, required);
      Preemption(freed.(local := st.local, memAvailable := r.memAvailable + t.peakMemory), st.shared, Some(Preempt(t)))
  }

  /** Preempting a regular task that a unit holds leaves one running task fewer. */
  lemma PreemptTaskFrees(r: Resource, shared: Storage, t: Task, required: set<File>)
    ensures var p := PreemptTask(r, shared, t, required);
            p.task.Some? && t.kind != Cleanup ==> |RunningTasks(p.resource)| == |RunningTasks(r)| - 1
  {
    match FirstHolding(r.units, t)
    case None =>
    case Some(i) =>
      if t.kind != Cleanup {
        RunningOfFree(r.units, i);
      }
  }

  /** A running task is always found: preempting it yields a task. */
  lemma PreemptRunningTask(r: Resource, shared: Storage, t: Task, required: set<File>)
    requires t in RunningTasks(r)
    ensures PreemptTask(r, shared, t, required).task == Some(Preempt(t))
  {
    RunningOfHeld(r.units, t);
    var j :| 0 <= j < |r.units| && r.units[j].current == Some(t);
    assert FirstHolding(r.units, t).Some?;
  }

  /**
   Preempting keeps both accounting invariants, keeps the required files and those of other
   busy regular tasks, and when it preempts a regular task there is one running task fewer.
   */
  lemma PreemptTaskValid(r: Resource, shared: Storage, t: Task, required: set<File>)
    requires Valid(r) && Storages.Valid(shared)
    ensures var p := PreemptTask(r, shared, t, required);
            && Valid(p.resource) && Storages.Valid(p.shared)
            && (p.task.Some? && t.kind != Cleanup ==> |RunningTasks(p.resource)| == |RunningTasks(r)| - 1)
            && (p.task.Some? ==> forall g | g in required :: Keeps(Stores(r.local, shared), Stores(p.resource.local, p.shared), g))
  {
    var p := PreemptTask(r, shared, t, required);
    match FirstHolding(r.units, t)
    case None =>
    case Some(i) =>
      var freed := r.(units := r.units[i := Unit(r.units[i].id, None)]);
      BusyPeakUpdate(r.units, i, Unit(r.units[i].id, None));
      CleanFilesSpec(freed, shared, t, required);
      PreemptTaskFrees(r, shared, t, required);
      forall j | 0 <= j < |p.resource.units| && p.resource.units[j].current.Some?
        ensures CleanupFree(p.resource.units[j].current.value)
      {
        assert p.resource.units[j] == r.units[j];
      }
  }

  // ----- finishing and preempting as written -----

  /** The source's cleaning keeps the accounting and touches no file outside the candidates, whatever the lists. */
  lemma CleanFilesAsWrittenSpec(r: Resource, shared: Storage, t: Task, required: seq<File>)
    requires StoresValid(Stores(r.local, shared))
    ensures var after := CleanFilesAsWritten(r, shared, t, required);
            && StoresValid(after)
            && forall g | g !in Candidates(t) :: Keeps(Stores(r.local, shared), after, g)
  {
    var fs := RemoveEach(RemoveEach(Candidates(t), required), OtherBusyFiles(r.units, t));
    RemoveResidentSpec(Stores(r.local, shared), fs);
  }

  /** `process_finished_task` with the cleaning the source performs (`CleanFilesAsWritten`, no required list). */
  function ProcessFinishedTaskAsWritten(r: Resource, shared: Storage, i: nat): (f: Finish)
    requires i < |r.units| && Busy(r.units[i])
    ensures f.task == Complete(r.units[i].current.value) && f.resource.units == r.units[i := Unit(r.units[i].id, None)]
    ensures f.resource.memAvailable == r.memAvailable + r.units[i].current.value.peakMemory
  {
    var t := r.units[i].current.value;
    var st := CleanFilesAsWritten(r, shared, t, []);
    Finish(r.(memAvailable := r.memAvailable + t.peakMemory, local := st.local,
              units := r.units[i := Unit(r.units[i].id, None)]), st.shared, Complete(t))
  }

  /** When the finished task lists no file twice, the source's finishing is `ProcessFinishedTask`. */
  lemma ProcessFinishedTaskAsWrittenAgrees(r: Resource, shared: Storage, i: nat)
    requires i < |r.units| && Busy(r.units[i]) && Distinct(Candidates(r.units[i].current.value))
    ensures ProcessFinishedTaskAsWritten(r, shared, i) == ProcessFinishedTask(r, shared, i)
  {
    var none: seq<File> := [];
    CleanFilesAsWrittenAgrees(r, shared, r.units[i].current.value, none);
    assert (set f | f in none) == {};
  }

  /** Even as written, finishing keeps both accounting invariants. */
  lemma ProcessFinishedTaskAsWrittenValid(r: Resource, shared: Storage, i: nat)
    requires Valid(r) && Storages.Valid(shared)
    requires i < |r.units| && Busy(r.units[i])
    ensures var f := ProcessFinishedTaskAsWritten(r, shared, i);
            Valid(f.resource) && Storages.Valid(f.shared)
  {
    var f := ProcessFinishedTaskAsWritten(r, shared, i);
    BusyPeakUpdate(r.units, i, Unit(r.units[i].id, None));
    CleanFilesAsWrittenSpec(r, shared, r.units[i].current.value, []);
    forall j | 0 <= j < |f.resource.units| && f.resource.units[j].current.Some?
      ensures CleanupFree(f.resource.units[j].current.value)
    {
      assert f.resource.units[j] == r.units[j];
    }
  }

  /**
   The discrepancy at finishing: the finished task lists file `a` as input and as intermediate;
   another busy regular task uses `a` once, so only one copy leaves the removal list and `a` is
   freed under the other task.  `ProcessFinishedTask` keeps it.
   */
  lemma ProcessFinishedTaskAsWrittenFreesBusyFile()
    ensures var f := File("a", 1);
            var t := Task("x_1", "x", 1, 0, [f], [f], [], {}, Running, 0, 1, Regular);
            var u := Task("x_2", "x", 1, 0, [f], [], [], {}, Running, 0, 1, Regular);
            var r := Resource("r", {"x"}, None, 10, 10, [Unit(0, Some(t)), Unit(1, Some(u))], Pid.New(8.0, 1.0, 1.0, 1.0, 0.05));
            var shared := Storages.Storage(10, 9, [f]);
            && f in shared.files && f in AllFiles(u) && Busy(ProcessFinishedTaskAsWritten(r, shared, 0).resource.units[1])
            && f !in ProcessFinishedTaskAsWritten(r, shared, 0).shared.files
            && f in ProcessFinishedTask(r, shared, 0).shared.files
  {
    var f := File("a", 1);
    var t := Task("x_1", "x", 1, 0, [f], [f], [], {}, Running, 0, 1, Regular);
    var u := Task("x_2", "x", 1, 0, [f], [], [], {}, Running, 0, 1, Regular);
    var r := Resource("r", {"x"}, None, 10, 10, [Unit(0, Some(t)), Unit(1, Some(u))], Pid.New(8.0, 1.0, 1.0, 1.0, 0.05));
    var shared := Storages.Storage(10, 9, [f]);
    assert AllFiles(u) == [f];
    assert Candidates(t) == [f, f];
    assert r.units[1..][1..] == [];
    assert OtherBusyFiles(r.units[1..][1..], t) == [];
    assert OtherBusyFiles(r.units[1..], t) == [f];
    assert OtherBusyFiles(r.units, t) == [f];
    assert RemoveEach([f, f], []) == [f, f];
    assert RemoveFirst([f, f], f) == [f];
    assert RemoveEach([f, f], [f]) == [f];
    assert Storages.Remove(shared, f).files == [];
    assert Without([f, f], Protected(r.units, t, {})) == [];
  }

  /** `preempt_task` with the cleaning the source performs (`CleanFilesAsWritten` against the required list). */
  function PreemptTaskAsWritten(r: Resource, shared: Storage, t: Task, required: seq<File>): (p: Preemption)
    ensures FirstHolding(r.units, t).None? ==> p == Preemption(r, shared, None)
    ensures FirstHolding(r.units, t).Some? ==> p.task == Some(Preempt(t)) && p.resource.memAvailable == r.memAvailable + t.peakMemory
  {
    match FirstHolding(r.units, t)
    case None => Preemption(r, shared, None)
    case Some(i) =>
      var freed := r.(units := r.units[i := Unit(r.units[i].id, None)]);
      var st := CleanFilesAsWritten(freed, shared, t, required);
      Preemption(freed.(local := st.local, memAvailable := r.memAvailable + t.peakMemory), st.shared, Some(Preempt(t)))
  }

  /** When the preempted task lists no file twice, the source's preemption is `PreemptTask` with the required files as a set. */
  lemma PreemptTaskAsWrittenAgrees(r: Resource, shared: Storage, t: Task, required: seq<File>)
    requires Distinct(Candidates(t))
    ensures PreemptTaskAsWritten(r, shared, t, required) == PreemptTask(r, shared, t, set f | f in required)
  {
    match FirstHolding(r.units, t)
    case None =>
    case Some(i) =>
      CleanFilesAsWrittenAgrees(r.(units := r.units[i := Unit(r.units[i].id, None)]), shared, t, required);
  }

  /** Even as written, preempting keeps both accounting invariants. */
  lemma PreemptTaskAsWrittenValid(r: Resource, shared: Storage, t: Task, required: seq<File>)
    requires Valid(r) && Storages.Valid(shared)
    ensures var p := PreemptTaskAsWritten(r, shared, t, required);
            Valid(p.resource) && Storages.Valid(p.shared)
  {
    var p := PreemptTaskAsWritten(r, shared, t, required);
    match FirstHolding(r.units, t)
    case None =>
    case Some(i) =>
      var freed := r.(units := r.units[i := Unit(r.units[i].id, None)]);
      BusyPeakUpdate(r.units, i, Unit(r.units[i].id, None));
      CleanFilesAsWrittenSpec(freed, shared, t, required);
      forall j | 0 <= j < |p.resource.units| && p.resource.units[j].current.Some?
        ensures CleanupFree(p.resource.units[j].current.value)
      {
        assert p.resource.units[j] == r.units[j];
      }
  }

  /**
   The discrepancy at preemption: the preempted task lists file `a` as input and as
   intermediate, `a` is required by a pending task, one `remove` takes out one copy, and `a` is
   freed.  `PreemptTask` keeps it.
   */
  lemma PreemptTaskAsWrittenFreesRequiredFile()
    ensures var f := File("a", 1);
            var t := Task("x_1", "x", 1, 0, [f], [f], [], {}, Running, 0, 1, Regular);
            var r := Resource("r", {"x"}, None, 10, 10, [Unit(0, Some(t))], Pid.New(8.0, 1.0, 1.0, 1.0, 0.05));
            var shared := Storages.Storage(10, 9, [f]);
            && f in shared.files
            && PreemptTaskAsWritten(r, shared, t, [f]).task == Some(Preempt(t))
            && f !in PreemptTaskAsWritten(r, shared, t, [f]).shared.files
            && f in PreemptTask(r, shared, t, {f}).shared.files
  {
    var f := File("a", 1);
    var t := Task("x_1", "x", 1, 0, [f], [f], [], {}, Running, 0, 1, Regular);
    var r := Resource("r", {"x"}, None, 10, 10, [Unit(0, Some(t))], Pid.New(8.0, 1.0, 1.0, 1.0, 0.05));
    var shared := Storages.Storage(10, 9, [f]);
    assert FirstHolding(r.units, t) == Some(0);
    var freed := r.(units := r.units[0 := Unit(0, None)]);
    assert freed.units == [Unit(0, None)];
    assert OtherBusyFiles(freed.units, t) == [];
    CleanFilesAsWrittenFreesRequiredFile();
    assert CleanFilesAsWritten(freed, shared, t, [f]) == CleanFilesAsWritten(r.(units := []), shared, t, [f]);
  }

  // ----- memory controller -----

  datatype Sample = Sample(resource: Resource, signal: real)

  /** `get_mem_controller_input`: feeds the memory in use to the memory controller and caps the signal at the capacity. */
  function MemControllerInput(r: Resource): (s: Sample)
    ensures var step := Pid.Process(r.memController, (r.memCapacity - r.memAvailable) as real);
            && s.resource == r.(memController := step.next)
            && s.signal <= r.memCapacity as real
            && (step.signal <= r.memCapacity as real ==> s.signal == step.signal)
  {
    var step := Pid.Process(r.memController, (r.memCapacity - r.memAvailable) as real);
    Sample(r.(memController := step.next), if step.signal > r.memCapacity as real then r.memCapacity as real else step.signal)
  }
}

=== FILE: retirement.dfy ===
/**
 The first phase of an iteration of `PIDScheduler.start` (pid_scheduler.py): every unit of every
 resource, in order, whose task has reached its end time is finished; the task is marked
 completed and leaves the pending tasks.
 */
module Retirement {
  import opened Options
  import opened Tasks
  import opened Workflows
  import opened Resources
  import opened SchedulerState
  import Storages

  /** A unit whose task ends at or before `now`. */
  predicate Due(u: Unit, now: int) {
    u.current.Some? && u.current.value.endTime <= now
  }

  /** What retirement makes of a unit: freed when due, untouched otherwise. */
  function FreeIfDue(u: Unit, now: int): (v: Unit)
    ensures !Due(v, now)
    ensures v.id == u.id
    ensures Due(u, now) ==> v.current.None?
    ensures !Due(u, now) ==> v == u
  {
    if Due(u, now) then Unit(u.id, None) else u
  }

  /** `finished_tasks`: some unit of some resource is due. */
  predicate AnyDue(rs: seq<Resource>, now: int) {
    exists k, j | 0 <= k < |rs| && 0 <= j < |rs[k].units| :: Due(rs[k].units[j], now)
  }

  /** A task that has been retired: recorded as completed and no longer pending. */
  predicate RetiredIn(wf: Workflow, t: Task) {
    t.id in wf.tasks && wf.tasks[t.id].status == Completed && t.id !in wf.pending
  }

  /** Records a finished task in the table and deletes it from the pending tasks. */
  function Record(wf: Workflow, done: Task): (w: Workflow)
    ensures RetiredIn(w, done) <==> done.status == Completed
    ensures w.files == wf.files && w.tasks.Keys == wf.tasks.Keys + {done.id}
    ensures forall t :: RetiredIn(wf, t) && done.status == Completed ==> RetiredIn(w, t)
    ensures forall id | id in wf.tasks && id != done.id :: w.tasks[id] == wf.tasks[id]
  {
    wf.(tasks := wf.tasks[done.id := done], pending := DropId(wf.pending, done.id))
  }

  /** What retirement touches: the resources, the shared storage and the workflow. */
  datatype Books = Books(resources: seq<Resource>, shared: Storages.Storage, wf: Workflow)

  predicate BooksValid(b: Books) {
    Storages.Valid(b.shared) && ValidResources(b.resources) && CleanupFreeTable(b.wf.tasks)
  }

  /** Finishes the task of unit j of resource k. */
  function RetireOne(b: Books, k: nat, j: nat): (r: Books)
    requires k < |b.resources| && j < |b.resources[k].units| && Busy(b.resources[k].units[j])
    ensures |r.resources| == |b.resources|
    ensures forall kk | 0 <= kk < |b.resources| && kk != k :: r.resources[kk] == b.resources[kk]
    ensures r.resources[k].units == b.resources[k].units[j := Unit(b.resources[k].units[j].id, None)]
  {
    var f := ProcessFinishedTask(b.resources[k], b.shared, j);
    Books(b.resources[k := f.resource], f.shared, Record(b.wf, f.task))
  }

  /** Unit j of resource k after retirement: its task finished if it is due, nothing otherwise. */
  function RetireUnit(b: Books, now: int, k: nat, j: nat): (r: Books)
    requires k < |b.resources| && j < |b.resources[k].units|
    ensures |r.resources| == |b.resources|
    ensures forall kk | 0 <= kk < |b.resources| && kk != k :: r.resources[kk] == b.resources[kk]
    ensures r.resources[k].units == b.resources[k].units[j := FreeIfDue(b.resources[k].units[j], now)]
    ensures !Due(b.resources[k].units[j], now) ==> r == b
  {
    if Due(b.resources[k].units[j], now) then RetireOne(b, k, j) else b
  }

  /** Retires the due units of resource k from unit j on. */
  function RetireUnits(b: Books, now: int, k: nat, j: nat): (r: Books)
    requires k < |b.resources| && j <= |b.resources[k].units|
    ensures |r.resources| == |b.resources|
    decreases |b.resources[k].units| - j
  {
    if j == |b.resources[k].units| then b
    else RetireUnits(RetireUnit(b, now, k, j), now, k, j + 1)
  }

  /** Retires resources k, k+1, ... in order. */
  function RetireFrom(b: Books, now: int, k: nat): (r: Books)
    requires k <= |b.resources|
    ensures |r.resources| == |b.resources|
    decreases |b.resources| - k
  {
    if k == |b.resources| then b
    else RetireFrom(RetireUnits(b, now, k, 0), now, k + 1)
  }

  /** Retiring the units of resource k touches no other resource and keeps k's unit count. */
  lemma {:induction false} RetireUnitsFrame(b: Books, now: int, k: nat, j: nat)
    requires k < |b.resources| && j <= |b.resources[k].units|
    ensures var r := RetireUnits(b, now, k, j);
            && (forall kk | 0 <= kk < |b.resources| && kk != k :: r.resources[kk] == b.resources[kk])
            && |r.resources[k].units| == |b.resources[k].units|
    decreases |b.resources[k].units| - j
  {
    if j < |b.resources[k].units| {
      RetireUnitsFrame(RetireUnit(b, now, k, j), now, k, j + 1);
    }
  }

  /** Retiring the units of resource k from unit j on frees exactly the due ones among them. */
  lemma {:induction false} RetireUnitsFrees(b: Books, now: int, k: nat, j: nat)
    requires k < |b.resources| && j <= |b.resources[k].units|
    ensures var r := RetireUnits(b, now, k, j);
            && |r.resources[k].units| == |b.resources[k].units|
            && forall jj | 0 <= jj < |b.resources[k].units| ::
                 r.resources[k].units[jj] ==
                   if jj < j then b.resources[k].units[jj] else FreeIfDue(b.resources[k].units[jj], now)
    decreases |b.resources[k].units| - j
  {
    if j < |b.resources[k].units| {
      RetireUnitsFrees(RetireUnit(b, now, k, j), now, k, j + 1);
    }
  }

  /** With none of the units of resource k from j on due, retiring them changes nothing. */
  lemma {:induction false} RetireUnitsIdle(b: Books, now: int, k: nat, j: nat)
    requires k < |b.resources| && j <= |b.resources[k].units|
    requires forall jj | j <= jj < |b.resources[k].units| :: !Due(b.resources[k].units[jj], now)
    ensures RetireUnits(b, now, k, j) == b
    decreases |b.resources[k].units| - j
  {
    if j < |b.resources[k].units| {
      RetireUnitsIdle(b, now, k, j + 1);
    }
  }

  /** Retiring resources k, k+1, ... keeps every resource's unit count and the resources before k. */
  lemma {:induction false} RetireFromFrame(b: Books, now: int, k: nat)
    requires k <= |b.resources|
    ensures var r := RetireFrom(b, now, k);
            && (forall kk | 0 <= kk < |b.resources| :: |r.resources[kk].units| == |b.resources[kk].units|)
            && (forall kk | 0 <= kk < k :: r.resources[kk] == b.resources[kk])
    decreases |b.resources| - k
  {
    if k < |b.resources| {
      RetireUnitsFrame(b, now, k, 0);
      RetireFromFrame(RetireUnits(b, now, k, 0), now, k + 1);
    }
  }

  /** Retiring resources k, k+1, ... frees exactly their due units. */
  lemma {:induction false} RetireFromFrees(b: Books, now: int, k: nat)
    requires k <= |b.resources|
    ensures var r := RetireFrom(b, now, k);
            && (forall kk | 0 <= kk < |b.resources| :: |r.resources[kk].units| == |b.resources[kk].units|)
            && forall kk, jj | k <= kk < |b.resources| && 0 <= jj < |b.resources[kk].units| ::
                 r.resources[kk].units[jj] == FreeIfDue(b.resources[kk].units[jj], now)
    decreases |b.resources| - k
  {
    if k < |b.resources| {
      var one := RetireUnits(b, now, k, 0);
      RetireUnitsFrame(b, now, k, 0);
      RetireUnitsFrees(b, now, k, 0);
      RetireFromFrame(one, now, k + 1);
      RetireFromFrees(one, now, k + 1);
    }
  }

  /** With none of the units of resources k, k+1, ... due, retiring them changes nothing. */
  lemma {:induction false} RetireFromIdle(b: Books, now: int, k: nat)
    requires k <= |b.resources|
    requires forall kk, jj | k <= kk < |b.resources| && 0 <= jj < |b.resources[kk].units| ::
               !Due(b.resources[kk].units[jj], now)
    ensures RetireFrom(b, now, k) == b
    decreases |b.resources| - k
  {
    if k < |b.resources| {
      RetireUnitsIdle(b, now, k, 0);
      RetireFromIdle(b, now, k + 1);
    }
  }

  /** The retirement phase at the iteration's (already advanced) time. */
  function Retire(s: Sim): (r: Sim)
    ensures r == s.(resources := r.resources, shared := r.shared, wf := r.wf)
    ensures |r.resources| == |s.resources|
  {
    var b := RetireFrom(Books(s.resources, s.shared, s.wf), s.time, 0);
    s.(resources := b.resources, shared := b.shared, wf := b.wf)
  }

  /**
   Retirement frees exactly the due units and changes nothing else about the units, so afterwards
   no unit holds a task that is due; when no unit is due it changes nothing at all.
   */
  lemma RetireSpec(s: Sim)
    ensures var r := Retire(s);
            && (forall k | 0 <= k < |s.resources| :: |r.resources[k].units| == |s.resources[k].units|)
            && (forall k, j | 0 <= k < |s.resources| && 0 <= j < |s.resources[k].units| ::
                  r.resources[k].units[j] == FreeIfDue(s.resources[k].units[j], s.time))
            && !AnyDue(r.resources, s.time)
            && (!AnyDue(s.resources, s.time) ==> r == s)
  {
    var b := Books(s.resources, s.shared, s.wf);
    RetireFromFrees(b, s.time, 0);
    if !AnyDue(s.resources, s.time) {
      RetireFromIdle(b, s.time, 0);
    }
  }

  // ----- retired tasks -----

  lemma {:induction false} RetireUnitsRetires(b: Books, now: int, k: nat, j: nat)
    requires k < |b.resources| && j <= |b.resources[k].units|
    ensures var r := RetireUnits(b, now, k, j);
            && (forall jj | j <= jj < |b.resources[k].units| && Due(b.resources[k].units[jj], now) ::
                  RetiredIn(r.wf, b.resources[k].units[jj].current.value))
            && (forall t :: RetiredIn(b.wf, t) ==> RetiredIn(r.wf, t))
    decreases |b.resources[k].units| - j
  {
    var units := b.resources[k].units;
    if j < |units| {
      var next := RetireUnit(b, now, k, j);
      if Due(units[j], now) {
        assert RetiredIn(next.wf, units[j].current.value);
      }
      assert forall jj | j < jj < |units| :: next.resources[k].units[jj] == units[jj];
      RetireUnitsRetires(next, now, k, j + 1);
    }
  }

  lemma {:induction false} RetireFromRetires(b: Books, now: int, k: nat)
    requires k <= |b.resources|
    ensures var r := RetireFrom(b, now, k);
            && (forall kk, jj | k <= kk < |b.resources| && 0 <= jj < |b.resources[kk].units| && Due(b.resources[kk].units[jj], now) ::
                  RetiredIn(r.wf, b.resources[kk].units[jj].current.value))
            && (forall t :: RetiredIn(b.wf, t) ==> RetiredIn(r.wf, t))
    decreases |b.resources| - k
  {
    if k < |b.resources| {
      var one := RetireUnits(b, now, k, 0);
      RetireUnitsRetires(b, now, k, 0);
      RetireUnitsFrame(b, now, k, 0);
      RetireFromRetires(one, now, k + 1);
      assert RetireFrom(b, now, k) == RetireFrom(one, now, k + 1);
    }
  }

  /** Every task that was due is recorded as completed and has left the pending tasks. */
  lemma RetireRetires(s: Sim)
    ensures forall k, j | 0 <= k < |s.resources| && 0 <= j < |s.resources[k].units| && Due(s.resources[k].units[j], s.time) ::
              RetiredIn(Retire(s).wf, s.resources[k].units[j].current.value)
  {
    RetireFromRetires(Books(s.resources, s.shared, s.wf), s.time, 0);
  }

  // ----- invariants -----

  lemma RetireOneValid(b: Books, k: nat, j: nat)
    requires BooksValid(b) && k < |b.resources| && j < |b.resources[k].units| && Busy(b.resources[k].units[j])
    ensures BooksValid(RetireOne(b, k, j))
  {
    ProcessFinishedTaskValid(b.resources[k], b.shared, j);
    assert CleanupFree(b.resources[k].units[j].current.value);
  }

  lemma {:induction false} RetireUnitsValid(b: Books, now: int, k: nat, j: nat)
    requires BooksValid(b) && k < |b.resources| && j <= |b.resources[k].units|
    ensures BooksValid(RetireUnits(b, now, k, j))
    decreases |b.resources[k].units| - j
  {
    if j < |b.resources[k].units| {
      if Due(b.resources[k].units[j], now) {
        RetireOneValid(b, k, j);
      }
      RetireUnitsValid(RetireUnit(b, now, k, j), now, k, j + 1);
    }
  }

  lemma {:induction false} RetireFromValid(b: Books, now: int, k: nat)
    requires BooksValid(b) && k <= |b.resources|
    ensures BooksValid(RetireFrom(b, now, k))
    decreases |b.resources| - k
  {
    if k < |b.resources| {
      var one := RetireUnits(b, now, k, 0);
      RetireUnitsValid(b, now, k, 0);
      RetireFromValid(one, now, k + 1);
      assert RetireFrom(b, now, k) == RetireFrom(one, now, k + 1);
    } else {
      assert RetireFrom(b, now, k) == b;
    }
  }

  /** Retirement keeps the storage and memory accounting and the cleanup-task invariant. */
  lemma RetireValid(s: Sim)
    requires Invariant(s)
    ensures Invariant(Retire(s))
  {
    RetireFromValid(Books(s.resources, s.shared, s.wf), s.time, 0);
  }
}

=== FILE: scheduler.dfy ===
/**
 One iteration of the main loop of `PIDScheduler.start` (pid_scheduler.py): advance the clock,
 retire finished tasks, feed the controllers, and, when something finished or the schedule
 changed, queue the ready tasks and then admit or preempt as the disk signal says.
 */
module Scheduler {
  import opened Options
  import opened Tasks
  import opened Workflows
  import opened SchedulerState
  import opened Retirement
  import opened Promotion
  import opened Admission
  import opened Preemption
  import opened CleanupTasks
  import Resources
  import Storages
  import Pid

  /** `get_mem_controller_input` for every resource: the fed resources and their signals. */
  function SampleMemory(rs: seq<Resources.Resource>): (r: (seq<Resources.Resource>, seq<real>))
    ensures |r.0| == |r.1| == |rs|
    ensures forall k | 0 <= k < |rs| ::
              r.0[k] == Resources.MemControllerInput(rs[k]).resource && r.1[k] == Resources.MemControllerInput(rs[k]).signal
    ensures forall k | 0 <= k < |rs| :: r.0[k] == rs[k].(memController := r.0[k].memController) && r.1[k] <= rs[k].memCapacity as real
    ensures ValidResources(rs) ==> ValidResources(r.0)
  {
    (seq(|rs|, k requires 0 <= k < |rs| => Resources.MemControllerInput(rs[k]).resource),
     seq(|rs|, k requires 0 <= k < |rs| => Resources.MemControllerInput(rs[k]).signal))
  }

  function Zeros(n: nat): (z: seq<real>)
    ensures |z| == n && forall k | 0 <= k < n :: z[k] == 0.0
  {
    seq(n, k => 0.0)
  }

  /** The state after the controllers were fed (or not), with the disk signal and the memory signals. */
  datatype Fed = Fed(sim: Sim, diskSignal: real, mem: seq<real>)

  /**
   The controllers are fed only with the PID mode on and when the schedule changed or a task
   finished; otherwise both signals are zero and the controllers are left as they are.
   */
  function Feed(cfg: Config, s: Sim, sampled: bool): (f: Fed)
    ensures |f.mem| == |f.sim.resources| == |s.resources|
    ensures f.sim == s.(disk := f.sim.disk, resources := f.sim.resources)
    ensures !sampled ==> f == Fed(s, 0.0, Zeros(|s.resources|))
    ensures sampled ==>
              var step := Pid.Process(s.disk, Storages.Used(s.shared) as real);
              && f.sim.disk == step.next && f.diskSignal == step.signal
              && f.sim.resources == SampleMemory(s.resources).0 && f.mem == SampleMemory(s.resources).1
  {
    if sampled then
      var step := Pid.Process(s.disk, Storages.Used(s.shared) as real);
      var ms := SampleMemory(s.resources);
      Fed(s.(disk := step.next, resources := ms.0), step.signal, ms.1)
    else Fed(s, 0.0, Zeros(|s.resources|))
  }

  /** Writes an admission or preemption round back into the state. */
  function Commit(s: Sim, rd: Round): (r: Sim)
    ensures r.time == s.time && r.disk == s.disk && r.nextCleanup == s.nextCleanup
  {
    s.(resources := rd.resources, shared := rd.shared, wf := s.wf.(tasks := rd.tasks), queue := rd.queue,
       changed := rd.changed)
  }

  /** After an admission step that was held up by disk space and scheduled nothing: a cleanup task, if there is anything to clean. */
  function AfterAdmission(s: Sim, rd: Round): (r: Sim)
    ensures r.time == s.time && r.disk == s.disk
  {
    var s3 := Commit(s, rd);
    if rd.spaceError && !rd.changed then
      var c := CreateCleanupTask(rd.tasks, s.wf.pending, rd.resources, rd.shared, s.nextCleanup);
      match c.task
      case None => s3
      case Some(t) => s3.(wf := AddTask(s3.wf, t), nextCleanup := c.next)
    else s3
  }

  /** The scheduling half of an iteration: queue the ready tasks, then admit, preempt or neither. */
  function Schedule(cfg: Config, now: int, f: Fed): (r: Sim)
    requires |f.mem| == |f.sim.resources|
    ensures r.time == f.sim.time && r.disk == f.sim.disk
  {
    var s := f.sim;
    var pr := Promote(s.wf.tasks, s.wf.pending, s.queue);
    var rd := Round(s.resources, s.shared, pr.0, pr.1, f.diskSignal, f.mem, false, false);
    if !cfg.enablePid || f.diskSignal > 0.0 then
      AfterAdmission(s, AdmitLoop(cfg, now, rd, pr.1))
    else if f.diskSignal < 0.0 then
      Commit(s, PreemptLoop(cfg, rd, s.wf.pending))
    else
      Commit(s, rd)
  }

  /** What follows feeding the controllers: nothing when nothing finished and the schedule did not change. */
  function Continue(cfg: Config, now: int, active: bool, f: Fed): (r: Sim)
    requires |f.mem| == |f.sim.resources|
    ensures r.time == f.sim.time
  {
    if active then Schedule(cfg, now, f) else f.sim
  }

  /** One iteration of the main loop. */
  function Tick(cfg: Config, s: Sim): (r: Sim)
    ensures r.time == s.time + 1
  {
    Continue(cfg, s.time + 1, AnyDue(s.resources, s.time + 1) || s.changed, Fed0(cfg, s))
  }

  /** An iteration in which no task is due and the schedule did not change only advances the clock. */
  lemma TickIdle(cfg: Config, s: Sim)
    requires !s.changed && !AnyDue(s.resources, s.time + 1)
    ensures Tick(cfg, s) == s.(time := s.time + 1)
  {
    RetireSpec(s.(time := s.time + 1));
  }

  lemma PromoteKeepsCleanupFree(tasks: map<string, Task>, pending: seq<string>, queue: seq<string>)
    requires CleanupFreeTable(tasks)
    ensures CleanupFreeTable(Promote(tasks, pending, queue).0)
  {
    var r := Promote(tasks, pending, queue);
    forall id | id in r.0 ensures CleanupFree(r.0[id]) {
      assert CleanupFree(tasks[id]);
    }
  }

  lemma AfterAdmissionValid(s: Sim, rd: Round)
    requires RoundValid(rd) && DistinctIds(rd.queue)
    ensures Invariant(AfterAdmission(s, rd))
    ensures |AfterAdmission(s, rd).resources| == |rd.resources|
  {
    var s3 := Commit(s, rd);
    if rd.spaceError && !rd.changed {
      var c := CreateCleanupTask(rd.tasks, s.wf.pending, rd.resources, rd.shared, s.nextCleanup);
      if c.task.Some? {
        var w := AddTask(s3.wf, c.task.value);
        forall id | id in w.tasks ensures CleanupFree(w.tasks[id]) {
          if id != c.task.value.id {
            assert w.tasks[id] == rd.tasks[id];
          }
        }
      }
    }
  }

  lemma AdmissionPhaseValid(cfg: Config, now: int, s: Sim, rd: Round)
    requires RoundValid(rd) && DistinctIds(rd.queue)
    ensures Invariant(AfterAdmission(s, AdmitLoop(cfg, now, rd, rd.queue)))
    ensures |AfterAdmission(s, AdmitLoop(cfg, now, rd, rd.queue)).resources| == |rd.resources|
  {
    AdmitLoopValid(cfg, now, rd, rd.queue);
    AdmitLoopDistinct(cfg, now, rd, rd.queue);
    AfterAdmissionValid(s, AdmitLoop(cfg, now, rd, rd.queue));
  }

  lemma PreemptionPhaseValid(cfg: Config, s: Sim, rd: Round)
    requires RoundValid(rd) && DistinctIds(rd.queue)
    ensures Invariant(Commit(s, PreemptLoop(cfg, rd, s.wf.pending)))
    ensures |Commit(s, PreemptLoop(cfg, rd, s.wf.pending)).resources| == |rd.resources|
  {
    PreemptLoopValid(cfg, rd, s.wf.pending);
    PreemptLoopSpec(cfg, rd, s.wf.pending);
  }

  lemma ScheduleValid(cfg: Config, now: int, f: Fed)
    requires |f.mem| == |f.sim.resources| && Invariant(f.sim)
    ensures Invariant(Schedule(cfg, now, f)) && |Schedule(cfg, now, f).resources| == |f.sim.resources|
  {
    var s := f.sim;
    var pr := Promote(s.wf.tasks, s.wf.pending, s.queue);
    PromoteKeepsCleanupFree(s.wf.tasks, s.wf.pending, s.queue);
    var rd := Round(s.resources, s.shared, pr.0, pr.1, f.diskSignal, f.mem, false, false);
    assert RoundValid(rd) && DistinctIds(rd.queue);
    if !cfg.enablePid || f.diskSignal > 0.0 {
      AdmissionPhaseValid(cfg, now, s, rd);
    } else if f.diskSignal < 0.0 {
      PreemptionPhaseValid(cfg, s, rd);
    }
  }

  lemma FeedValid(cfg: Config, s: Sim, sampled: bool)
    requires Invariant(s)
    ensures Invariant(Feed(cfg, s, sampled).sim)
  {
  }

  lemma ContinueValid(cfg: Config, now: int, active: bool, f: Fed)
    requires |f.mem| == |f.sim.resources| && Invariant(f.sim)
    ensures Invariant(Continue(cfg, now, active, f)) && |Continue(cfg, now, active, f).resources| == |f.sim.resources|
  {
    if active {
      ScheduleValid(cfg, now, f);
    }
  }

  /** The state the scheduling half of an iteration starts from. */
  function Fed0(cfg: Config, s: Sim): (f: Fed)
    ensures |f.mem| == |f.sim.resources| == |s.resources|
  {
    Feed(cfg, Retire(s.(time := s.time + 1)), cfg.enablePid && (s.changed || AnyDue(s.resources, s.time + 1)))
  }

  lemma Fed0Valid(cfg: Config, s: Sim)
    requires Invariant(s)
    ensures Invariant(Fed0(cfg, s).sim)
  {
    RetireValid(s.(time := s.time + 1));
    FeedValid(cfg, Retire(s.(time := s.time + 1)), cfg.enablePid && (s.changed || AnyDue(s.resources, s.time + 1)));
  }

  /**
   Every iteration keeps the shared storage's and every resource's accounting consistent and
   cleanup tasks free of memory, and keeps the set of resources.
   */
  lemma TickInvariant(cfg: Config, s: Sim)
    requires Invariant(s)
    ensures Invariant(Tick(cfg, s)) && |Tick(cfg, s).resources| == |s.resources|
  {
    Fed0Valid(cfg, s);
    ContinueValid(cfg, s.time + 1, AnyDue(s.resources, s.time + 1) || s.changed, Fed0(cfg, s));
  }
}

=== FILE: scheduler_state.dfy ===
/**
 The state of `PIDScheduler` (pid_scheduler.py) between two iterations of its main loop, its
 constants, and the configuration a run is given.  The estimation tables and the random
 choice among queued tasks are parameters here.
 */
module SchedulerState {
  import opened Files
  import opened Tasks
  import opened Workflows
  import Storages
  import Resources
  import Pid

  /** The shared-storage level the disk controller steers toward. */
  const StorageLimit: real := 450000.0
  /** Fraction of each resource's memory its memory controller steers toward. */
  const MemoryThreshold: real := 0.8
  const StoKp: real := 1.0
  const StoKi: real := 1.0
  const StoKd: real := 1.0
  const MemKp: real := 1.0
  const MemKi: real := 1.0
  const MemKd: real := 1.0
  /** Cleanup tasks last this many time units per byte they free. */
  const CleanupTimePerByte: nat := 10

  /**
   - `enablePid`: false for the `--no-pid` mode, where every queued task is tried every active tick;
   - `storageEstimate`, `memoryEstimate`: the per-transformation estimation tables;
   - `choose`: the random choice; the candidate at index `choose(c) % |c|` is picked.
   */
  datatype Config = Config(
    enablePid: bool,
    storageEstimate: string -> real,
    memoryEstimate: string -> real,
    choose: seq<string> -> nat)

  datatype Sim = Sim(
    time: int,
    wf: Workflow,
    resources: seq<Resources.Resource>,
    shared: Storages.Storage,
    disk: Pid.Controller,
    queue: seq<string>,
    changed: bool,        // `changed_schedule`
    nextCleanup: nat)     // `cleanup_task_id`

  predicate ValidResources(rs: seq<Resources.Resource>) {
    forall k | 0 <= k < |rs| :: Resources.Valid(rs[k])
  }

  predicate CleanupFreeTable(tasks: map<string, Task>) {
    forall id | id in tasks :: CleanupFree(tasks[id])
  }

  /** Both accounting invariants everywhere, cleanup tasks asking for no memory, and no task queued twice. */
  predicate Invariant(s: Sim) {
    && Storages.Valid(s.shared) && ValidResources(s.resources) && CleanupFreeTable(s.wf.tasks)
    && DistinctIds(s.queue)
  }

  /**
   `PIDScheduler.__init__` followed by the first line of `start`: a fresh disk controller on the
   storage limit, a fresh memory controller on every resource, an empty queue, time 0, the
   cleanup counter at 1 and the schedule marked as changed.
   */
  function NewSim(wf: Workflow, resources: seq<Resources.Resource>, shared: Storages.Storage): (s: Sim)
    ensures s.time == 0 && s.wf == wf && s.shared == shared && s.queue == [] && s.changed && s.nextCleanup == 1
    ensures s.disk == Pid.New(StorageLimit, StoKp, StoKi, StoKd, Pid.DefaultTolerance)
    ensures |s.resources| == |resources|
    ensures forall k | 0 <= k < |resources| ::
              s.resources[k] == resources[k].(memController :=
                Pid.New(MemoryThreshold * resources[k].memCapacity as real, MemKp, MemKi, MemKd, Pid.DefaultTolerance))
    ensures ValidResources(resources) ==> ValidResources(s.resources)
  {
    var rs := seq(|resources|, k requires 0 <= k < |resources| =>
      resources[k].(memController :=
        Pid.New(MemoryThreshold * resources[k].memCapacity as real, MemKp, MemKi, MemKd, Pid.DefaultTolerance)));
    Sim(0, wf, rs, shared, Pid.New(StorageLimit, StoKp, StoKi, StoKd, Pid.DefaultTolerance), [], true, 1)
  }

  /**
   The working state of one iteration's admission or preemption step: `diff` is `diff_input`,
   `mem[k]` the memory signal of resource k (`mem_controllers`), `spaceError` is
   `insufficient_space_error`.
   */
  datatype Round = Round(
    resources: seq<Resources.Resource>,
    shared: Storages.Storage,
    tasks: map<string, Task>,
    queue: seq<string>,
    diff: real,
    mem: seq<real>,
    changed: bool,
    spaceError: bool)

  predicate RoundValid(rd: Round) {
    && Storages.Valid(rd.shared) && ValidResources(rd.resources) && CleanupFreeTable(rd.tasks)
    && |rd.mem| == |rd.resources|
  }

  /** Every occurrence of `id` taken out, the rest in order (`list.remove` on a list holding it once). */
  function DropId(s: seq<string>, id: string): (r: seq<string>)
    ensures forall x :: x in r <==> x in s && x != id
    ensures id in s ==> |r| < |s|
    ensures |r| <= |s|
    ensures id !in s ==> r == s
    decreases |s|
  {
    if |s| == 0 then []
    else if s[0] == id then DropId(s[1..], id)
    else [s[0]] + DropId(s[1..], id)
  }

  predicate DistinctIds(s: seq<string>) {
    forall i, j | 0 <= i < j < |s| :: s[i] != s[j]
  }

  lemma {:induction false} DropIdDistinct(s: seq<string>, id: string)
    requires DistinctIds(s)
    ensures DistinctIds(DropId(s, id))
    decreases |s|
  {
    if |s| > 0 {
      DropIdDistinct(s[1..], id);
      if s[0] != id {
        var rest := DropId(s[1..], id);
        var r := [s[0]] + rest;
        forall i, j | 0 <= i < j < |r| ensures r[i] != r[j] {
          if i == 0 {
            assert r[j] in rest;
            assert r[j] in s[1..];
            var m :| 0 <= m < |s[1..]| && s[1..][m] == r[j];
            assert s[m + 1] == r[j];
          } else {
            assert r[i] == rest[i - 1] && r[j] == rest[j - 1];
          }
        }
      }
    }
  }

  /** `_get_required_files`: every input file of every pending task. */
  function RequiredFiles(tasks: map<string, Task>, pending: seq<string>): (req: set<File>)
    ensures forall f :: f in req <==> exists id | id in pending && id in tasks :: f in tasks[id].input
  {
    set id, f | id in pending && id in tasks && f in tasks[id].input :: f
  }
}

=== FILE: storages.dfy ===
/**
 The `Storage` class of resource.py: a capacity, the bytes still available and the resident
 files keyed by name.  `Valid` is the accounting invariant every storage operation keeps:
 available space plus the sizes of the resident files equals the capacity.
 */
module Storages {
  import opened Files

  datatype Storage = Storage(capacity: int, available: int, files: seq<File>)

  predicate Valid(s: Storage) {
    UniqueNames(s.files) && s.available + Size(s.files) == s.capacity
  }

  /** A new, empty storage. */
  function New(capacity: int): (s: Storage)
    ensures Valid(s) && s.files == [] && s.capacity == capacity
  {
    Storage(capacity, capacity, [])
  }

  /** `current_used_storage`: on a valid storage, the total size of the resident files. */
  function Used(s: Storage): (u: int)
    ensures Valid(s) ==> u == Size(s.files)
  {
    s.capacity - s.available
  }

  /** Whether a file of that name is resident (`name in storage.files`). */
  predicate Holds(s: Storage, name: string) {
    name in Names(s.files)
  }

  /**
   Registers one file as `_add_to_storage` does: a name already resident is left alone and
   charged nothing; otherwise the file is appended and its size taken from `available`.
   */
  function Add(s: Storage, f: File): (r: Storage)
    ensures r.capacity == s.capacity
    ensures Names(r.files) == Names(s.files) + {f.name}
    ensures forall g :: g in s.files ==> g in r.files
    ensures Holds(s, f.name) ==> r == s
    ensures !Holds(s, f.name) ==> r.available == s.available - f.size && f in r.files
  {
    if Holds(s, f.name) then s else Storage(s.capacity, s.available - f.size, s.files + [f])
  }

  lemma AddValid(s: Storage, f: File)
    requires Valid(s)
    ensures Valid(Add(s, f))
  {
    if !Holds(s, f.name) {
      SizeAppend(s.files, [f]);
      assert Size([f]) == f.size;
      var t := s.files + [f];
      forall i, j | 0 <= i < j < |t| ensures t[i].name != t[j].name {
        if j == |t| - 1 {
          assert t[i] in s.files;
        } else {
          assert t[i] == s.files[i] && t[j] == s.files[j];
        }
      }
    }
  }

  /**
   Frees one file as `_clean_files` does: only when that exact file (same name and size) is
   resident; it is then deleted by name and its size returned to `available`.
   */
  function Remove(s: Storage, f: File): (r: Storage)
    ensures r.capacity == s.capacity
    ensures forall g :: g in r.files ==> g in s.files
    ensures f !in s.files ==> r == s
    ensures f in s.files ==> r.available == s.available + f.size && f.name !in Names(r.files)
  {
    if f in s.files then Storage(s.capacity, s.available + f.size, Delete(s.files, f.name)) else s
  }

  /** On a valid storage, removal keeps the accounting and takes away exactly the file `f`. */
  lemma RemoveValid(s: Storage, f: File)
    requires Valid(s)
    ensures Valid(Remove(s, f))
    ensures forall g :: g in Remove(s, f).files <==> g in s.files && g != f
  {
    if f in s.files {
      DeleteUnique(s.files, f.name);
      SizeDelete(s.files, f);
      forall g | g in s.files && g != f ensures g.name != f.name {
        SameNameSameFile(s.files, g, f);
      }
    }
  }

  /** Registering a new file and then freeing it gives back the storage it started from. */
  lemma AddRemoveRoundTrip(s: Storage, f: File)
    requires Valid(s) && !Holds(s, f.name)
    ensures Remove(Add(s, f), f) == s
  {
    var a := Add(s, f);
    assert f in a.files;
    DeleteAppendFresh(s.files, f);
  }

  lemma {:induction false} DeleteAppendFresh(t: seq<File>, f: File)
    requires f.name !in Names(t)
    ensures Delete(t + [f], f.name) == t
    decreases |t|
  {
    if |t| == 0 {
      assert t + [f] == [f];
    } else {
      assert (t + [f])[1..] == t[1..] + [f];
      assert t[0] in t;
      DeleteAppendFresh(t[1..], f);
      assert t == [t[0]] + t[1..];
    }
  }

  /** Registers a list of files in order, one `Add` each. */
  function AddAll(s: Storage, fs: seq<File>): (r: Storage)
    ensures r.capacity == s.capacity
    ensures Names(r.files) == Names(s.files) + Names(fs)
    ensures forall g :: g in s.files ==> g in r.files
    decreases |fs|
  {
    if |fs| == 0 then s
    else
      assert Names(fs) == {fs[0].name} + Names(fs[1..]) by {
        assert fs == [fs[0]] + fs[1..];
      }
      AddAll(Add(s, fs[0]), fs[1..])
  }

  lemma {:induction false} AddAllValid(s: Storage, fs: seq<File>)
    requires Valid(s)
    ensures Valid(AddAll(s, fs))
    decreases |fs|
  {
    if |fs| > 0 {
      AddValid(s, fs[0]);
      AddAllValid(Add(s, fs[0]), fs[1..]);
    }
  }

  /** Total size of the entries of `fs` whose name is outside `names`, counting repeats. */
  function Missing(fs: seq<File>, names: set<string>): nat
    decreases |fs|
  {
    if |fs| == 0 then 0
    else (if fs[0].name in names then 0 else fs[0].size) + Missing(fs[1..], names)
  }

  lemma {:induction false} MissingAntitone(fs: seq<File>, a: set<string>, b: set<string>)
    requires a <= b
    ensures Missing(fs, b) <= Missing(fs, a)
    decreases |fs|
  {
    if |fs| > 0 {
      MissingAntitone(fs[1..], a, b);
    }
  }

  /**
   Registering a list of files charges at most the total size of the entries not yet resident,
   and never credits anything.
   */
  lemma {:induction false} AddAllCharge(s: Storage, fs: seq<File>)
    ensures 0 <= s.available - AddAll(s, fs).available <= Missing(fs, Names(s.files))
    decreases |fs|
  {
    if |fs| > 0 {
      var s1 := Add(s, fs[0]);
      AddAllCharge(s1, fs[1..]);
      MissingAntitone(fs[1..], Names(s.files), Names(s1.files));
    }
  }
}

=== FILE: tasks.dfy ===
/**
 Tasks of task.py: the record of one workflow step, its status machine and its readiness rule.
 Parent tasks are referred to by id and looked up in an id-keyed task table, in place of the
 object references the source stores.
 */
module Tasks {
  import opened Files

  /** Every status the source declares; `Ready` and `Failed` are declared but never entered. */
  datatype Status = Idle | Ready | Queued | Running | Failed | Completed

  datatype Kind = Regular | Cleanup

  datatype Task = Task(
    id: string,
    transformation: string,
    duration: int,
    peakMemory: int,
    input: seq<File>,
    intermediate: seq<File>,
    output: seq<File>,
    parents: set<string>,
    status: Status,
    startTime: int,
    endTime: int,
    kind: Kind)

  /** The transformation a task id encodes: everything before its first underscore. */
  function TransformationOf(id: string): (r: string)
    ensures r <= id
    ensures '_' !in r
    ensures |r| < |id| ==> id[|r|] == '_'
    decreases |id|
  {
    if |id| == 0 || id[0] == '_' then "" else [id[0]] + TransformationOf(id[1..])
  }

  /** An id written as a transformation name, an underscore and anything else yields that name. */
  lemma {:induction false} TransformationOfPrefixed(name: string, rest: string)
    requires '_' !in name
    ensures TransformationOf(name + "_" + rest) == name
    decreases |name|
  {
    if |name| > 0 {
      assert (name + "_" + rest)[1..] == name[1..] + "_" + rest;
      TransformationOfPrefixed(name[1..], rest);
      assert name == [name[0]] + name[1..];
    } else {
      assert (name + "_" + rest)[0] == '_';
    }
  }

  /** Not scheduled: idle, with both times at -1. */
  predicate Unscheduled(t: Task) {
    t.status == Idle && t.startTime == -1 && t.endTime == -1
  }

  /** Everything but status and times: the part of a task no status transition touches. */
  predicate SameWork(a: Task, b: Task) {
    && a.id == b.id && a.transformation == b.transformation && a.duration == b.duration
    && a.peakMemory == b.peakMemory && a.input == b.input && a.intermediate == b.intermediate
    && a.output == b.output && a.parents == b.parents && a.kind == b.kind
  }

  /** The task constructor: no files, no parents, not scheduled. */
  function NewTask(id: string, duration: int, peakMemory: int, kind: Kind): (t: Task)
    ensures Unscheduled(t)
    ensures t.id == id && t.duration == duration && t.peakMemory == peakMemory && t.kind == kind
    ensures t.transformation == TransformationOf(id)
    ensures t.input == [] && t.intermediate == [] && t.output == [] && t.parents == {}
  {
    Task(id, TransformationOf(id), duration, peakMemory, [], [], [], {}, Idle, -1, -1, kind)
  }

  /** A regular task as a workflow description declares it (the constructor's defaults). */
  function NewRegularTask(id: string, duration: int, peakMemory: int): (t: Task)
    ensures t == NewTask(id, duration, peakMemory, Regular)
  {
    NewTask(id, duration, peakMemory, Regular)
  }

  /** Records a parent by id; adding a parent twice has the effect of adding it once. */
  function AddParent(t: Task, parent: string): (r: Task)
    ensures SameWork(t.(parents := r.parents), r) && r.status == t.status
    ensures r.startTime == t.startTime && r.endTime == t.endTime
    ensures parent in r.parents && r.parents - {parent} == t.parents - {parent}
  {
    t.(parents := t.parents + {parent})
  }

  lemma AddParentIdempotent(t: Task, parent: string)
    ensures AddParent(AddParent(t, parent), parent) == AddParent(t, parent)
    ensures parent in t.parents ==> AddParent(t, parent) == t
  {
  }

  /** A task is ready when every parent is registered in the table and completed; no parents means ready. */
  predicate IsReady(t: Task, table: map<string, Task>) {
    forall p | p in t.parents :: p in table && table[p].status == Completed
  }

  /** `is_ready` as the source computes it: a scan of the parents that stops at the first unfinished one. */
  method CheckReady(t: Task, table: map<string, Task>) returns (ready: bool)
    ensures ready <==> IsReady(t, table)
  {
    var todo := t.parents;
    while todo != {}
      invariant todo <= t.parents
      invariant forall p | p in t.parents && p !in todo :: p in table && table[p].status == Completed
      decreases todo
    {
      var p :| p in todo;
      if p !in table || table[p].status != Completed {
        return false;
      }
      todo := todo - {p};
    }
    return true;
  }

  lemma NoParentsReady(t: Task, table: map<string, Task>)
    requires t.parents == {}
    ensures IsReady(t, table)
  {
  }

  /** `run`: the task is running from `now` and is due to end `duration` later. */
  function Run(t: Task, now: int): (r: Task)
    ensures SameWork(t, r)
    ensures r.status == Running && r.startTime == now && r.endTime - r.startTime == t.duration
    ensures t.duration >= 0 ==> r.endTime >= r.startTime
  {
    t.(status := Running, startTime := now, endTime := now + t.duration)
  }

  /** `preempt`: back to idle with its times discarded; files and parents stay. */
  function Preempt(t: Task): (r: Task)
    ensures SameWork(t, r) && Unscheduled(r)
  {
    t.(status := Idle, startTime := -1, endTime := -1)
  }

  /** What `ComputeUnit.process_finished_task` does to the task: marks it completed, times kept. */
  function Complete(t: Task): (r: Task)
    ensures SameWork(t, r) && r.status == Completed
    ensures r.startTime == t.startTime && r.endTime == t.endTime
  {
    t.(status := Completed)
  }

  /** Running then preempting a task that was not scheduled restores it exactly. */
  lemma RunThenPreempt(t: Task, now: int)
    requires Unscheduled(t)
    ensures Preempt(Run(t, now)) == t
  {
  }

  /** All files of a task in the order the source visits them: input, intermediate, output. */
  function AllFiles(t: Task): seq<File> {
    t.input + t.intermediate + t.output
  }

  /** Cleanup tasks are created with no peak memory; the memory accounting relies on it. */
  predicate CleanupFree(t: Task) {
    t.kind == Cleanup ==> t.peakMemory == 0
  }
}

=== FILE: workflows.dfy ===
/**
 The `Workflow` registry of workflow.py: every task by id, the ids still pending (kept in
 insertion order; the source's dict has an order of its own), and every file by name.  Lookups of an unregistered id or
 name, a `KeyError` in the source, are an `Err` result here.
 */
module Workflows {
  import opened Files
  import opened Tasks

  datatype Workflow = Workflow(tasks: map<string, Task>, pending: seq<string>, files: map<string, File>)

  datatype Result = Ok(workflow: Workflow) | KeyError(key: string)

  function Empty(): (w: Workflow)
    ensures w.tasks == map[] && w.pending == [] && w.files == map[]
    ensures IsCompleted(w)
  {
    Workflow(map[], [], map[])
  }

  /** `is_completed`: nothing is pending. */
  predicate IsCompleted(w: Workflow) {
    |w.pending| == 0
  }

  /** The pending ids are listed once each. */
  predicate DistinctPending(w: Workflow) {
    forall i, j | 0 <= i < j < |w.pending| :: w.pending[i] != w.pending[j]
  }

  /** `pending[id] = ...`: an id already pending keeps its position, a new one is appended. */
  function MarkPending(pending: seq<string>, id: string): (r: seq<string>)
    ensures id in r
    ensures forall x :: x in r <==> x in pending || x == id
    ensures id in pending ==> r == pending
    ensures id !in pending ==> r == pending + [id]
  {
    if id in pending then pending else pending + [id]
  }

  /** `add_task`: the task is registered and pending under its id; other entries are untouched. */
  function AddTask(w: Workflow, t: Task): (r: Workflow)
    ensures r.tasks.Keys == w.tasks.Keys + {t.id} && r.tasks[t.id] == t
    ensures forall id | id in w.tasks && id != t.id :: r.tasks[id] == w.tasks[id]
    ensures forall id :: id in r.pending <==> id in w.pending || id == t.id
    ensures r.files == w.files
    ensures DistinctPending(w) ==> DistinctPending(r)
    ensures !IsCompleted(r)
  {
    Workflow(w.tasks[t.id := t], MarkPending(w.pending, t.id), w.files)
  }

  /** `add_file`: idempotent by name; the first file registered under a name stays. */
  function AddFile(w: Workflow, f: File): (r: Workflow)
    ensures f.name in r.files
    ensures f.name in w.files ==> r == w
    ensures f.name !in w.files ==> r.files == w.files[f.name := f]
    ensures r.tasks == w.tasks && r.pending == w.pending
  {
    if f.name in w.files then w else w.(files := w.files[f.name := f])
  }

  lemma AddFileIdempotent(w: Workflow, f: File, g: File)
    requires f.name == g.name
    ensures AddFile(AddFile(w, f), g) == AddFile(w, f)
  {
  }

  /** The role table of a task that a link selects. */
  function Role(t: Task, link: Link): seq<File> {
    match link
    case Input => t.input
    case Output => t.output
    case Intermediate => t.intermediate
  }

  /** Puts a file into one role table of a task. */
  function Attach(t: Task, f: File, link: Link): (r: Task)
    ensures link == Input ==> r == t.(input := Put(t.input, f))
    ensures link == Output ==> r == t.(output := Put(t.output, f))
    ensures link == Intermediate ==> r == t.(intermediate := Put(t.intermediate, f))
  {
    match link
    case Input => t.(input := Put(t.input, f))
    case Output => t.(output := Put(t.output, f))
    case Intermediate => t.(intermediate := Put(t.intermediate, f))
  }

  /**
   `add_use`: looks up the task, then the file (a missing one of either is a `KeyError`), and
   records the file under its name in the one role table the link names.  A link naming no
   role changes nothing.
   */
  function AddUse(w: Workflow, taskId: string, fileName: string, link: string): (r: Result)
    ensures taskId !in w.tasks ==> r == KeyError(taskId)
    ensures taskId in w.tasks && fileName !in w.files ==> r == KeyError(fileName)
    ensures r.Ok? <==> taskId in w.tasks && fileName in w.files
    ensures r.Ok? ==> r.workflow.files == w.files && r.workflow.pending == w.pending
    ensures r.Ok? ==> r.workflow.tasks.Keys == w.tasks.Keys
    ensures r.Ok? ==> forall id | id in w.tasks && id != taskId :: r.workflow.tasks[id] == w.tasks[id]
    ensures r.Ok? && ParseLink(link).None? ==> r.workflow == w
    ensures r.Ok? && ParseLink(link).Some? ==>
              r.workflow.tasks[taskId] == Attach(w.tasks[taskId], w.files[fileName], ParseLink(link).value)
  {
    if taskId !in w.tasks then KeyError(taskId)
    else if fileName !in w.files then KeyError(fileName)
    else
      match ParseLink(link)
      case None => Ok(w)
      case Some(l) => Ok(w.(tasks := w.tasks[taskId := Attach(w.tasks[taskId], w.files[fileName], l)]))
  }

  /** `add_use` touches exactly one role table of the named task: the file lands there and the two others are unchanged. */
  lemma AddUseOneRole(w: Workflow, taskId: string, fileName: string, link: Link)
    requires taskId in w.tasks && fileName in w.files
    ensures var t := w.tasks[taskId];
            var u := AddUse(w, taskId, fileName, LinkName(link)).workflow.tasks[taskId];
            && SameWork(t.(input := u.input, intermediate := u.intermediate, output := u.output), u)
            && u.status == t.status && u.startTime == t.startTime && u.endTime == t.endTime
            && w.files[fileName] in Role(u, link)
            && Names(Role(u, link)) == Names(Role(t, link)) + {w.files[fileName].name}
            && forall other: Link | other != link :: Role(u, other) == Role(t, other)
  {
    LinkRoundTrip(link, link);
  }

  /**
   `add_dependency`: looks up the child, then the parent (a missing one is a `KeyError`), and
   adds the parent's id to the child's parents.  The parent's own record is not touched.
   */
  function AddDependency(w: Workflow, childId: string, parentId: string): (r: Result)
    ensures childId !in w.tasks ==> r == KeyError(childId)
    ensures childId in w.tasks && parentId !in w.tasks ==> r == KeyError(parentId)
    ensures r.Ok? <==> childId in w.tasks && parentId in w.tasks
    ensures r.Ok? ==> r.workflow.files == w.files && r.workflow.pending == w.pending
    ensures r.Ok? ==> r.workflow.tasks.Keys == w.tasks.Keys
    ensures r.Ok? ==> r.workflow.tasks[childId] == AddParent(w.tasks[childId], parentId)
    ensures r.Ok? ==> forall id | id in w.tasks && id != childId :: r.workflow.tasks[id] == w.tasks[id]
  {
    if childId !in w.tasks then KeyError(childId)
    else if parentId !in w.tasks then KeyError(parentId)
    else Ok(w.(tasks := w.tasks[childId := AddParent(w.tasks[childId], parentId)]))
  }

  /** Repeating a dependency changes nothing more. */
  lemma AddDependencyIdempotent(w: Workflow, childId: string, parentId: string)
    requires childId in w.tasks && parentId in w.tasks
    ensures var once := AddDependency(w, childId, parentId).workflow;
            AddDependency(once, childId, parentId) == Ok(once)
  {
    var once := AddDependency(w, childId, parentId).workflow;
    AddParentIdempotent(w.tasks[childId], parentId);
    assert once.tasks[childId := AddParent(once.tasks[childId], parentId)] == once.tasks;
  }
}
